=== FILE: README.md ===
# clipboard-recv-send in Dafny

This project models two ways of moving files through the clipboard, and proves properties of both.

## The "B64CLIP1" protocol

There are two senders:
- a single-file sender (`sender/clip_b64_send_win.py`);
- a directory sender (`automatic/sender/clip_b64_send_win.py`).

Each sender reads a file in blocks and Base64-encodes it as a stream. It cuts the encoding into payloads of `--chunk` characters. It copies each payload to the clipboard as `header + "\n" + payload`. The header looks like this:

    B64CLIP1|seq=..|total=..|len=..|crc=..|fsize=..|name=..

It carries:
- a sequence number;
- an estimated chunk total;
- the payload length;
- the CRC-32 of the payload, as eight upper-case hex digits;
- the file size;
- the file name, with `|` replaced by `_`.

The polling receiver (`automatic/receiver/clip_b64_recv_poll_win.py`) reads the clipboard, skips texts it has already seen, and parses the header. A header naming another file than the open one closes that file and starts the new one. The receiver checks the sequence number, the length and the CRC. It then decodes the whole four-character groups it has buffered and appends the bytes to the file. It closes the file when the sequence number reaches the announced total.

## The "J2B64v1" protocol

The manual sender (`manual/sender/copy_b64_files.py`) lists a directory and sorts the files by `(name.lower(), str(path).lower())`. It can keep only the files whose extension is listed. For each file it offers, one key press at a time:
- a START control frame;
- a DATA frame per raw chunk;
- an END control frame.

A control frame is the Base64 of the marker `J2B64v1\n` followed by compact, ASCII-only JSON. A DATA frame is the plain Base64 of `(chunk_chars // 4) * 3` raw bytes.

The manual receiver (`manual/recv/paste_b64_files.py`) decodes the clipboard strictly on each key press. A START opens its target, truncated unless `--append`. DATA is appended to the open file, and `total_written` counts it. An END closes the file.

## The files

| file | module | what it holds |
|---|---|---|
| `wrappers.dfy` | `Wrappers` | `Option` |
| `maps.dfy` | `Maps` | a fact about overwriting a key of the file map |
| `arith.dfy` | `Arith` | division facts used by the proofs |
| `text.dfy` | `Text` | Python's `strip`, `lower`, `upper`, `split`, `int()`, `str(int)` and string order |
| `base64.dfy` | `Base64` | `b64encode` and strict `b64decode(validate=True)` from section 4 of RFC 4648 |
| `crc32.dfy` | `Crc32` | zlib's CRC-32 on `bv32` and its `{:08X}` text |
| `chunker.dfy` | `Chunker` | `b64_payload_chunks` as a method with loops, its functional specification, and the chunk estimate |
| `header.dfy` | `ClipHeader` | `make_header` and `parse_header_line` |
| `clip_sender.dfy` | `ClipSender` | `parse_size`, the frames of a file, and both senders' waiting rules |
| `clip_receiver.dfy` | `ClipReceiver` | one poll of the receiver loop |
| `transfer.dfy` | `Transfer` | one file and a whole directory through sender and receiver |
| `control.dfy` | `Control` | the JSON values, `json.dumps(ensure_ascii=True, separators=(",", ":"))`, and the control frames |
| `manual_sender.dfy` | `ManualSender` | the file order, the extension filter, the chunk size, the frames, and key gating with `q` |
| `manual_receiver.dfy` | `ManualReceiver` | one key press of the receiver loop, and its invariant |
| `manual_transfer.dfy` | `ManualTransfer` | the manual protocol end to end |

## How the model is built

- The file system is a map from name (or target) to bytes. It is updated on every write, so a crash leaves partial contents visible.
- Clipboard reads, key presses and clocks become inputs:
  - the polling receiver is run over a sequence of clipboard texts;
  - the manual receiver is run over a sequence of `(key, clipboard text)` presses;
  - the manual sender is run over a sequence of keys;
  - a sender's waits are recorded as booleans next to each copy.
- An exception that nothing catches is a `Crash` or `Crashed` outcome. A `return 2` after a Base64 error is an exit with code 2.
- `json.loads` is a parameter `loads` of the manual receiver, from bytes to `Option<Json>`.
  - The end-to-end lemma assumes `loads` reads back the two objects it is given.
  - `Control.UnescapeEscape` proves the string-escaping half of that assumption for `json.dumps`'s own output.

Limits of the protocols that the proofs expose:
- The directory sender's estimate can exceed the real payload count when `--chunk` is not a multiple of four (`Transfer.EstimateOvercounts`). The receiver then writes the whole file but never closes it (`Transfer.OvercountLeavesOpen`).
- An empty file sends no frame, so the polling receiver never creates it.
- In the manual protocol, a DATA chunk whose raw bytes begin with `J2B64v1\n` is taken for a control frame, and is lost when the rest is not a JSON object (`ManualReceiver.MarkedDataLost`). The end-to-end theorem therefore requires that no chunk begins with the marker.

## Model

Paths are relative to the repository root. The field separator of the header is the vertical bar.

| member | source | states |
|---|---|---|
| Base64.Encode | automatic/sender/clip_b64_send_win.py:62 | `b64encode` gives four characters for every group of up to three bytes |
| Base64.EncodedLenValue | manual/sender/copy_b64_files.py:116-118 | the encoded length is `4 * ceil(n / 3)`, the formula the docstring relies on |
| Base64.Decode | automatic/receiver/clip_b64_recv_poll_win.py:169 | a strict decode succeeds only on text made of whole four-character groups |
| Base64.DecodeEncode | automatic/receiver/clip_b64_recv_poll_win.py:169 | `b64decode(b64encode(s), validate=True) == s` for every byte sequence |
| Base64.EncodeAppend | automatic/sender/clip_b64_send_win.py:58-62 | encoding a prefix whose length is a multiple of three separately from the rest gives the same text, which is why encoding block by block is sound |
| Base64.EncodePrefix | automatic/sender/clip_b64_send_win.py:59-62 | the encoding of a three-byte-aligned prefix is a prefix of the whole encoding |
| Base64.DecodeSplit | automatic/receiver/clip_b64_recv_poll_win.py:164-169 | decoding whole groups and then the rest gives the decode of the whole text, so decoding as data arrives loses nothing |
| Base64.EncodeChars | automatic/sender/clip_b64_send_win.py:65 | every character of an encoding is an alphabet character, or `=` in the last two places |
| Base64.EncodeHasNoSpace | manual/recv/paste_b64_files.py:116 | an encoding holds no whitespace, so `.strip()` leaves a frame unchanged |
| Base64.Base64Plain | automatic/receiver/clip_b64_recv_poll_win.py:155 | Base64 text is ASCII without whitespace, so `.strip()` and `.encode("ascii")` accept it unchanged |
| Crc32.Crc32 | automatic/sender/clip_b64_send_win.py:122 | the checksum, masked with `0xFFFFFFFF`, is below 2^32 |
| Crc32.AsciiBytes | automatic/sender/clip_b64_send_win.py:122 | `encode("ascii")` gives one byte per character |
| Crc32.Hex8 | automatic/sender/clip_b64_send_win.py:123 | `{:08X}` writes exactly eight upper-case hex digits |
| Crc32.Hex8RoundTrip | automatic/sender/clip_b64_send_win.py:123 | reading the eight digits back gives the checksum |
| Crc32.Hex8Injective | automatic/receiver/clip_b64_recv_poll_win.py:155-157 | two checksums print alike exactly when they are equal, so comparing texts compares values |
| Crc32.Hex8Plain | automatic/receiver/clip_b64_recv_poll_win.py:47 | the printed checksum survives `.upper()` and `.strip()`, and holds no field separator, `=` or line break |
| Crc32.CrcHex | automatic/sender/clip_b64_send_win.py:122-123 | the payload checksum text is eight characters long |
| Text.IndexOf | automatic/receiver/clip_b64_recv_poll_win.py:110 | the first line break, or the length when there is none |
| Text.SplitOn | automatic/receiver/clip_b64_recv_poll_win.py:33 | splitting at the field separator gives at least one part, and no part holds the separator |
| Text.JoinSplit | automatic/receiver/clip_b64_recv_poll_win.py:33 | joining the parts of a split with the separator gives the line back |
| Text.IntRoundTrip | automatic/receiver/clip_b64_recv_poll_win.py:44-46 | `int(str(i)) == i` exactly when `i` has at most 4300 digits; for a longer `i`, `int()` refuses the text |
| Text.TooManyDigits | automatic/receiver/clip_b64_recv_poll_win.py:44 | `int()` refuses every digit string longer than 4300 digits |
| Text.StripIdempotent | manual/recv/paste_b64_files.py:116 | stripping a stripped text changes nothing |
| Text.StripEmptyIffBlank | automatic/receiver/clip_b64_recv_poll_win.py:111-112 | a stripped payload is empty exactly when the payload is all whitespace |
| Text.LexLessTrichotomy | manual/sender/copy_b64_files.py:51 | Python's string order is total |
| Text.LexLessTransitive | manual/sender/copy_b64_files.py:51 | Python's string order is transitive |
| Chunker.PayloadChunks | automatic/sender/clip_b64_send_win.py:46-72 | for every read-block size, the streaming loop yields exactly the reference payloads of the whole encoding; `in_done` never decreases and ends at the file size |
| Chunker.ReadBlock | automatic/sender/clip_b64_send_win.py:53-62 | one read appends the encoding of the next whole three-byte groups to the buffer and carries fewer than three bytes over |
| Chunker.CutFull | automatic/sender/clip_b64_send_win.py:64-67 | full payloads leave the front of the buffer until fewer than `size` characters remain |
| Chunker.PayloadsSpellEncoding | automatic/sender/clip_b64_send_win.py:46-72 | the payloads concatenate to the Base64 of the whole file; their count is stated; an empty file yields none |
| Chunker.PayloadSizes | automatic/sender/clip_b64_send_win.py:64-72 | every payload but the last has exactly `size` characters; the last is non-empty and at most `size + 3` long, and at most `size` when `size` is a multiple of four |
| Chunker.PaddingOnlyInLast | automatic/sender/clip_b64_send_win.py:69-72 | `=` can only appear in the last payload |
| Chunker.PayloadsAreBase64 | automatic/sender/clip_b64_send_win.py:65 | every payload is Base64 text, so `decode("ascii")` succeeds |
| Chunker.AlignedLenBounds | automatic/sender/clip_b64_send_win.py:59-70 | the aligned part encoded in the loop falls short of the whole encoding by one padded group exactly when the size is not a multiple of three |
| Chunker.EstimatedChunks | automatic/sender/clip_b64_send_win.py:100-101 | the announced total is at least 1 |
| Chunker.EstimateBoundsCount | automatic/sender/clip_b64_send_win.py:100-101 | the payload count never exceeds `max(1, ceil(4 * ceil(n / 3) / P))`, and equals it for a non-empty file when `P` is a multiple of four |
| ClipHeader.SafeName | automatic/sender/clip_b64_send_win.py:42 | every field separator in the name becomes `_` and every other character stays |
| ClipHeader.HeaderNoNewline | automatic/sender/clip_b64_send_win.py:41-44 | a header holds no line break when the name holds none |
| ClipHeader.HeaderStripped | automatic/receiver/clip_b64_recv_poll_win.py:33 | a header line is its own strip when the name does not end in whitespace |
| ClipHeader.ParseNeedsMagic | automatic/receiver/clip_b64_recv_poll_win.py:33-35 | only a line starting with the magic followed by the field separator parses |
| ClipHeader.SplitFieldOf | automatic/receiver/clip_b64_recv_poll_win.py:39 | `split("=", 1)` on `k=v` with no `=` in `k` gives back `k` and `v` |
| ClipHeader.FieldsSnoc | automatic/receiver/clip_b64_recv_poll_win.py:37-40 | a field `k=v` stores the stripped value under the stripped key, replacing an earlier one |
| ClipHeader.FieldsSkip | automatic/receiver/clip_b64_recv_poll_win.py:37-38 | a part without `=` is ignored |
| ClipHeader.ParseRendered | automatic/receiver/clip_b64_recv_poll_win.py:32-50 | a line of the magic and rendered pairs parses to the dictionary of the pairs |
| ClipHeader.HeaderOfHeader | automatic/receiver/clip_b64_recv_poll_win.py:41-50 | the dictionary of a made header converts back to the numbers, the upper-cased checksum, the size and the sanitised name, for numbers of at most 4300 digits |
| ClipHeader.ParseMakeHeader | automatic/receiver/clip_b64_recv_poll_win.py:32-50 | `parse_header_line(make_header(...))` recovers every field, for names without surrounding whitespace and numbers of at most 4300 digits |
| ClipHeader.LongSeqRejected | automatic/receiver/clip_b64_recv_poll_win.py:44 | a header whose `seq` has more than 4300 digits does not parse, so the poll skips it |
| ClipSender.ParseSize | automatic/sender/clip_b64_send_win.py:12-27 | an accepted size is positive |
| ClipSender.SplitSizeText | automatic/sender/clip_b64_send_win.py:15-23 | the suffix test finds the unit of a size text and leaves its number |
| ClipSender.ParseSizeText | automatic/sender/clip_b64_send_win.py:12-27 | `parse_size("<n><unit>")` is `n` times the unit's multiplier when `n` has at most 4300 digits and the product is positive, and raises otherwise |
| ClipSender.PayloadsAscii | automatic/sender/clip_b64_send_win.py:122 | payloads are ASCII, so the checksum's `encode("ascii")` succeeds |
| ClipSender.FramesOf | automatic/sender/clip_b64_send_win.py:121-126 | one frame per payload, numbered from 1 |
| ClipSender.FileFrames | automatic/sender/clip_b64_send_win.py:98-126 | one frame for each payload of the file |
| ClipSender.SingleRun | sender/clip_b64_send_win.py:105-107 | the single-file sender copies its frames in order; every copy after the first waits; the first waits exactly under `--no-wait-first` |
| ClipSender.DirFrames | automatic/sender/clip_b64_send_win.py:98-126 | one list of frames per file, as many as the file has payloads |
| ClipSender.DirRun | automatic/sender/clip_b64_send_win.py:98-119 | one copy per frame of every file |
| ClipSender.DirRunTexts | automatic/sender/clip_b64_send_win.py:98-129 | the directory sender copies every frame of every file, file after file |
| ClipSender.DirRunAsWrittenNoGap | automatic/sender/clip_b64_send_win.py:105-119 | as written, under `--no-wait-first` the first frame of the second file follows the first file's last frame without a wait |
| ClipSender.DirRunWaits | automatic/sender/clip_b64_send_win.py:105-119 | under the corrected rule every copy but the run's first waits, and the first waits exactly without `--no-wait-first` |
| ClipReceiver.Initial | automatic/receiver/clip_b64_recv_poll_win.py:67-75 | the loop starts with no file open and no clipboard text seen |
| ClipReceiver.Write | automatic/receiver/clip_b64_recv_poll_win.py:173 | `out.write(data)` puts the bytes at the end of the file, and other files keep their contents |
| ClipReceiver.Cut | automatic/receiver/clip_b64_recv_poll_win.py:164 | `(len(buf) // 4) * 4` is a multiple of four within three characters of the length |
| ClipReceiver.Received | automatic/receiver/clip_b64_recv_poll_win.py:107-118 | a text yields nothing exactly when it has no line break, its stripped payload is empty, or its first line does not parse; otherwise it yields the parsed header and the stripped payload |
| ClipReceiver.Poll | automatic/receiver/clip_b64_recv_poll_win.py:101-118 | empty or repeated text changes nothing; new text is remembered; text with no line break, a blank payload or a bad header changes nothing else; only exit codes 2 and the crash code occur |
| ClipReceiver.Frame | automatic/receiver/clip_b64_recv_poll_win.py:120-146 | a parsed frame exits only with code 2 or the crash code, and keeps the last text |
| ClipReceiver.Open | automatic/receiver/clip_b64_recv_poll_win.py:121-145 | starting a file exits only with code 2 or the crash code, and keeps the last text; a header without `fsize`, or with one too large for `float()`, crashes after the file is emptied |
| ClipReceiver.Take | automatic/receiver/clip_b64_recv_poll_win.py:147-159 | a payload that fails the sequence, length or checksum check leaves the session as it was |
| ClipReceiver.TakeAccepted | automatic/receiver/clip_b64_recv_poll_win.py:147-162 | a payload that passes every check is absorbed |
| ClipReceiver.Absorb | automatic/receiver/clip_b64_recv_poll_win.py:161-220 | absorbing a payload exits only with code 2 and keeps the last text |
| ClipReceiver.AbsorbExtends | automatic/receiver/clip_b64_recv_poll_win.py:161-176 | while the file is unfinished, the file holds the decode of the whole groups received and the buffer the remainder |
| ClipReceiver.AbsorbCompletes | automatic/receiver/clip_b64_recv_poll_win.py:199-219 | the payload that reaches the total closes the file holding the decode of everything received |
| ClipReceiver.FlushCutShort | automatic/receiver/clip_b64_recv_poll_win.py:201-206 | text that stops inside a four-character group makes the final decode fail |
| ClipReceiver.TakeKeepsValid | automatic/receiver/clip_b64_recv_poll_win.py:147-176 | the checks keep the open file in the directory |
| ClipReceiver.OpenKeepsValid | automatic/receiver/clip_b64_recv_poll_win.py:135-143 | opening a file keeps the state valid |
| ClipReceiver.FrameKeepsValid | automatic/receiver/clip_b64_recv_poll_win.py:120-220 | handling a frame keeps the state valid |
| ClipReceiver.PollKeepsValid | automatic/receiver/clip_b64_recv_poll_win.py:101-220 | every poll keeps the state valid |
| Transfer.SplitFrame | automatic/receiver/clip_b64_recv_poll_win.py:110 | splitting `header + "\n" + payload` at the first line break gives back both parts |
| Transfer.FrameView | automatic/receiver/clip_b64_recv_poll_win.py:107-118 | the receiver reads each frame of a file as its header and payload |
| Transfer.FramesDiffer | automatic/receiver/clip_b64_recv_poll_win.py:102-103 | two frames of a file are never the same text, so none is skipped as a repeat |
| Transfer.PollParsed | automatic/receiver/clip_b64_recv_poll_win.py:101-120 | new text with a parsing header and a non-blank payload goes to the frame logic |
| Transfer.PollOpens | automatic/receiver/clip_b64_recv_poll_win.py:121-145 | a frame naming a new file, with a size `float()` accepts, opens it empty, expecting sequence number 1 |
| Transfer.FirstFrame | automatic/receiver/clip_b64_recv_poll_win.py:121-176 | the first frame of a file opens it and absorbs its payload |
| Transfer.NextFrame | automatic/receiver/clip_b64_recv_poll_win.py:147-176 | each later frame moves the receiver one frame on |
| Transfer.FileTransfer | automatic/receiver/clip_b64_recv_poll_win.py:87-220 | one file's frames, polled in order, write exactly its bytes under the sanitised name; the file stays open exactly when the estimate overcounts; the file's numbers must fit `str()` and `float()` |
| Transfer.EstimateOvercounts | automatic/sender/clip_b64_send_win.py:100-101 | a ten-byte file with a three-character chunk gives five payloads against an estimate of six |
| Transfer.OvercountLeavesOpen | automatic/receiver/clip_b64_recv_poll_win.py:199 | that file is written whole but never closed |
| Transfer.FirstFrameNew | automatic/receiver/clip_b64_recv_poll_win.py:102 | the first frame of the next file is never mistaken for the last text seen |
| Transfer.DirFilesHold | automatic/receiver/clip_b64_recv_poll_win.py:121-143 | after the files of a directory, each non-empty file holds its bytes and every other name keeps its contents |
| Transfer.DirectoryTransfer | automatic/receiver/clip_b64_recv_poll_win.py:87-220 | the frames of a whole directory, polled in order, write every non-empty file whole and leave every other file alone, for every chunk size |
| Control.Get | manual/recv/paste_b64_files.py:131-132 | `meta.get(key)` finds a value exactly when a member has that key, and the value is that member's |
| Control.GetLast | manual/recv/paste_b64_files.py:130 | of duplicate keys, `json.loads` keeps the last |
| Control.Hex4RoundTrip | manual/sender/copy_b64_files.py:111 | a `\uXXXX` escape reads back as the code it writes |
| Control.EscapeChar | manual/sender/copy_b64_files.py:111 | `ensure_ascii=True` writes every character as printable ASCII |
| Control.Escape | manual/sender/copy_b64_files.py:111 | an escaped string is printable ASCII and no shorter than the string |
| Control.UnescapeEscape | manual/recv/paste_b64_files.py:130 | `json.loads` reads back every string `json.dumps` wrote, surrogate pairs included |
| Control.DumpsPrintable | manual/sender/copy_b64_files.py:111 | the whole compact JSON text is printable ASCII |
| Control.DumpsBytes | manual/sender/copy_b64_files.py:111 | `.encode("utf-8")` of that text is one byte per character, with the character's code |
| Control.ControlFrameDecodes | manual/recv/paste_b64_files.py:116-128 | a control frame survives `.strip()`, is not empty, and decodes strictly to the marker followed by the JSON bytes |
| Control.StartFields | manual/sender/copy_b64_files.py:129-134 | the START object reads back as type `start` with its name and size |
| Control.EndFields | manual/sender/copy_b64_files.py:135-138 | the END object reads back as type `end` with its name |
| ManualSender.KeyLessAsymmetric | manual/sender/copy_b64_files.py:51 | the sort key order is asymmetric |
| ManualSender.KeyNotLessTransitive | manual/sender/copy_b64_files.py:51 | the sort key order is total: not being smaller is transitive |
| ManualSender.Insert | manual/sender/copy_b64_files.py:51 | insertion adds exactly one file |
| ManualSender.InsertSorted | manual/sender/copy_b64_files.py:51 | insertion into sorted files keeps them sorted |
| ManualSender.SortFiles | manual/sender/copy_b64_files.py:45-52 | the listing comes out in key order, and is a permutation of what was listed |
| ManualSender.InsertEqualKeys | manual/sender/copy_b64_files.py:51 | an inserted file goes ahead of every file with an equal key |
| ManualSender.SortStable | manual/sender/copy_b64_files.py:51 | the sort is stable: the files with any one key keep the order in which they were listed |
| ManualSender.LastIndexOf | manual/sender/copy_b64_files.py:224 | `rfind`: the last occurrence, or -1 |
| ManualSender.Suffix | manual/sender/copy_b64_files.py:224 | `Path.suffix` is empty, or the name's tail from its last dot, which neither leads nor ends the name |
| ManualSender.KeepWanted | manual/sender/copy_b64_files.py:224 | a file is kept exactly when its lower-cased suffix is wanted |
| ManualSender.KeepWantedSorted | manual/sender/copy_b64_files.py:224 | filtering keeps the order |
| ManualSender.Selected | manual/sender/copy_b64_files.py:221-224 | the files sent are sorted; without `--extensions` they are all listed files, otherwise exactly those with a wanted suffix |
| ManualSender.ExtDotOptional | manual/sender/copy_b64_files.py:223 | `txt` and `.txt` select the same files |
| ManualSender.RelName | manual/sender/copy_b64_files.py:127 | backslashes become `/` and nothing else changes |
| ManualSender.RawBytesPerChunk | manual/sender/copy_b64_files.py:115-122 | at least one byte; from four characters up, whole groups of three whose encoding fits the chunk |
| ManualSender.RawBytesMaximal | manual/sender/copy_b64_files.py:115-122 | one byte more would no longer fit |
| ManualSender.Chunks | manual/sender/copy_b64_files.py:156-160 | the `f.read(n)` results are non-empty and at most `n` bytes; all but the last are full; there are none exactly for an empty file |
| ManualSender.ChunksJoin | manual/sender/copy_b64_files.py:156-163 | the chunks are the file, in order |
| ManualSender.ChunksCount | manual/sender/copy_b64_files.py:156-162 | there are `ceil(size / n)` chunks |
| ManualSender.Encoded | manual/sender/copy_b64_files.py:164 | each DATA frame is the Base64 of its chunk |
| ManualSender.DataFrames | manual/sender/copy_b64_files.py:156-164 | one DATA frame per chunk |
| ManualSender.FileFrames | manual/sender/copy_b64_files.py:140-194 | a file's frames are START, a DATA frame per chunk, and END |
| ManualSender.DataFramesFit | manual/sender/copy_b64_files.py:150-164 | every DATA frame fits the requested number of characters |
| ManualSender.Gate | manual/sender/copy_b64_files.py:140-194 | the frames copied are a prefix of the frames offered, one key press each |
| ManualSender.GateDone | manual/sender/copy_b64_files.py:140-194 | every frame is copied exactly when there is a press for each and none is `q` |
| ManualSender.GateQuit | manual/sender/copy_b64_files.py:142-145 | gating stops at the first `q`; the frames before it are copied |
| ManualSender.SendFrames | manual/sender/copy_b64_files.py:239-254 | the loop over files ends with exit code 0 or waits at a prompt |
| ManualSender.AfterGate | manual/sender/copy_b64_files.py:249-254 | after a file, the loop ends with exit code 0 or waits at a prompt |
| ManualSender.PerFile | manual/sender/copy_b64_files.py:239-244 | the frames of each selected file, in order |
| ManualSender.Main | manual/sender/copy_b64_files.py:197-257 | a chunk size below 1 KB or a missing directory exits with 1 and copies nothing; no selected file exits with 0; code 2 never occurs |
| ManualSender.SendsEverything | manual/sender/copy_b64_files.py:239-257 | with enough presses and no `q`, every frame of every file is copied in order and the exit code is 0 |
| ManualSender.MainSendsEverything | manual/sender/copy_b64_files.py:197-257 | `main` with files to send and presses that never quit copies every frame and exits with 0 |
| ManualSender.QuitKey | manual/sender/copy_b64_files.py:143 | `q` quits |
| ManualSender.EnterKey | manual/sender/copy_b64_files.py:143 | Enter does not quit |
| ManualSender.QuitEndsRun | manual/sender/copy_b64_files.py:142-145 | under the corrected rule, the presses after the first `q` change nothing |
| ManualSender.QuitContinuesAsWritten | manual/sender/copy_b64_files.py:239-254 | as written, a `q` in the first file's prompt still lets the second file's START frame be copied |
| ManualReceiver.Initial | manual/recv/paste_b64_files.py:101-103 | the loop starts valid, with no file open and nothing counted |
| ManualReceiver.TargetOf | manual/recv/paste_b64_files.py:144-147 | `--out` always targets the single file; otherwise a string name other than `""` and `.` names a file under the directory, and anything else raises |
| ManualReceiver.Open | manual/recv/paste_b64_files.py:137-153 | START opens its target empty (or with its old contents under `--append`), counts nothing, and leaves every other file alone |
| ManualReceiver.Append | manual/recv/paste_b64_files.py:180-182 | DATA goes at the end of the open file and adds its length to `total_written` |
| ManualReceiver.Step | manual/recv/paste_b64_files.py:109-183 | no clipboard text, blank text or text that does not decode changes nothing; DATA with no file open is dropped |
| ManualReceiver.StepKeepsValid | manual/recv/paste_b64_files.py:109-183 | every key press keeps the state valid |
| ManualReceiver.Run | manual/recv/paste_b64_files.py:109-113 | `q` ends the loop with exit code 0 |
| ManualReceiver.Main | manual/recv/paste_b64_files.py:87-99 | anything but exactly one of `--out-dir` and `--out` exits with 1 before the loop; an empty one is read as absent by lines 91-92, so `ensure_parent_dir(None)` crashes; otherwise the loop starts with no file open |
| ManualReceiver.EncodeSpells | manual/recv/paste_b64_files.py:116-121 | every frame survives `.strip()` and decodes to its bytes |
| ManualReceiver.StepDecoded | manual/recv/paste_b64_files.py:116-183 | pasted text, surrounding whitespace allowed, whose strip decodes to `d`: `d` is a control frame, dropped DATA, or appended DATA |
| ManualReceiver.ControlBody | manual/recv/paste_b64_files.py:128-130 | a control frame starts with the marker, and the JSON follows it |
| ManualReceiver.StepControl | manual/recv/paste_b64_files.py:128-173 | a control frame that loads is handled by its `type` and `name` |
| ManualReceiver.StartOpens | manual/recv/paste_b64_files.py:137-159 | a START frame opens its target afresh, with the count at 0, whatever was open |
| ManualReceiver.EndCloses | manual/recv/paste_b64_files.py:161-170 | an END frame closes the open file and resets the count; with no file open it changes nothing |
| ManualReceiver.DataAppends | manual/recv/paste_b64_files.py:116-182 | DATA pasted with or without surrounding whitespace keeps the invariant: `total_written` equals the bytes appended since START |
| ManualReceiver.StepStrips | manual/recv/paste_b64_files.py:116 | whitespace around the clipboard text, such as a trailing line break, does not change a step |
| ManualReceiver.SpellsPastes | manual/recv/paste_b64_files.py:116-121 | a frame as the sender writes it is pasted text that decodes to its bytes |
| ManualReceiver.ControlFrameCases | manual/recv/paste_b64_files.py:128-173 | a control frame crashes, changes nothing, closes the open file with the count at 0, or opens a file with the count at 0 |
| ManualReceiver.AppendCounts | manual/recv/paste_b64_files.py:180-182 | appending to a file open since START keeps the file as its base plus the bytes since START, counted exactly |
| ManualReceiver.StepKeepsCount | manual/recv/paste_b64_files.py:137-182 | from a file open since START, every key press crashes, changes nothing, closes with the count at 0, opens with the count at 0, or appends the decoded bytes and counts exactly them (lines 153, 167, 182) |
| ManualReceiver.DataWithoutStart | manual/recv/paste_b64_files.py:176-178 | DATA with no file open is dropped |
| ManualReceiver.MarkedDataLost | manual/recv/paste_b64_files.py:128-135 | DATA starting with the marker whose rest does not load is lost |
| ManualTransfer.FeedData | manual/recv/paste_b64_files.py:175-182 | DATA frames append their chunks in order, and `total_written` counts them all |
| ManualTransfer.StartArrives | manual/recv/paste_b64_files.py:137-159 | a file's START frame opens its target |
| ManualTransfer.DataArrives | manual/recv/paste_b64_files.py:175-182 | a file's DATA frames write the whole file after what the target held |
| ManualTransfer.EndArrives | manual/recv/paste_b64_files.py:161-170 | a file's END frame closes it |
| ManualTransfer.FileArrives | manual/sender/copy_b64_files.py:125-194 | one file's frames, pasted in order, write the file and leave nothing open |
| ManualTransfer.FilesArrive | manual/sender/copy_b64_files.py:239-254 | every file's frames, pasted in order, deliver every file |
| ManualTransfer.DirDelivers | manual/recv/paste_b64_files.py:144-153 | under `--out-dir`, distinct names each end up whole under their own name, and every other file is unchanged |
| ManualTransfer.OutDelivers | manual/recv/paste_b64_files.py:144-151 | under `--out` with `--append` the file gains every file's bytes in order; without it, it keeps only the last file |
| ManualTransfer.RunPresses | manual/recv/paste_b64_files.py:109-113 | a run over pasted texts ending in `q` ends where feeding them ends |
| ManualTransfer.Roundtrip | manual/sender/copy_b64_files.py:197-257 | the sender's `main` with Enter at every prompt exits with 0, and the receiver's `main` over its copies exits with 0 holding every selected file, or crashes when its one output option is empty |

## Left out

- ClipSender.ParseSize accepts only integer number texts of at most 4300 digits. Python's `int(float(s) * mul)` also accepts `1.5k` (1536). It rounds above 2^53. Past about 1.8e308, `float()` gives `inf` and `int()` raises `OverflowError`. Floating point is not modelled.
- Text.Upper and Text.Lower map ASCII letters only. Python maps all of Unicode, so `'ﬀ'.upper()` is `FF` and `'K'.lower()` is `k`.
- Text.ParseInt accepts a sign, ASCII digits and single underscores, and refuses more than 4300 digits as Python 3.11 and later do. Python's `int()` also accepts the other Unicode decimal digits.
- ClipReceiver.Open keeps files in a map keyed by the sanitised name. It does not model two names for one file (`a` and `./a`), an empty name opening the directory itself (`IsADirectoryError`), or a failing `open`.
- The polling receiver's `--timeout`, its ten-second polling schedule, and the senders' sleep lengths depend on the clock. Only whether a copy waits is modelled.
- Base64.Decode follows `b64decode(validate=True)` from Python 3.11 on. Older versions also accept excess `=` after a full group.
- The directory sender's `sorted(...)` listing and its "directory not found" and "no files found" exits: the directory is taken as a list of `(name, bytes)` in the order given.
- `human`, `human_bytes`, progress, speed and ETA output are printing only, with one exception. The receiver's `human(file_size)` at automatic/receiver/clip_b64_recv_poll_win.py:145 can raise, and ClipReceiver.Open models that. The other `human(...)` calls would raise only on byte counts past 2^1024, which the model does not track.
- Text.IntToString and ClipHeader.MakeHeader do not model `str()` raising `ValueError` on numbers of more than 4300 digits. The read-back lemmas therefore require `Text.Formattable` of each number.
- Transfer.FileTransfer and Transfer.DirectoryTransfer require `Transfer.Announced`: the chunk total, the payload lengths and the file size must fit `str()`, and the size must fit `float()`. Past these bounds the sender's `str()` or the receiver's `float()` raises, and the model does not promise a transfer.
- Clipboard tools are outside the model:
  - a failed clipboard write (`SystemExit` in the polling senders, `return 2` in the manual sender) is not modelled, so ManualSender.Main never returns 2;
  - a failed clipboard read in the manual receiver is a press whose text is `None`, which changes nothing.
- Chunker.EstimatedChunks uses an exact integer ceiling where the sender computes `math.ceil` of a float quotient (automatic/sender/clip_b64_send_win.py:100-101). The two agree while the quotients stay exactly representable as doubles (sizes below 2^53); the model does not track float rounding beyond that.
- ManualReceiver.Step takes `json.loads` as the parameter `loads`. The JSON parser is not modelled; only `json.dumps` and the string escapes it writes are. The end-to-end lemma assumes that `loads` reads back the two frame objects.
- Control.Json has no floating-point numbers; the frames carry none.
- ManualReceiver.TargetOf treats only `""` and `.` as names that cannot be opened. It does not model absolute names, `..`, names that alias one file, or `ensure_parent_dir` failing.
- The manual sender's directory walk (`iterdir` or `rglob`) and its `stat`: the listing is a parameter, each file's relative path and `int(st_mtime)` are fields. The size sent is the length of the bytes read, so a file changing while it is read is not modelled.
- ManualSender.Suffix follows `PurePath.suffix` up to Python 3.13. From 3.14 a name ending in a dot has suffix `.`.
- Key presses are strings. On Windows `msvcrt.getch` reads one character; a `q` key reads as `"q"` in both cases.
- Closing the files at the end of the receivers changes no contents and is not modelled.

## Findings

| source | as written | input that shows it | evidently intended | confidence | as-written member | corrected member |
|---|---|---|---|---|---|---|
| automatic/sender/clip_b64_send_win.py:105-119 | `--no-wait-first` is tested against `seq`, which restarts at 0 for every file, so the first frame of every file is copied without a wait | two files of one payload each, with `--no-wait-first`: the second copy follows the first at once, and a receiver polling every ten seconds misses the first | only the run's first frame skips the wait; every later copy waits for the next ten-second boundary | medium, not executed | ClipSender.DirRunAsWrittenNoGap | ClipSender.DirRunWaits |
| manual/sender/copy_b64_files.py:142-145 | a `q` at a START, DATA or END prompt (also lines 180-182 and 190-192) returns only from `send_file_chunked`; `main` goes on to the "next file" prompt and can send later files | two files, keys `q`, Enter, Enter: nothing of the first file is copied, yet the second file's START frame is | `q` ends the run, as the prompt `'q' to quit` and the message "Aborted by user." say | medium, not executed | ManualSender.QuitContinuesAsWritten | ManualSender.QuitEndsRun |

=== FILE: arith.dfy ===
/** Facts about integer division that the solver does not find on its own. */
module Arith {

  lemma MulBetween(x: int, m: int)
    requires m > 0 && -m < x * m < m
    ensures x == 0
  {
  }

  /** Division with remainder is unique. */
  lemma DivModUnique(n: int, m: int, a: int, r: int)
    requires m > 0 && 0 <= r < m && n == a * m + r
    ensures n / m == a && n % m == r
  {
    var q := n / m;
    var s := n % m;
    assert (q - a) * m == r - s;
    MulBetween(q - a, m);
  }

  /** Removing one divisor's worth removes one from the quotient. */
  lemma DivSub(n: int, m: int)
    requires m > 0 && n >= m
    ensures (n - m) / m == n / m - 1
    ensures (n - m) % m == n % m
  {
    DivModUnique(n - m, m, n / m - 1, n % m);
  }

  /** Ceiling division `ceil(n / m)` for non-negative `n`. */
  function CeilDiv(n: nat, m: nat): nat
    requires m > 0
  {
    (n + m - 1) / m
  }

  /** `ceil((k * m + r) / m) == k + 1` when `0 < r <= m`. */
  lemma CeilDivAbove(k: nat, m: nat, r: nat)
    requires m > 0 && 0 < r <= m
    ensures CeilDiv(k * m + r, m) == k + 1
  {
    DivModUnique(k * m + r + m - 1, m, k + 1, r - 1);
  }

  /** `ceil((k * m) / m) == k`. */
  lemma CeilDivExact(k: nat, m: nat)
    requires m > 0
    ensures CeilDiv(k * m, m) == k
  {
    DivModUnique(k * m + m - 1, m, k, m - 1);
  }

  /** Ceiling division is monotonic. */
  lemma CeilDivMono(a: nat, b: nat, m: nat)
    requires m > 0 && a <= b
    ensures CeilDiv(a, m) <= CeilDiv(b, m)
  {
    var qa, qb := (a + m - 1) / m, (b + m - 1) / m;
    assert qa * m <= a + m - 1 && b + m - 1 < (qb + 1) * m;
    MulLess(qa, qb + 1, m);
  }

  lemma MulLess(x: int, y: int, m: int)
    requires m > 0 && x * m < y * m
    ensures x < y
  {
    assert (y - x) * m > 0;
  }

  /** A quotient times its divisor is the dividend less the remainder. */
  lemma DivMulRemainder(n: int, m: int)
    requires m > 0
    ensures (n / m) * m == n - n % m
  {
  }

  /** When `d` divides both `n` and `m`, it divides `n % m`. */
  lemma ModOfMultiples(n: nat, m: nat, d: nat)
    requires d > 0 && m > 0 && n % d == 0 && m % d == 0
    ensures (n % m) % d == 0
  {
    var a, b, c := n / m, m / d, n / d;
    DivMulRemainder(n, m);
    DivMulRemainder(m, d);
    DivMulRemainder(n, d);
    assert m == b * d;
    assert n == c * d;
    assert a * m == (a * b) * d;
    assert n % m == (c - a * b) * d;
    DivModUnique(n % m, d, c - a * b, 0);
  }

  /** A multiple of `d` below another multiple of `d` is at least `d` below it. */
  lemma MultipleBelow(r: nat, s: nat, d: nat)
    requires d > 0 && r % d == 0 && s % d == 0 && r < s
    ensures r <= s - d
  {
    var a, b := r / d, s / d;
    DivMulRemainder(r, d);
    DivMulRemainder(s, d);
    assert r == a * d && s == b * d;
    MulLess(a, b, d);
    assert s - r == (b - a) * d;
    MulAtLeast(b - a, d);
  }

  lemma MulAtLeast(x: int, d: nat)
    requires x >= 1
    ensures x * d >= d
  {
    assert x * d == (x - 1) * d + d;
  }
}

=== FILE: base64.dfy ===
/** The Base64 encoding of section 4 of RFC 4648 (alphabet `A–Z a–z 0–9 + /`,
    `=` padding), as Python's `base64.b64encode` produces it and as
    `base64.b64decode(text, validate=True)` accepts it. */
module Base64 {
  import opened Wrappers
  import Text
  import Arith

  type byte = b: int | 0 <= b < 256

  /** The padding character. */
  const Pad: char := '='

  /** The alphabet character for the 6-bit value `v`. */
  function Digit(v: nat): (c: char)
    requires v < 64
    ensures IsAlphabet(c) && Value(c) == v
  {
    if v < 26 then ('A' as int + v) as char
    else if v < 52 then ('a' as int + (v - 26)) as char
    else if v < 62 then ('0' as int + (v - 52)) as char
    else if v == 62 then '+'
    else '/'
  }

  predicate IsAlphabet(c: char) {
    ('A' <= c <= 'Z') || ('a' <= c <= 'z') || ('0' <= c <= '9') || c == '+' || c == '/'
  }

  /** The 6-bit value of an alphabet character. */
  function Value(c: char): (v: nat)
    requires IsAlphabet(c)
    ensures v < 64
  {
    if 'A' <= c <= 'Z' then c as int - 'A' as int
    else if 'a' <= c <= 'z' then c as int - 'a' as int + 26
    else if '0' <= c <= '9' then c as int - '0' as int + 52
    else if c == '+' then 62
    else 63
  }

  /** A character that may appear in Base64 text. */
  predicate IsBase64Char(c: char) {
    IsAlphabet(c) || c == Pad
  }

  /** The length of the encoding of `n` bytes: four characters for every
      group of up to three bytes (`EncodedLenValue` gives the closed form). */
  function EncodedLen(n: nat): nat {
    if n == 0 then 0 else if n <= 3 then 4 else 4 + EncodedLen(n - 3)
  }

  /** `len(b64encode(s)) == 4 * ceil(len(s) / 3)`. */
  lemma {:induction false} EncodedLenValue(n: nat)
    ensures EncodedLen(n) == 4 * ((n + 2) / 3)
  {
    if n > 3 {
      EncodedLenValue(n - 3);
      assert (n + 2) / 3 == (n - 1) / 3 + 1;
    }
  }

  /** `n` bytes are whole three-byte groups (`n % 3 == 0`, as
      `WholeGroupsMod` states), so their encoding carries no padding. */
  predicate WholeGroups(n: nat)
    decreases n
  {
    n == 0 || (n >= 3 && WholeGroups(n - 3))
  }

  lemma {:induction false} WholeGroupsMod(n: nat)
    ensures WholeGroups(n) <==> n % 3 == 0
    decreases n
  {
    if n >= 3 {
      WholeGroupsMod(n - 3);
    }
  }

  /** Three bytes as four alphabet characters. */
  function EncodeGroup(a: byte, b: byte, c: byte): string {
    [Digit(a / 4), Digit((a % 4) * 16 + b / 16), Digit((b % 16) * 4 + c / 64), Digit(c % 64)]
  }

  /** The final one or two bytes, padded to four characters. */
  function EncodeTail(s: seq<byte>): string
    requires 1 <= |s| <= 2
  {
    if |s| == 1 then [Digit(s[0] / 4), Digit((s[0] % 4) * 16), Pad, Pad]
    else [Digit(s[0] / 4), Digit((s[0] % 4) * 16 + s[1] / 16), Digit((s[1] % 16) * 4), Pad]
  }

  /** `base64.b64encode(s)`. */
  function Encode(s: seq<byte>): (r: string)
    ensures |r| == EncodedLen(|s|)
    decreases |s|
  {
    if |s| == 0 then []
    else if |s| < 3 then EncodeTail(s)
    else EncodeGroup(s[0], s[1], s[2]) + Encode(s[3..])
  }

  /** Four alphabet characters: a quad without padding. */
  predicate PlainQuad(q: string)
    requires |q| == 4
  {
    IsAlphabet(q[0]) && IsAlphabet(q[1]) && IsAlphabet(q[2]) && IsAlphabet(q[3])
  }

  /** Decodes four alphabet characters to three bytes. */
  function DecodeQuad(q: string): seq<byte>
    requires |q| == 4 && PlainQuad(q)
  {
    var v0, v1, v2, v3 := Value(q[0]), Value(q[1]), Value(q[2]), Value(q[3]);
    [v0 * 4 + v1 / 16, (v1 % 16) * 16 + v2 / 4, (v2 % 4) * 64 + v3]
  }

  /** A non-final quad: four alphabet characters, no padding. */
  function DecodeInner(q: string): Option<seq<byte>>
    requires |q| == 4
  {
    if PlainQuad(q) then Some(DecodeQuad(q)) else None
  }

  /** The final quad, which may end in `=` or `==`. */
  function DecodeLast(q: string): Option<seq<byte>>
    requires |q| == 4
  {
    if PlainQuad(q) then Some(DecodeQuad(q))
    else if IsAlphabet(q[0]) && IsAlphabet(q[1]) && IsAlphabet(q[2]) && q[3] == Pad then
      var v0, v1, v2 := Value(q[0]), Value(q[1]), Value(q[2]);
      Some([v0 * 4 + v1 / 16, (v1 % 16) * 16 + v2 / 4])
    else if IsAlphabet(q[0]) && IsAlphabet(q[1]) && q[2] == Pad && q[3] == Pad then
      var v0, v1 := Value(q[0]), Value(q[1]);
      Some([v0 * 4 + v1 / 16])
    else None
  }

  /** `base64.b64decode(t, validate=True)`: `None` where Python raises
      `binascii.Error`. The text must be whole quads of alphabet characters,
      with `=` or `==` allowed only at the end of the last quad. */
  function Decode(t: string): (r: Option<seq<byte>>)
    ensures r.Some? ==> |t| % 4 == 0
    decreases |t|
  {
    if |t| == 0 then Some([])
    else if |t| < 4 then None
    else if |t| == 4 then DecodeLast(t)
    else match DecodeInner(t[..4])
      case None => None
      case Some(d) =>
        match Decode(t[4..])
        case None => None
        case Some(rest) => Some(d + rest)
  }

  lemma GroupRoundTrip(a: byte, b: byte, c: byte)
    ensures DecodeInner(EncodeGroup(a, b, c)) == Some([a, b, c])
    ensures DecodeLast(EncodeGroup(a, b, c)) == Some([a, b, c])
  {
    var q := EncodeGroup(a, b, c);
    var v0, v1, v2, v3 := a / 4, (a % 4) * 16 + b / 16, (b % 16) * 4 + c / 64, c % 64;
    assert Value(q[0]) == v0 && Value(q[1]) == v1 && Value(q[2]) == v2 && Value(q[3]) == v3;
    Arith.DivModUnique(v1, 16, a % 4, b / 16);
    Arith.DivModUnique(v2, 4, b % 16, c / 64);
    Arith.DivMulRemainder(a, 4);
    Arith.DivMulRemainder(b, 16);
    Arith.DivMulRemainder(c, 64);
    assert DecodeQuad(q) == [a, b, c];
  }

  lemma TailRoundTrip(s: seq<byte>)
    requires 1 <= |s| <= 2
    ensures DecodeLast(EncodeTail(s)) == Some(s)
  {
    var q := EncodeTail(s);
    if |s| == 1 {
      assert !IsAlphabet(q[3]) && !IsAlphabet(q[2]);
      assert DecodeLast(q) == Some([s[0]]);
      assert s == [s[0]];
    } else {
      var v0, v1, v2 := s[0] / 4, (s[0] % 4) * 16 + s[1] / 16, (s[1] % 16) * 4;
      assert Value(q[0]) == v0 && Value(q[1]) == v1 && Value(q[2]) == v2;
      assert v1 / 16 == s[0] % 4 && v1 % 16 == s[1] / 16 && v2 / 4 == s[1] % 16;
      assert !IsAlphabet(q[3]) && IsAlphabet(q[2]);
      assert DecodeLast(q) == Some([s[0], s[1]]);
      assert s == [s[0], s[1]];
    }
  }

  /** Decoding inverts encoding: `b64decode(b64encode(s), validate=True) == s`. */
  lemma {:induction false} DecodeEncode(s: seq<byte>)
    ensures Decode(Encode(s)) == Some(s)
    decreases |s|
  {
    if 1 <= |s| < 3 {
      TailRoundTrip(s);
    } else if |s| >= 3 {
      var g := EncodeGroup(s[0], s[1], s[2]);
      var e := Encode(s);
      GroupRoundTrip(s[0], s[1], s[2]);
      assert e[..4] == g;
      if |s| == 3 {
        assert e == g;
        assert s == [s[0], s[1], s[2]];
      } else {
        assert e[4..] == Encode(s[3..]);
        DecodeEncode(s[3..]);
        assert s == [s[0], s[1], s[2]] + s[3..];
      }
    }
  }

  /** Encoding a three-byte-aligned prefix separately changes nothing. */
  lemma {:induction false} EncodeAppend(a: seq<byte>, b: seq<byte>)
    requires WholeGroups(|a|)
    ensures Encode(a + b) == Encode(a) + Encode(b)
    decreases |a|
  {
    if |a| > 0 {
      assert (a + b)[3..] == a[3..] + b;
      assert (a + b)[..3] == a[..3];
      EncodeAppend(a[3..], b);
    } else {
      assert a + b == b;
    }
  }

  /** Encoding of a three-byte-aligned prefix is a prefix of the encoding. */
  lemma EncodePrefix(s: seq<byte>, n: nat)
    requires n <= |s| && WholeGroups(n)
    ensures EncodedLen(n) <= |Encode(s)|
    ensures Encode(s[..n]) == Encode(s)[..EncodedLen(n)]
    ensures Encode(s[n..]) == Encode(s)[EncodedLen(n)..]
  {
    var x, y := s[..n], s[n..];
    assert s == x + y;
    EncodeAppend(x, y);
    var ex, ey := Encode(x), Encode(y);
    assert |ex| == EncodedLen(n);
    assert (ex + ey)[..|ex|] == ex;
    assert (ex + ey)[|ex|..] == ey;
  }

  /** The first `k` characters of `t` are alphabet characters. */
  predicate AlphabetUpTo(t: string, k: nat)
    requires k <= |t|
  {
    forall i :: 0 <= i < k ==> IsAlphabet(t[i])
  }

  /** Every character of `t` may appear in Base64 text. */
  predicate AllBase64(t: string) {
    forall i :: 0 <= i < |t| ==> IsBase64Char(t[i])
  }

  /** Every character of an encoding is an alphabet character, except `=`
      padding in the last two positions; a three-byte-aligned input has none. */
  lemma {:induction false} EncodeChars(s: seq<byte>)
    ensures AllBase64(Encode(s))
    ensures |Encode(s)| >= 2 ==> AlphabetUpTo(Encode(s), |Encode(s)| - 2)
    ensures WholeGroups(|s|) ==> AlphabetUpTo(Encode(s), |Encode(s)|)
    decreases |s|
  {
    var e := Encode(s);
    if |s| >= 3 {
      EncodeChars(s[3..]);
      var g := EncodeGroup(s[0], s[1], s[2]);
      var r := Encode(s[3..]);
      assert e == g + r;
      assert AlphabetUpTo(g, 4);
      forall i | 0 <= i < |e|
        ensures IsBase64Char(e[i])
        ensures i < |e| - 2 ==> IsAlphabet(e[i])
        ensures WholeGroups(|s|) ==> IsAlphabet(e[i])
      {
        if i >= 4 {
          assert e[i] == r[i - 4];
        }
      }
    }
  }

  /** Base64 text is plain ASCII without whitespace, so `str.strip()` leaves
      it unchanged and `str.encode("ascii")` accepts it. */
  lemma Base64Plain(t: string)
    requires AllBase64(t)
    ensures forall i :: 0 <= i < |t| ==> !Text.IsSpace(t[i]) && t[i] as int < 128
    ensures Text.Strip(t) == t
  {
    Text.StripKeeps(t);
  }

  /** An encoding contains no whitespace, so `str.strip()` leaves it unchanged. */
  lemma EncodeHasNoSpace(s: seq<byte>)
    ensures forall i :: 0 <= i < |Encode(s)| ==> !Text.IsSpace(Encode(s)[i])
    ensures Text.Strip(Encode(s)) == Encode(s)
  {
    EncodeChars(s);
    assert AllBase64(Encode(s));
    Text.StripKeeps(Encode(s));
  }

  /** A successful decode of `x + y`, with `x` whole quads, is the decode of `x`
      followed by the decode of `y`; when `y` is not empty, every quad of `x`
      is an unpadded one and gives three bytes. */
  lemma DecodeSplit(x: string, y: string)
    requires |x| % 4 == 0
    requires Decode(x + y).Some?
    ensures Decode(x).Some? && Decode(y).Some?
    ensures Decode(x + y).value == Decode(x).value + Decode(y).value
    ensures y != [] ==> 4 * |Decode(x).value| == 3 * |x|
  {
    Arith.DivMulRemainder(|x|, 4);
    DecodeSplitQuads(x, y, |x| / 4);
  }

  lemma {:induction false} DecodeSplitQuads(x: string, y: string, k: nat)
    requires |x| == 4 * k
    requires Decode(x + y).Some?
    ensures Decode(x).Some? && Decode(y).Some?
    ensures Decode(x + y).value == Decode(x).value + Decode(y).value
    ensures y != [] ==> |Decode(x).value| == 3 * k
    decreases k
  {
    var t := x + y;
    if k == 0 {
      assert t == y;
    } else if |t| == 4 {
      assert x == t && y == [];
    } else {
      var q, x' := x[..4], x[4..];
      assert t[..4] == q && t[4..] == x' + y && x == q + x';
      DecodeFront(t);
      DecodeSplitQuads(x', y, k - 1);
      DecodeJoin(q, x');
      var a, b, c := DecodeInner(q).value, Decode(x').value, Decode(y).value;
      assert a + (b + c) == (a + b) + c;
    }
  }

  /** A decodable text longer than one quad starts with an unpadded quad. */
  lemma DecodeFront(t: string)
    requires |t| > 4 && Decode(t).Some?
    ensures DecodeInner(t[..4]).Some? && Decode(t[4..]).Some?
    ensures Decode(t).value == DecodeInner(t[..4]).value + Decode(t[4..]).value
  {
  }

  /** An unpadded quad in front of decodable text decodes in front of it. */
  lemma DecodeJoin(q: string, r: string)
    requires |q| == 4 && DecodeInner(q).Some? && Decode(r).Some?
    ensures Decode(q + r).Some? && Decode(q + r).value == DecodeInner(q).value + Decode(r).value
    ensures |DecodeInner(q).value| == 3
  {
    if r == [] {
      assert q + r == q;
    } else {
      assert (q + r)[..4] == q && (q + r)[4..] == r;
    }
  }
}

=== FILE: chunker.dfy ===
/** The sender's streaming Base64 chunker, `b64_payload_chunks`: it reads the
    file in blocks, carries the 0–2 bytes that do not fill a three-byte group
    over to the next block, and cuts the encoded text into payloads of a fixed
    number of characters. The same code appears in both header+CRC senders. */
module Chunker {
  import opened Base64
  import Arith
  import Text

  /** What one `yield` hands to the caller: the payload text, the bytes read
      from the file so far (`in_done`) and the file size (`in_total`). */
  datatype Chunk = Chunk(payload: string, inDone: nat, inTotal: nat)

  /** Length of the encoding of the three-byte-aligned prefix of `n` bytes:
      what the read loop has encoded once the file is exhausted
      (`4 * (n // 3)`, as `AlignedLenBounds` states). */
  function AlignedLen(n: nat): nat {
    if n < 3 then 0 else 4 + AlignedLen(n - 3)
  }

  /** The aligned part is whole quads and falls short of the full encoding
      by one padded quad exactly when the size is not a multiple of three. */
  lemma {:induction false} AlignedLenBounds(n: nat)
    ensures AlignedLen(n) == 4 * (n / 3)
    ensures AlignedLen(n) % 4 == 0
    ensures AlignedLen(n) <= EncodedLen(n)
    ensures EncodedLen(n) - AlignedLen(n) == (if n % 3 == 0 then 0 else 4)
  {
    if n >= 3 {
      AlignedLenBounds(n - 3);
      Arith.DivSub(n, 3);
    }
  }

  /** Cuts `t` into pieces: while at least `size` of its first `m` characters
      remain, one piece of exactly `size`; then whatever is left, if anything. */
  function Chop(t: string, m: nat, size: nat): seq<string>
    requires size > 0 && m <= |t|
    decreases m
  {
    if m >= size then [t[..size]] + Chop(t[size..], m - size, size)
    else if |t| > 0 then [t]
    else []
  }

  /** The payload texts `b64_payload_chunks(path, size)` yields for a file
      holding `data`, whatever the read block size: full payloads cut from
      the encoding of the aligned prefix, then the rest in one payload. */
  function Payloads(data: seq<byte>, size: nat): seq<string>
    requires size > 0
  {
    AlignedLenBounds(|data|);
    Chop(Encode(data), AlignedLen(|data|), size)
  }

  function PayloadTexts(chunks: seq<Chunk>): (ps: seq<string>)
    ensures |ps| == |chunks|
  {
    seq(|chunks|, i requires 0 <= i < |chunks| => chunks[i].payload)
  }

  /** How much of `t` the full pieces cover: `m` rounded down to a multiple
      of `size`. */
  function Covered(m: nat, size: nat): nat
    requires size > 0
  {
    m - m % size
  }

  /** The length of the last piece: the leftover after the full pieces, or a
      full piece when nothing is left over. */
  function LastLen(t: string, m: nat, size: nat): nat
    requires size > 0
  {
    if |t| > Covered(m, size) then |t| - Covered(m, size) else size
  }

  /** The pieces of `Chop` spell `t`. */
  lemma {:induction false} ChopConcat(t: string, m: nat, size: nat)
    requires size > 0 && m <= |t|
    ensures Text.Concat(Chop(t, m, size)) == t
    decreases m
  {
    if m >= size {
      var rest := Chop(t[size..], m - size, size);
      ChopConcat(t[size..], m - size, size);
      Text.ConcatCons(t[..size], rest);
      assert t[..size] + t[size..] == t;
    } else if |t| > 0 {
      assert Text.Concat([t]) == Text.Concat([]) + t;
    }
  }

  /** `Chop` yields one piece per full `size` characters of the first `m`, plus
      one for a non-empty leftover. */
  lemma {:induction false} ChopCount(t: string, m: nat, size: nat)
    requires size > 0 && m <= |t|
    ensures |Chop(t, m, size)| == m / size + (if |t| > Covered(m, size) then 1 else 0)
    decreases m
  {
    if m >= size {
      ChopCount(t[size..], m - size, size);
      Arith.DivSub(m, size);
    } else {
      Arith.DivModUnique(m, size, 0, m);
    }
  }

  /** All pieces but the last have exactly `size` characters, none is empty,
      and the last one has `LastLen` characters. */
  lemma {:induction false} ChopLengths(t: string, m: nat, size: nat)
    requires size > 0 && m <= |t|
    ensures forall i :: 0 <= i < |Chop(t, m, size)| - 1 ==> |Chop(t, m, size)[i]| == size
    ensures forall i :: 0 <= i < |Chop(t, m, size)| ==> |Chop(t, m, size)[i]| > 0
    ensures |Chop(t, m, size)| > 0 ==> |Chop(t, m, size)[|Chop(t, m, size)| - 1]| == LastLen(t, m, size)
    decreases m
  {
    var ps := Chop(t, m, size);
    if m >= size {
      var rest := Chop(t[size..], m - size, size);
      ChopLengths(t[size..], m - size, size);
      Arith.DivSub(m, size);
      assert ps == [t[..size]] + rest;
      forall i | 0 <= i < |ps|
        ensures i < |ps| - 1 ==> |ps[i]| == size
        ensures |ps[i]| > 0
      {
        if i > 0 {
          assert ps[i] == rest[i - 1];
        }
      }
      if |rest| > 0 {
        assert ps[|ps| - 1] == rest[|rest| - 1];
      } else {
        ChopCount(t[size..], m - size, size);
      }
    } else {
      Arith.DivModUnique(m, size, 0, m);
    }
  }

  /** Pieces before the last one lie inside the first `m` characters. */
  lemma {:induction false} ChopInner(t: string, m: nat, size: nat)
    requires size > 0 && m <= |t|
    requires AlphabetUpTo(t, m)
    ensures forall i :: 0 <= i < |Chop(t, m, size)| - 1 ==> Pad !in Chop(t, m, size)[i]
    decreases m
  {
    var ps := Chop(t, m, size);
    if m >= size {
      var rest := Chop(t[size..], m - size, size);
      assert AlphabetUpTo(t[size..], m - size) by {
        assert forall i :: 0 <= i < m - size ==> t[size..][i] == t[size + i];
      }
      ChopInner(t[size..], m - size, size);
      assert ps == [t[..size]] + rest;
      assert forall j :: 0 <= j < size ==> t[..size][j] == t[j];
      forall i | 0 <= i < |ps| - 1
        ensures Pad !in ps[i]
      {
        if i > 0 {
          assert ps[i] == rest[i - 1];
        }
      }
    }
  }

  /** Every piece is a stretch of `t`, so it holds only characters of `t`. */
  lemma {:induction false} ChopChars(t: string, m: nat, size: nat)
    requires size > 0 && m <= |t| && AllBase64(t)
    ensures forall i :: 0 <= i < |Chop(t, m, size)| ==> AllBase64(Chop(t, m, size)[i])
    decreases m
  {
    var ps := Chop(t, m, size);
    if m >= size {
      var rest := Chop(t[size..], m - size, size);
      assert AllBase64(t[size..]) by {
        assert forall i :: 0 <= i < |t| - size ==> t[size..][i] == t[size + i];
      }
      ChopChars(t[size..], m - size, size);
      assert ps == [t[..size]] + rest;
      forall i | 0 <= i < |ps|
        ensures AllBase64(ps[i])
      {
        if i > 0 {
          assert ps[i] == rest[i - 1];
        } else {
          assert forall j :: 0 <= j < size ==> t[..size][j] == t[j];
        }
      }
    }
  }

  /** Every payload is Base64 text: ASCII, no whitespace. */
  lemma PayloadsAreBase64(data: seq<byte>, size: nat)
    requires size > 0
    ensures forall i :: 0 <= i < |Payloads(data, size)| ==> AllBase64(Payloads(data, size)[i])
  {
    EncodeChars(data);
    AlignedLenBounds(|data|);
    ChopChars(Encode(data), AlignedLen(|data|), size);
  }

  /** The number of payloads, computed from the file size. */
  function PayloadCount(n: nat, size: nat): nat
    requires size > 0
  {
    AlignedLen(n) / size + (if EncodedLen(n) > Covered(AlignedLen(n), size) then 1 else 0)
  }

  /** Concatenating every payload gives exactly the Base64 of the whole file;
      an empty file yields no payload and any other file at least one. */
  lemma PayloadsSpellEncoding(data: seq<byte>, size: nat)
    requires size > 0
    ensures Text.Concat(Payloads(data, size)) == Encode(data)
    ensures |Payloads(data, size)| == PayloadCount(|data|, size)
    ensures |Payloads(data, size)| == 0 <==> |data| == 0
  {
    AlignedLenBounds(|data|);
    ChopConcat(Encode(data), AlignedLen(|data|), size);
    ChopCount(Encode(data), AlignedLen(|data|), size);
    if |Payloads(data, size)| == 0 {
      assert Text.Concat([]) == [];
    }
  }

  /** Every payload but the last has exactly `size` characters; the last is
      non-empty and at most `size + 3` long, and at most `size` when `size`
      is a multiple of four. */
  lemma PayloadSizes(data: seq<byte>, size: nat)
    requires size > 0
    ensures forall i :: 0 <= i < |Payloads(data, size)| - 1 ==> |Payloads(data, size)[i]| == size
    ensures forall i :: 0 <= i < |Payloads(data, size)| ==> |Payloads(data, size)[i]| > 0
    ensures |Payloads(data, size)| > 0 ==> |Payloads(data, size)[|Payloads(data, size)| - 1]| <= size + 3
    ensures |Payloads(data, size)| > 0 && size % 4 == 0 ==>
      |Payloads(data, size)[|Payloads(data, size)| - 1]| <= size
  {
    var t := Encode(data);
    var m := AlignedLen(|data|);
    AlignedLenBounds(|data|);
    ChopLengths(t, m, size);
    LastLenBound(t, m, size);
  }

  /** The last piece's length when at most one padded quad lies beyond `m`. */
  lemma LastLenBound(t: string, m: nat, size: nat)
    requires size > 0 && m <= |t| && m % 4 == 0 && (|t| - m == 0 || |t| - m == 4)
    ensures LastLen(t, m, size) <= size + 3
    ensures size % 4 == 0 ==> LastLen(t, m, size) <= size
  {
    var r := m % size;
    assert Covered(m, size) == m - r && r < size;
    if size % 4 == 0 {
      Arith.ModOfMultiples(m, size, 4);
      Arith.MultipleBelow(r, size, 4);
    }
  }

  /** `=` padding can appear only in the last payload. */
  lemma PaddingOnlyInLast(data: seq<byte>, size: nat)
    requires size > 0
    ensures forall i :: 0 <= i < |Payloads(data, size)| - 1 ==> Pad !in Payloads(data, size)[i]
  {
    var n := |data|;
    var a := AlignedCut(n);
    EncodePrefix(data, a);
    EncodeChars(data[..a]);
    var t := Encode(data);
    var m := AlignedLen(n);
    assert AlphabetUpTo(t, m) by {
      assert forall i :: 0 <= i < m ==> t[i] == Encode(data[..a])[i];
    }
    ChopInner(t, m, size);
  }

  /** `max(1, ceil(4 * ceil(size / 3) / P))`: the chunk count the sender
      announces in every header of the file. */
  function EstimatedChunks(fileSize: nat, size: nat): (e: nat)
    requires size > 0
    ensures e >= 1
  {
    var est := Arith.CeilDiv(EncodedLen(fileSize), size);
    if est < 1 then 1 else est
  }

  /** The estimate never undercounts the payloads, and is exact for a
      non-empty file when the payload size is a multiple of four. */
  lemma EstimateBoundsCount(n: nat, size: nat)
    requires size > 0
    ensures PayloadCount(n, size) <= EstimatedChunks(n, size)
    ensures n > 0 && size % 4 == 0 ==> PayloadCount(n, size) == EstimatedChunks(n, size)
  {
    var m := AlignedLen(n);
    var e := EncodedLen(n);
    var k := m / size;
    var base := Covered(m, size);
    AlignedLenBounds(n);
    Arith.DivMulRemainder(m, size);
    assert k * size == base;
    if e > base {
      Arith.CeilDivMono(k * size + 1, e, size);
      Arith.CeilDivAbove(k, size, 1);
      if size % 4 == 0 {
        Arith.ModOfMultiples(m, size, 4);
        assert e - k * size <= size;
        Arith.CeilDivAbove(k, size, e - k * size);
      }
    } else {
      assert e == k * size;
      Arith.CeilDivExact(k, size);
      if n > 0 {
        assert k >= 1;
      }
    }
  }

  /** The state of the read loop accounts for every payload: the payloads
      yielded so far, followed by the cutting of the buffer and of the text
      `rest` still to be encoded (of which the first `m` characters come from
      whole three-byte groups), are exactly `target`. */
  ghost predicate Pending(target: seq<string>, size: nat, done: seq<string>, buf: string, rest: string, m: nat) {
    size > 0 && m <= |rest| && done + Chop(buf + rest, |buf| + m, size) == target
  }

  /** What the loop still has to encode once `enc` bytes have gone into the
      buffer. */
  ghost predicate Unread(data: seq<byte>, enc: nat, rest: string, m: nat) {
    enc <= |data| && EncodesTo(data[enc..], rest) && m == AlignedLen(|data| - enc)
  }

  ghost predicate EncodesTo(data: seq<byte>, text: string) {
    Encode(data) == text
  }

  lemma PendingStart(data: seq<byte>, size: nat)
    requires size > 0
    ensures Pending(Payloads(data, size), size, [], [], Encode(data), AlignedLen(|data|))
    ensures Unread(data, 0, Encode(data), AlignedLen(|data|))
  {
    AlignedLenBounds(|data|);
    PendingInit(Encode(data), AlignedLen(|data|), size);
    assert data[0..] == data;
  }

  lemma PendingInit(t: string, m: nat, size: nat)
    requires size > 0 && m <= |t|
    ensures Pending(Chop(t, m, size), size, [], [], t, m)
  {
    var c := Chop(t, m, size);
    assert [] + t == t;
    assert [] + c == c;
  }

  /** Encoding the next three-byte-aligned stretch of `cut` bytes takes its
      encoding off the front of what is still to be encoded. */
  lemma UnreadStep(data: seq<byte>, enc: nat, cut: nat, rest: string, m: nat) returns (enc': nat, rest': string, m': nat)
    requires enc + cut <= |data| && WholeGroups(cut)
    requires Unread(data, enc, rest, m)
    ensures enc' == enc + cut && Unread(data, enc', rest', m')
    ensures Encode(data[enc..enc + cut]) + rest' == rest
    ensures EncodedLen(cut) + m' == m && m' <= EncodedLen(|data| - (enc + cut))
  {
    enc' := enc + cut;
    rest' := Encode(data[enc'..]);
    assert Encode(data[enc..enc + cut]) + rest' == rest by {
      var x, y := data[enc..enc + cut], data[enc'..];
      assert data[enc..] == x + y;
      EncodeAppend(x, y);
    }
    m' := UnreadLengths(|data|, enc, cut, m);
  }

  /** The length bookkeeping behind `UnreadStep`, on numbers alone. */
  lemma UnreadLengths(n: nat, enc: nat, cut: nat, m: nat) returns (m': nat)
    requires enc + cut <= n && WholeGroups(cut) && m == AlignedLen(n - enc)
    ensures m' == AlignedLen(n - (enc + cut))
    ensures EncodedLen(cut) + m' == m && m' <= EncodedLen(n - (enc + cut))
  {
    m' := AlignedLen(n - (enc + cut));
    AlignedSplit(n - enc, cut);
    AlignedLenBounds(n - (enc + cut));
  }

  /** Moving text from the front of the unread part to the end of the buffer
      changes nothing. */
  lemma PendingShift(target: seq<string>, size: nat, done: seq<string>, buf: string, rest: string, m: nat,
                     piece: string, rest': string, m': nat)
    requires Pending(target, size, done, buf, rest, m)
    requires piece + rest' == rest && |piece| + m' == m && m' <= |rest'|
    ensures Pending(target, size, done, buf + piece, rest', m')
  {
    assert (buf + piece) + rest' == buf + rest;
  }

  /** Yielding a full payload from the buffer. */
  lemma PendingCut(target: seq<string>, size: nat, done: seq<string>, buf: string, rest: string, m: nat)
    requires |buf| >= size
    requires Pending(target, size, done, buf, rest, m)
    ensures Pending(target, size, done + [buf[..size]], buf[size..], rest, m)
  {
    ChopStep(buf, rest, |buf| + m, size);
  }

  /** Cutting a full payload off the buffer. */
  lemma ChopStep(b: string, tail: string, m: nat, size: nat)
    requires size > 0 && size <= |b| && size <= m <= |b + tail|
    ensures Chop(b + tail, m, size) == [b[..size]] + Chop(b[size..] + tail, m - size, size)
  {
    assert (b + tail)[..size] == b[..size];
    assert (b + tail)[size..] == b[size..] + tail;
  }

  /** At end of file fewer than three bytes are unencoded; encoding them into
      the buffer leaves one last payload, or none when the buffer is empty. */
  lemma PendingEnd(data: seq<byte>, target: seq<string>, size: nat, done: seq<string>, buf: string, enc: nat, rest: string, m: nat)
    requires |data| - 3 < enc && |buf| < size
    requires Pending(target, size, done, buf, rest, m) && Unread(data, enc, rest, m)
    ensures done + (if |buf + rest| > 0 then [buf + rest] else []) == target
  {
    assert m == 0;
  }

  lemma SliceJoin<T>(s: seq<T>, lo: nat, mid: nat, hi: nat)
    requires lo <= mid <= hi <= |s|
    ensures s[lo..mid] + s[mid..hi] == s[lo..hi]
  {
  }

  lemma SliceSplit<T>(s: seq<T>, lo: nat, hi: nat, cut: nat)
    requires lo + cut <= hi <= |s|
    ensures s[lo..hi][..cut] == s[lo..lo + cut]
    ensures s[lo..hi][cut..] == s[lo + cut..hi]
  {
  }

  lemma PayloadTextsSnoc(chunks: seq<Chunk>, c: Chunk)
    ensures PayloadTexts(chunks + [c]) == PayloadTexts(chunks) + [c.payload]
  {
  }

  /** Progress reports come in order: every chunk carries the file size, and
      `in_done` never decreases and never passes `upTo`. */
  predicate Monotone(chunks: seq<Chunk>, total: nat, upTo: nat) {
    && (forall i :: 0 <= i < |chunks| ==> chunks[i].inTotal == total && chunks[i].inDone <= upTo)
    && (forall i, j :: 0 <= i <= j < |chunks| ==> chunks[i].inDone <= chunks[j].inDone)
  }

  /** One pass of the read loop up to the yields: read a block, prepend the
      carried-over bytes, encode the whole three-byte groups into the buffer
      and carry the rest over. */
  method ReadBlock(data: seq<byte>, readBlock: nat, buf: string, rem: seq<byte>, inDone: nat,
                   ghost target: seq<string>, ghost size: nat, ghost done: seq<string>,
                   ghost enc: nat, ghost rest: string, ghost m: nat)
    returns (buf': string, rem': seq<byte>, inDone': nat, ghost enc': nat, ghost rest': string, ghost m': nat)
    requires readBlock > 0 && enc <= inDone < |data| && rem == data[enc..inDone]
    requires Pending(target, size, done, buf, rest, m) && Unread(data, enc, rest, m)
    ensures inDone < inDone' <= |data| && enc' <= inDone'
    ensures rem' == data[enc'..inDone'] && |rem'| < 3
    ensures Pending(target, size, done, buf', rest', m') && Unread(data, enc', rest', m')
    ensures |rem'| == 0 ==> |buf'| > 0
  {
    var end := if inDone + readBlock <= |data| then inDone + readBlock else |data|;
    var block := data[inDone..end];
    inDone' := inDone + |block|;
    var b := rem + block;
    assert b == data[enc..inDone'] by {
      SliceJoin(data, enc, inDone, inDone');
    }
    var cut := WholeCut(|b|);
    enc', rest', m' := Absorb(data, enc, cut, target, size, done, buf, rest, m);
    var main := b[..cut];
    rem' := b[cut..];
    assert main == data[enc..enc + cut] && rem' == data[enc + cut..inDone'] by {
      SliceSplit(data, enc, inDone', cut);
    }
    if |main| > 0 {
      buf' := buf + Encode(main);
      assert buf' == (if cut > 0 then buf + Encode(data[enc..enc + cut]) else buf);
    } else {
      buf' := buf;
    }
  }

  /** The bytes the read loop encodes from `n` buffered ones:
      `len(b) - len(b) % 3`, whole groups leaving fewer than three. */
  function WholeCut(n: nat): (c: nat)
    ensures c <= n < c + 3 && WholeGroups(c)
  {
    var c := n - n % 3;
    Arith.DivMulRemainder(n, 3);
    Arith.DivModUnique(c, 3, n / 3, 0);
    WholeGroupsMod(c);
    c
  }

  /** The ghost side of one pass of the read loop: the encoding of the next
      `cut` bytes moves from the unread text to the end of the buffer. */
  lemma Absorb(data: seq<byte>, enc: nat, cut: nat, target: seq<string>, size: nat, done: seq<string>,
               buf: string, rest: string, m: nat) returns (enc': nat, rest': string, m': nat)
    requires enc + cut <= |data| && WholeGroups(cut)
    requires Pending(target, size, done, buf, rest, m) && Unread(data, enc, rest, m)
    ensures enc' == enc + cut
    ensures Pending(target, size, done, if cut > 0 then buf + Encode(data[enc..enc + cut]) else buf, rest', m')
    ensures Unread(data, enc', rest', m')
  {
    enc', rest', m' := UnreadStep(data, enc, cut, rest, m);
    var piece := Encode(data[enc..enc + cut]);
    assert |piece| == EncodedLen(cut);
    PendingShift(target, size, done, buf, rest, m, piece, rest', m');
    if cut == 0 {
      assert buf + piece == buf;
    }
  }

  /** The inner loop of `b64_payload_chunks`: yields full payloads from the
      front of the buffer until fewer than `size` characters remain. */
  method CutFull(ghost target: seq<string>, size: nat, chunks: seq<Chunk>, buf: string, ghost rest: string, ghost m: nat,
                 inDone: nat, inTotal: nat)
    returns (chunks': seq<Chunk>, buf': string)
    requires Pending(target, size, PayloadTexts(chunks), buf, rest, m)
    requires Monotone(chunks, inTotal, inDone)
    ensures Pending(target, size, PayloadTexts(chunks'), buf', rest, m)
    ensures Monotone(chunks', inTotal, inDone)
    ensures |buf'| < size
    ensures |buf'| == 0 ==> (buf == [] && chunks' == chunks) || (|chunks'| > 0 && chunks'[|chunks'| - 1].inDone == inDone)
  {
    chunks', buf' := chunks, buf;
    while |buf'| >= size
      invariant Pending(target, size, PayloadTexts(chunks'), buf', rest, m)
      invariant Monotone(chunks', inTotal, inDone)
      invariant |buf'| == 0 ==> (buf == [] && chunks' == chunks) || (|chunks'| > 0 && chunks'[|chunks'| - 1].inDone == inDone)
      decreases |buf'|
    {
      var payload := buf'[..size];
      PendingCut(target, size, PayloadTexts(chunks'), buf', rest, m);
      PayloadTextsSnoc(chunks', Chunk(payload, inDone, inTotal));
      buf' := buf'[size..];
      chunks' := chunks' + [Chunk(payload, inDone, inTotal)];
    }
  }

  /** `b64_payload_chunks`: reads `data` in blocks of `readBlock` bytes,
      encodes each three-byte-aligned stretch as it goes, and yields a payload
      each time `size` characters have accumulated, then the rest.
      The payloads are the same for every block size; `in_done` never
      decreases and reaches the file size at the final yield. */
  method PayloadChunks(data: seq<byte>, size: nat, readBlock: nat) returns (chunks: seq<Chunk>)
    requires size > 0 && readBlock > 0
    ensures PayloadTexts(chunks) == Payloads(data, size)
    ensures Monotone(chunks, |data|, |data|)
    ensures |chunks| > 0 ==> chunks[|chunks| - 1].inDone == |data|
  {
    var buf: string := [];
    var rem: seq<byte> := [];
    var inDone: nat := 0;
    var inTotal: nat := |data|;
    ghost var target := Payloads(data, size);
    ghost var enc: nat := 0;
    ghost var rest := Encode(data);
    ghost var m := AlignedLen(|data|);
    chunks := [];
    PendingStart(data, size);
    while inDone < |data|
      invariant enc <= inDone <= |data|
      invariant rem == data[enc..inDone] && |rem| < 3
      invariant |buf| < size
      invariant Pending(target, size, PayloadTexts(chunks), buf, rest, m)
      invariant Unread(data, enc, rest, m)
      invariant Monotone(chunks, inTotal, inDone)
      invariant |buf| == 0 && |rem| == 0 && |chunks| > 0 ==> chunks[|chunks| - 1].inDone == inDone
      decreases |data| - inDone
    {
      buf, rem, inDone, enc, rest, m := ReadBlock(data, readBlock, buf, rem, inDone, target, size, PayloadTexts(chunks), enc, rest, m);
      chunks, buf := CutFull(target, size, chunks, buf, rest, m, inDone, inTotal);
    }
    PendingEnd(data, target, size, PayloadTexts(chunks), buf, enc, rest, m);
    assert data[enc..] == rem;
    ghost var last := buf + rest;
    if |rem| > 0 {
      buf := buf + Encode(rem);
    } else {
      assert buf + Encode(rem) == buf;
    }
    assert buf == last;
    if |buf| > 0 {
      PayloadTextsSnoc(chunks, Chunk(buf, inDone, inTotal));
      chunks := chunks + [Chunk(buf, inDone, inTotal)];
    }
  }

  /** Splitting `n` bytes after a three-byte-aligned `cut` splits the
      aligned encoding length accordingly. */
  lemma {:induction false} AlignedSplit(n: nat, cut: nat)
    requires cut <= n && WholeGroups(cut)
    ensures EncodedLen(cut) + AlignedLen(n - cut) == AlignedLen(n)
  {
    if cut > 0 {
      AlignedSplit(n - 3, cut - 3);
    }
  }

  /** The three-byte-aligned prefix whose encoding `AlignedLen` measures. */
  lemma {:induction false} AlignedCut(n: nat) returns (a: nat)
    ensures a <= n && WholeGroups(a) && n - a < 3
    ensures EncodedLen(a) == AlignedLen(n)
  {
    if n < 3 {
      a := 0;
    } else {
      var b := AlignedCut(n - 3);
      a := b + 3;
    }
  }
}

=== FILE: clip_receiver.dfy ===
/** One poll of the "B64CLIP1" receiver: what it does with the clipboard text
    it reads, as a step from one session state to the next. The output
    directory is a map from file name to the bytes written so far. */
module ClipReceiver {
  import opened Wrappers
  import opened Base64
  import Text
  import Crc32
  import ClipHeader
  import Arith

  /** The exit status of `return 2` after a Base64 error. */
  const BadBase64: int := 2
  /** The exit status of the interpreter after an uncaught exception. */
  const Crashed: int := 1

  /** The smallest magnitude `float(n)` refuses with `OverflowError`:
      2^1024 - 2^970, halfway between the largest double and 2^1024, which
      rounds up. */
  function FloatOverflow(): int {
    0xFFFFFFFFFFFFFC00_0000000000000000_0000000000000000_0000000000000000_0000000000000000_0000000000000000_0000000000000000_0000000000000000_0000000000000000_0000000000000000_0000000000000000_0000000000000000_0000000000000000_0000000000000000_0000000000000000_0000000000000000
  }

  /** `float(n)` succeeds, so `human(n)` can print the number. */
  predicate FloatSized(n: int) {
    -FloatOverflow() < n < FloatOverflow()
  }

  /** The file being received: its name, the size its first header announced,
      the announced chunk count, the sequence number wanted next and the Base64
      text not yet decoded. */
  datatype Receiving = Receiving(name: string, size: int, total: int, expected: int, buf: string)

  /** The loop state: the open file if any (`total_chunks`, `file_name` and
      `out` are all set or all unset), the clipboard text seen last, and the
      contents of the output directory. */
  datatype Session = Session(current: Option<Receiving>, lastClip: Option<string>, files: map<string, seq<byte>>)

  /** The state before the first poll. */
  function Initial(files: map<string, seq<byte>>): (s: Session)
    ensures s.current.None? && s.lastClip.None? && s.files == files
  {
    Session(None, None, files)
  }

  /** The result of one poll: keep polling from a new state, or leave `main`
      with an exit status and the files as they are on disk. */
  datatype Outcome = Continue(session: Session) | Exit(code: int, files: map<string, seq<byte>>)

  /** What a file holds so far; a name never opened holds nothing. */
  function Written(files: map<string, seq<byte>>, name: string): seq<byte> {
    if name in files then files[name] else []
  }

  /** `out.write(data)`: the bytes go at the end of the file. */
  function Write(files: map<string, seq<byte>>, name: string, data: seq<byte>): (r: map<string, seq<byte>>)
    ensures name in r && r[name] == Written(files, name) + data
    ensures forall n :: n in files && n != name ==> n in r && r[n] == files[n]
  {
    files[name := Written(files, name) + data]
  }

  /** The longest prefix length of whole four-character groups. */
  function Cut(n: nat): (c: nat)
    ensures c <= n && c % 4 == 0 && n - c < 4
  {
    n / 4 * 4
  }

  /** Closing a file: a buffer that is not blank is decoded and written
      (`None` when the decode raises). */
  function Flush(files: map<string, seq<byte>>, r: Receiving): Option<map<string, seq<byte>>> {
    if Text.Strip(r.buf) == [] then Some(files)
    else match Decode(r.buf)
      case None => None
      case Some(data) => Some(Write(files, r.name, data))
  }

  /** One pass of the polling loop on clipboard text `clip`. */
  function Poll(s: Session, clip: string): (o: Outcome)
    ensures clip == [] || s.lastClip == Some(clip) ==> o == Continue(s)
    ensures clip != [] && s.lastClip != Some(clip) && o.Continue? ==> o.session.lastClip == Some(clip)
    ensures o.Exit? ==> o.code == BadBase64 || o.code == Crashed
    ensures clip != [] && s.lastClip != Some(clip) ==>
      var i := Text.IndexOf(clip, '\n');
      (i == |clip| || Text.Strip(clip[i + 1..]) == [] || ClipHeader.ParseHeaderLine(clip[..i]).None?) ==>
        o == Continue(s.(lastClip := Some(clip)))
  {
    if clip == [] || s.lastClip == Some(clip) then Continue(s)
    else
      var s := s.(lastClip := Some(clip));
      match Received(clip)
      case None => Continue(s)
      case Some((h, payload)) => Frame(s, h, payload)
  }

  /** The header and stripped payload of a clipboard text: the first line must
      parse as a header and the rest must not be blank. */
  function Received(clip: string): (r: Option<(ClipHeader.Header, string)>)
    ensures var i := Text.IndexOf(clip, '\n');
      r.None? <==> i == |clip| || Text.Strip(clip[i + 1..]) == [] || ClipHeader.ParseHeaderLine(clip[..i]).None?
    ensures r.Some? ==> var i := Text.IndexOf(clip, '\n');
      i < |clip| && r.value == (ClipHeader.ParseHeaderLine(clip[..i]).value, Text.Strip(clip[i + 1..]))
  {
    var i := Text.IndexOf(clip, '\n');
    if i == |clip| then None
    else
      var payload := Text.Strip(clip[i + 1..]);
      if payload == [] then None
      else
        match ClipHeader.ParseHeaderLine(clip[..i])
        case None => None
        case Some(h) => Some((h, payload))
  }

  /** A parsed frame. A header naming another file than the open one, or any
      header while no file is open, starts a new file after closing the old
      one; looking up the name of a header without one raises. */
  function Frame(s: Session, h: ClipHeader.Header, payload: string): (o: Outcome)
    ensures o.Exit? ==> o.code == BadBase64 || o.code == Crashed
    ensures o.Continue? ==> o.session.lastClip == s.lastClip
  {
    match s.current
    case None => Open(s.lastClip, s.files, h, payload)
    case Some(r) =>
      if h.name.None? then Exit(Crashed, s.files)
      else if h.name.value == r.name then Take(s.lastClip, s.files, r, h, payload)
      else
        match Flush(s.files, r)
        case None => Exit(BadBase64, s.files)
        case Some(files) => Open(s.lastClip, files, h, payload)
  }

  /** Starting a file: `open(out_path, "wb")` empties it; printing the size
      raises after that when the header has no `fsize` (`human(None)`) or
      one too large for a float. */
  function Open(lastClip: Option<string>, files: map<string, seq<byte>>, h: ClipHeader.Header, payload: string): (o: Outcome)
    ensures o.Exit? ==> o.code == BadBase64 || o.code == Crashed
    ensures o.Continue? ==> o.session.lastClip == lastClip
    ensures h.name.Some? && (h.fsize.None? || !FloatSized(h.fsize.value)) ==>
      o == Exit(Crashed, files[h.name.value := []])
  {
    if h.name.None? then Exit(Crashed, files)
    else
      var files := files[h.name.value := []];
      if h.fsize.None? || !FloatSized(h.fsize.value) then Exit(Crashed, files)
      else Take(lastClip, files, Receiving(h.name.value, h.fsize.value, h.total, 1, []), h, payload)
  }

  /** Whether a payload passes the checks, in the receiver's order: sequence
      number, length, then checksum. */
  predicate Accepts(r: Receiving, h: ClipHeader.Header, payload: string) {
    h.seqNo == r.expected && h.len == |payload| && Crc32.IsAscii(payload) && Crc32.CrcHex(payload) == h.crc
  }

  /** The checks for the open file `r`. A payload that is not ASCII makes the
      checksum computation raise. */
  function Take(lastClip: Option<string>, files: map<string, seq<byte>>, r: Receiving, h: ClipHeader.Header, payload: string): (o: Outcome)
    ensures o.Exit? ==> o.code == BadBase64 || o.code == Crashed
    ensures o.Continue? ==> o.session.lastClip == lastClip
    ensures !Accepts(r, h, payload) && o.Continue? ==> o.session == Session(Some(r), lastClip, files)
  {
    if h.seqNo != r.expected || h.len != |payload| then Continue(Session(Some(r), lastClip, files))
    else if !Crc32.IsAscii(payload) then Exit(Crashed, files)
    else if Crc32.CrcHex(payload) != h.crc then Continue(Session(Some(r), lastClip, files))
    else Absorb(lastClip, files, r, h.seqNo, payload)
  }

  /** An accepted payload: the whole groups of the buffer grown by it are
      decoded and written, and the file is closed once its sequence number
      reaches a non-zero announced total. */
  function Absorb(lastClip: Option<string>, files: map<string, seq<byte>>, r: Receiving, seqNo: int, payload: string): (o: Outcome)
    ensures o.Exit? ==> o.code == BadBase64
    ensures o.Continue? ==> o.session.lastClip == lastClip
  {
    var buf := r.buf + payload;
    var cut := Cut(|buf|);
    match (if cut > 0 then Decode(buf[..cut]) else Some([]))
    case None => Exit(BadBase64, files)
    case Some(data) =>
      var files := if cut > 0 then Write(files, r.name, data) else files;
      var r := r.(expected := r.expected + 1, buf := buf[cut..]);
      if r.total != 0 && seqNo >= r.total then
        match Flush(files, r)
        case None => Exit(BadBase64, files)
        case Some(files) => Continue(Session(None, lastClip, files))
      else Continue(Session(Some(r), lastClip, files))
  }

  /** A payload that passes the checks is absorbed. */
  lemma TakeAccepted(lastClip: Option<string>, files: map<string, seq<byte>>, r: Receiving, h: ClipHeader.Header, payload: string)
    requires Accepts(r, h, payload)
    ensures Take(lastClip, files, r, h, payload) == Absorb(lastClip, files, r, h.seqNo, payload)
  {
  }

  /** Polls over a sequence of clipboard texts, one per poll, in order, until
      `main` returns. */
  function Run(s: Session, clips: seq<string>): Outcome
    decreases |clips|
  {
    if |clips| == 0 then Continue(s)
    else match Run(s, clips[..|clips| - 1])
      case Exit(code, files) => Exit(code, files)
      case Continue(s') => Poll(s', clips[|clips| - 1])
  }

  /** The state the loop keeps: the open file is in the directory, its next
      sequence number is positive, and fewer than four characters wait to be
      decoded. */
  predicate Valid(s: Session) {
    s.current.Some? ==>
      s.current.value.name in s.files && s.current.value.expected >= 1 && |s.current.value.buf| < 4
  }

  lemma TakeKeepsValid(lastClip: Option<string>, files: map<string, seq<byte>>, r: Receiving, h: ClipHeader.Header, payload: string)
    requires Valid(Session(Some(r), lastClip, files))
    ensures var o := Take(lastClip, files, r, h, payload);
      o.Continue? ==> Valid(o.session)
  {
  }

  lemma OpenKeepsValid(lastClip: Option<string>, files: map<string, seq<byte>>, h: ClipHeader.Header, payload: string)
    ensures var o := Open(lastClip, files, h, payload);
      o.Continue? ==> Valid(o.session)
  {
    if h.name.Some? && h.fsize.Some? {
      var files' := files[h.name.value := []];
      TakeKeepsValid(lastClip, files', Receiving(h.name.value, h.fsize.value, h.total, 1, []), h, payload);
    }
  }

  lemma FrameKeepsValid(s: Session, h: ClipHeader.Header, payload: string)
    requires Valid(s)
    ensures var o := Frame(s, h, payload);
      o.Continue? ==> Valid(o.session)
  {
    match s.current
    case None =>
      OpenKeepsValid(s.lastClip, s.files, h, payload);
    case Some(r) =>
      if h.name == Some(r.name) {
        TakeKeepsValid(s.lastClip, s.files, r, h, payload);
      } else if h.name.Some? {
        match Flush(s.files, r)
        case None =>
        case Some(files) =>
          OpenKeepsValid(s.lastClip, files, h, payload);
      }
  }

  /** Every poll keeps the state valid. */
  lemma PollKeepsValid(s: Session, clip: string)
    requires Valid(s)
    ensures Poll(s, clip).Continue? ==> Valid(Poll(s, clip).session)
  {
    if clip != [] && s.lastClip != Some(clip) {
      var i := Text.IndexOf(clip, '\n');
      if i < |clip| {
        var payload := Text.Strip(clip[i + 1..]);
        var h := ClipHeader.ParseHeaderLine(clip[..i]);
        if payload != [] && h.Some? {
          FrameKeepsValid(s.(lastClip := Some(clip)), h.value, payload);
        }
      }
    }
  }

  /** Moving the cut forward by a whole number of groups. */
  lemma CutShift(c: nat, n: nat)
    requires c % 4 == 0 && c <= n
    ensures c + Cut(n - c) == Cut(n)
  {
    Arith.DivModUnique(n, 4, c / 4 + (n - c) / 4, (n - c) % 4);
  }

  /** The open file `r` has received the Base64 text `accepted`: the whole
      groups of it are decoded and written, the rest waits in the buffer. */
  predicate Holds(files: map<string, seq<byte>>, r: Receiving, accepted: string) {
    var c := Cut(|accepted|);
    && r.name in files
    && r.buf == accepted[c..]
    && Decode(accepted[..c]).Some?
    && files[r.name] == Decode(accepted[..c]).value
  }

  /** A newly opened file has received nothing. */
  lemma OpenHolds(files: map<string, seq<byte>>, name: string, size: int, total: int)
    ensures Holds(files[name := []], Receiving(name, size, total, 1, []), [])
  {
    var empty: string := [];
    assert empty[..0] == [];
  }

  /** Decoding in steps: with the whole groups of `accepted` decoded and
      the rest kept in `pending`, decoding the whole groups of `pending` grown
      by `payload` continues the decoding of the whole groups of the longer
      text, and keeps what is left of it. */
  lemma {:induction false} StreamStep(accepted: string, pending: string, payload: string)
    requires pending == accepted[Cut(|accepted|)..]
    requires Decode((accepted + payload)[..Cut(|accepted + payload|)]).Some?
    ensures var buf := pending + payload; var cut := Cut(|buf|);
      var b := accepted + payload; var c := Cut(|accepted|);
      && Decode(accepted[..c]).Some? && Decode(buf[..cut]).Some?
      && Decode(b[..Cut(|b|)]).value == Decode(accepted[..c]).value + Decode(buf[..cut]).value
      && buf[cut..] == b[Cut(|b|)..]
  {
    var b := accepted + payload;
    var c := Cut(|accepted|);
    var c2 := Cut(|b|);
    var buf := pending + payload;
    assert buf == b[c..];
    CutShift(c, |b|);
    var cut := Cut(|buf|);
    assert buf[..cut] == b[c..c2];
    assert buf[cut..] == b[c2..];
    assert b[..c2] == accepted[..c] + b[c..c2];
    DecodeSplit(accepted[..c], b[c..c2]);
  }

  /** An accepted payload extends the received text. When the file does not
      end with it, the whole groups of the longer text are what the file
      holds, the rest is kept, and the next sequence number is wanted;
      nothing else in the directory changes. */
  lemma AbsorbExtends(lastClip: Option<string>, files: map<string, seq<byte>>, r: Receiving, seqNo: int, payload: string, accepted: string)
    requires Holds(files, r, accepted)
    requires Decode((accepted + payload)[..Cut(|accepted + payload|)]).Some?
    requires r.total == 0 || seqNo < r.total
    ensures var b := accepted + payload;
      Absorb(lastClip, files, r, seqNo, payload)
      == Continue(Session(Some(r.(expected := r.expected + 1, buf := b[Cut(|b|)..])), lastClip,
                          files[r.name := Decode(b[..Cut(|b|)]).value]))
  {
    var b := accepted + payload;
    var whole := Decode(b[..Cut(|b|)]).value;
    var buf := r.buf + payload;
    var cut := Cut(|buf|);
    StreamStep(accepted, r.buf, payload);
    var data := Decode(buf[..cut]).value;
    assert whole == files[r.name] + data;
    if cut > 0 {
      assert Write(files, r.name, data) == files[r.name := whole];
    } else {
      assert buf[..cut] == [];
      assert data == [];
      assert whole == files[r.name];
      assert files == files[r.name := whole];
    }
  }

  /** When the file ends with an accepted payload and its received text is
      whole groups, the file is closed holding the decoding of all of it, and
      nothing else in the directory changes. */
  lemma AbsorbCompletes(lastClip: Option<string>, files: map<string, seq<byte>>, r: Receiving, seqNo: int, payload: string, accepted: string)
    requires Holds(files, r, accepted)
    requires |accepted + payload| % 4 == 0 && Decode(accepted + payload).Some?
    requires r.total != 0 && seqNo >= r.total
    ensures Absorb(lastClip, files, r, seqNo, payload)
      == Continue(Session(None, lastClip, files[r.name := Decode(accepted + payload).value]))
  {
    var b := accepted + payload;
    assert b[..Cut(|b|)] == b;
    StreamStep(accepted, r.buf, payload);
    var empty: string := [];
    assert Text.Strip(empty) == [];
  }

  /** A file whose received text stops inside a group cannot be closed: the
      final decode raises and `main` returns 2. */
  lemma FlushCutShort(files: map<string, seq<byte>>, r: Receiving, accepted: string)
    requires Holds(files, r, accepted)
    requires |accepted| % 4 != 0 && !Text.IsBlank(r.buf)
    ensures Flush(files, r) == None
  {
    Text.StripEmptyIffBlank(r.buf);
  }
}

=== FILE: clip_sender.dfy ===
/** The two "B64CLIP1" senders around the shared chunker: the `--chunk` size
    argument, the frame text of each payload, the per-file sequence numbers
    and announced total, and when each sender waits before copying a frame
    to the clipboard. */
module ClipSender {
  import opened Wrappers
  import opened Base64
  import Text
  import Crc32
  import ClipHeader
  import Chunker

  /** The unit suffixes `parse_size` recognises (after lower-casing). */
  datatype SizeUnit = Plain | K | KB | M | MB | G | GB

  function UnitText(u: SizeUnit): string {
    match u
    case Plain => ""
    case K => "k"
    case KB => "kb"
    case M => "m"
    case MB => "mb"
    case G => "g"
    case GB => "gb"
  }

  function Multiplier(u: SizeUnit): nat {
    match u
    case Plain => 1
    case K | KB => 1024
    case M | MB => 1024 * 1024
    case G | GB => 1024 * 1024 * 1024
  }

  /** The suffix test of `parse_size` on stripped, lower-cased text: the
      number text left after removing the suffix, and the multiplier. Each
      `endswith` of a one- or two-letter suffix is tested on the last
      characters. */
  function SplitUnit(s: string): (string, nat) {
    var n := |s|;
    if n >= 2 && s[n - 2] == 'k' && s[n - 1] == 'b' then (s[..n - 2], 1024)
    else if n >= 1 && s[n - 1] == 'k' then (s[..n - 1], 1024)
    else if n >= 2 && s[n - 2] == 'm' && s[n - 1] == 'b' then (s[..n - 2], 1024 * 1024)
    else if n >= 1 && s[n - 1] == 'm' then (s[..n - 1], 1024 * 1024)
    else if n >= 2 && s[n - 2] == 'g' && s[n - 1] == 'b' then (s[..n - 2], 1024 * 1024 * 1024)
    else if n >= 1 && s[n - 1] == 'g' then (s[..n - 1], 1024 * 1024 * 1024)
    else (s, 1)
  }

  /** `parse_size(s)` for integer number texts: `None` where it raises
      `ValueError` (text that is not a number, or a size that is not
      positive). */
  function ParseSize(arg: string): (r: Option<nat>)
    ensures r.Some? ==> r.value > 0
  {
    var (num, mul) := SplitUnit(Text.Lower(Text.Strip(arg)));
    match Text.ParseInt(Text.Strip(num))
    case None => None
    case Some(v) => if v * mul <= 0 then None else Some(v * mul)
  }

  /** A size written the way the `--chunk` help describes it. */
  function SizeText(n: int, u: SizeUnit): string {
    Text.IntToString(n) + UnitText(u)
  }

  /** Formatted integers are unchanged by `lower()`. */
  lemma LowerIntText(n: int)
    ensures Text.Lower(Text.IntToString(n)) == Text.IntToString(n)
  {
    Text.IntToStringChars(n);
  }

  /** The text of a size is its own strip and lower-case form. */
  lemma SizeTextPlain(n: int, u: SizeUnit)
    ensures Text.Strip(SizeText(n, u)) == SizeText(n, u)
    ensures Text.Lower(SizeText(n, u)) == SizeText(n, u)
  {
    var t := SizeText(n, u);
    var d := Text.IntToString(n);
    Text.IntToStringChars(n);
    assert t[0] == d[0];
    assert t[|t| - 1] == if u.Plain? then d[|d| - 1] else UnitText(u)[|UnitText(u)| - 1];
    Text.StripKeeps(t);
    LowerIntText(n);
    assert Text.Lower(t) == Text.Lower(d) + Text.Lower(UnitText(u));
  }

  /** The suffix test finds the unit of a size text and leaves its number. */
  lemma SplitSizeText(n: int, u: SizeUnit)
    ensures SplitUnit(SizeText(n, u)) == (Text.IntToString(n), Multiplier(u))
  {
    var d := Text.IntToString(n);
    var x := UnitText(u);
    var t := d + x;
    Text.IntToStringChars(n);
    assert Text.IsDigit(d[|d| - 1]);
    assert t[..|d|] == d;
    if |x| == 0 {
      assert t == d;
    } else if |x| == 1 {
      assert t[|t| - 1] == x[0];
      assert t[|t| - 2] == d[|d| - 1];
    } else {
      assert t[|t| - 1] == x[1] && t[|t| - 2] == x[0];
    }
  }

  /** `parse_size` reads a size text back: the number times the unit's
      multiplier, rejected exactly when that product is not positive or the
      number has more digits than `int()` converts. */
  lemma ParseSizeText(n: int, u: SizeUnit)
    ensures ParseSize(SizeText(n, u)) ==
      if Text.Formattable(n) && n * Multiplier(u) > 0 then Some(n * Multiplier(u)) else None
  {
    SizeTextPlain(n, u);
    SplitSizeText(n, u);
    Text.IntToStringChars(n);
    Text.StripKeeps(Text.IntToString(n));
    Text.IntRoundTrip(n);
  }

  /** `header + "\n" + payload`, the clipboard text of one payload. */
  function FrameText(seqNo: int, total: int, payload: string, fileSize: int, fileName: string): string
    requires Crc32.IsAscii(payload)
  {
    ClipHeader.MakeHeader(seqNo, total, |payload|, Crc32.CrcHex(payload), fileSize, fileName) + "\n" + payload
  }

  /** Payloads are Base64 text, hence ASCII. */
  lemma PayloadsAscii(data: seq<byte>, size: nat)
    requires size > 0
    ensures forall i :: 0 <= i < |Chunker.Payloads(data, size)| ==> Crc32.IsAscii(Chunker.Payloads(data, size)[i])
  {
    var ps := Chunker.Payloads(data, size);
    Chunker.PayloadsAreBase64(data, size);
    forall i | 0 <= i < |ps|
      ensures Crc32.IsAscii(ps[i])
    {
      Base64Plain(ps[i]);
    }
  }

  /** The frame texts of a list of payloads: frame `i` carries sequence
      number `i + 1`, the given total and payload `i`. */
  function FramesOf(ps: seq<string>, total: int, fileSize: int, fileName: string): (fs: seq<string>)
    requires forall i :: 0 <= i < |ps| ==> Crc32.IsAscii(ps[i])
    ensures |fs| == |ps|
  {
    seq(|ps|, i requires 0 <= i < |ps| => FrameText(i + 1, total, ps[i], fileSize, fileName))
  }

  /** The frames of one file, in the order they are copied, announcing the
      estimate as their total. */
  function FileFrames(data: seq<byte>, size: nat, fileName: string): (fs: seq<string>)
    requires size > 0
    ensures |fs| == |Chunker.Payloads(data, size)|
  {
    PayloadsAscii(data, size);
    FramesOf(Chunker.Payloads(data, size), Chunker.EstimatedChunks(|data|, size), |data|, fileName)
  }

  /** One clipboard copy of a sender: whether it waits first (a fixed
      `sleep`, or until the next ten-second boundary), and the text it
      copies. */
  datatype Copy = Copy(waited: bool, text: string)

  /** The texts copied, in order. */
  function Texts(run: seq<Copy>): (ts: seq<string>)
    ensures |ts| == |run|
  {
    seq(|run|, i requires 0 <= i < |run| => run[i].text)
  }

  /** Which sender's rule decides the waits. */
  datatype WaitRule = Single | DirAsWritten | Dir

  /** Whether a sender waits before copying the frame after `sent` earlier
      frames of the current file, `earlier` frames of earlier files having
      been copied in the same run.
      - The single-file sender waits when a frame has already been sent, and
        before the first one too when `--no-wait-first` is given (its help
        text reads "wait before first copy").
      - The directory sender as written waits before the first frame of
        every file unless `--no-wait-first`, and before every later frame of
        the file: the frames of earlier files play no part.
      - The corrected directory rule lets `--no-wait-first` skip only the
        wait before the very first frame of the run. */
  function Waits(rule: WaitRule, earlier: nat, sent: nat, noWaitFirst: bool): bool {
    match rule
    case Single => sent > 0 || noWaitFirst
    case DirAsWritten => (sent == 0 && !noWaitFirst) || sent > 0
    case Dir => sent > 0 || earlier > 0 || !noWaitFirst
  }

  /** The copies for the frames of one file. */
  function FileRun(earlier: nat, frames: seq<string>, noWaitFirst: bool, rule: WaitRule): (run: seq<Copy>)
    ensures |run| == |frames|
  {
    seq(|frames|, i requires 0 <= i < |frames| => Copy(Waits(rule, earlier, i, noWaitFirst), frames[i]))
  }

  /** The single-file sender copies exactly its frames, in order; it waits
      before every frame but the first, and before the first as well exactly
      under `--no-wait-first`. */
  function SingleRun(frames: seq<string>, noWaitFirst: bool): (run: seq<Copy>)
    ensures Texts(run) == frames
    ensures forall i :: 0 < i < |run| ==> run[i].waited
    ensures |run| > 0 ==> (run[0].waited <==> noWaitFirst)
  {
    FileRun(0, frames, noWaitFirst, Single)
  }

  /** The frames of every file of the directory, files in the given order. */
  function DirFrames(files: seq<(string, seq<byte>)>, size: nat): (r: seq<seq<string>>)
    requires size > 0
    ensures |r| == |files|
    ensures forall i :: 0 <= i < |files| ==> |r[i]| == |Chunker.Payloads(files[i].1, size)|
  {
    seq(|files|, i requires 0 <= i < |files| => FileFrames(files[i].1, size, files[i].0))
  }

  /** All the frames of all the files, one file after another. */
  function Flatten(perFile: seq<seq<string>>): seq<string> {
    if |perFile| == 0 then [] else Flatten(perFile[..|perFile| - 1]) + perFile[|perFile| - 1]
  }

  /** The copies of the directory sender for the frames of its files. */
  function DirRun(perFile: seq<seq<string>>, noWaitFirst: bool, rule: WaitRule): (run: seq<Copy>)
    ensures |run| == |Flatten(perFile)|
  {
    if |perFile| == 0 then []
    else
      var k := |perFile| - 1;
      DirRun(perFile[..k], noWaitFirst, rule) + FileRun(|Flatten(perFile[..k])|, perFile[k], noWaitFirst, rule)
  }

  /** Whichever wait rule it follows, the directory sender copies the frames
      of every file, file after file. */
  lemma {:induction false} DirRunTexts(perFile: seq<seq<string>>, noWaitFirst: bool, rule: WaitRule)
    ensures Texts(DirRun(perFile, noWaitFirst, rule)) == Flatten(perFile)
    decreases |perFile|
  {
    if |perFile| > 0 {
      var k := |perFile| - 1;
      var prev := DirRun(perFile[..k], noWaitFirst, rule);
      var cur := FileRun(|Flatten(perFile[..k])|, perFile[k], noWaitFirst, rule);
      DirRunTexts(perFile[..k], noWaitFirst, rule);
      assert Texts(prev + cur) == Texts(prev) + Texts(cur);
    }
  }

  /** Under `--no-wait-first` the directory sender as written copies the
      first frame of the second file straight after the last frame of the
      first file, with no wait in between. */
  lemma DirRunAsWrittenNoGap(a: string, b: string)
    ensures DirRun([[a], [b]], true, DirAsWritten) == [Copy(false, a), Copy(false, b)]
  {
    var perFile := [[a], [b]];
    assert perFile[..1] == [[a]] && perFile[..1][..0] == [];
    assert Flatten(perFile[..1]) == [a];
  }

  /** With the corrected rule the directory sender waits before every frame
      but the very first one of the run, and before that one exactly when
      `--no-wait-first` is not given. */
  lemma {:induction false} DirRunWaits(perFile: seq<seq<string>>, noWaitFirst: bool)
    ensures var run := DirRun(perFile, noWaitFirst, Dir);
      && (forall i :: 0 < i < |run| ==> run[i].waited)
      && (|run| > 0 ==> (run[0].waited <==> !noWaitFirst))
    decreases |perFile|
  {
    if |perFile| > 0 {
      var k := |perFile| - 1;
      var prev := DirRun(perFile[..k], noWaitFirst, Dir);
      var cur := FileRun(|Flatten(perFile[..k])|, perFile[k], noWaitFirst, Dir);
      DirRunWaits(perFile[..k], noWaitFirst);
      var run := prev + cur;
      forall i | 0 < i < |run|
        ensures run[i].waited
      {
        if i < |prev| {
          assert run[i] == prev[i];
        } else {
          assert run[i] == cur[i - |prev|];
        }
      }
      if |prev| > 0 {
        assert run[0] == prev[0];
      }
    }
  }
}

=== FILE: control.dfy ===
/** The control frames of the manual protocol: the Base64 encoding of the
    eight-byte marker `J2B64v1\n` followed by a compact JSON object, as
    `json.dumps(obj, ensure_ascii=True, separators=(",", ":"))` writes it. */
module Control {
  import opened Wrappers
  import Base64
  import Text
  import Crc32

  type byte = Base64.byte

  /** `b"J2B64v1\n"`, the marker that starts every control frame. */
  const Magic: seq<byte> := [74, 50, 66, 54, 52, 118, 49, 10]

  /** A JSON value as `json.loads` returns it; an object keeps its members in
      order, duplicates included, and a lookup takes the last one. */
  datatype Json =
    | JNull
    | JBool(b: bool)
    | JInt(i: int)
    | JStr(s: string)
    | JArray(items: seq<Json>)
    | JObject(members: seq<(string, Json)>)

  /** `dict.get(key)`: the value of the last member named `key`. */
  function Get(members: seq<(string, Json)>, key: string): (r: Option<Json>)
    ensures r.Some? <==> exists k :: 0 <= k < |members| && members[k].0 == key
    ensures r.Some? ==> exists k :: 0 <= k < |members| && members[k] == (key, r.value)
  {
    if |members| == 0 then None
    else
      var last := members[|members| - 1];
      if last.0 == key then
        assert members[|members| - 1] == (key, last.1);
        Some(last.1)
      else
        var r := Get(members[..|members| - 1], key);
        assert forall k :: 0 <= k < |members| - 1 ==> members[..|members| - 1][k] == members[k];
        r
  }

  /** A later member hides every earlier one of the same name. */
  lemma GetLast(members: seq<(string, Json)>, key: string, v: Json)
    ensures Get(members + [(key, v)], key) == Some(v)
  {
  }

  /** The characters `ensure_ascii` output is made of: printable ASCII. */
  predicate Printable(s: string) {
    forall i :: 0 <= i < |s| ==> ' ' <= s[i] <= '~'
  }

  /** The lower-case hexadecimal digit of `d`, as `'{0:04x}'` writes it. */
  function HexLower(d: nat): (c: char)
    requires d < 16
    ensures '0' <= c <= '9' || 'a' <= c <= 'f'
  {
    if d < 10 then ('0' as int + d) as char else ('a' as int + d - 10) as char
  }

  /** The value of a lower-case hexadecimal digit. */
  function HexLowerValue(c: char): (r: Option<nat>)
    ensures r.Some? ==> r.value < 16
  {
    if '0' <= c <= '9' then Some(c as int - '0' as int)
    else if 'a' <= c <= 'f' then Some(c as int - 'a' as int + 10)
    else None
  }

  /** Four lower-case hexadecimal digits, most significant first. */
  function Hex4(n: nat): (s: string)
    requires n < 0x10000
    ensures |s| == 4 && Printable(s)
  {
    var n1 := n / 16;
    var n2 := n1 / 16;
    [HexLower(n2 / 16), HexLower(n2 % 16), HexLower(n1 % 16), HexLower(n % 16)]
  }

  /** The number four hexadecimal digits spell, if they are digits. */
  function Hex4Value(s: string): (r: Option<nat>)
    requires |s| == 4
    ensures r.Some? ==> r.value < 0x10000
  {
    match (HexLowerValue(s[0]), HexLowerValue(s[1]), HexLowerValue(s[2]), HexLowerValue(s[3]))
    case (Some(a), Some(b), Some(c), Some(d)) => Some(((a * 16 + b) * 16 + c) * 16 + d)
    case _ => None
  }

  lemma HexLowerRoundTrip(d: nat)
    requires d < 16
    ensures HexLowerValue(HexLower(d)) == Some(d)
  {
  }

  /** Reading back four digits gives the number written. */
  lemma Hex4RoundTrip(n: nat)
    requires n < 0x10000
    ensures Hex4Value(Hex4(n)) == Some(n)
  {
    var n1 := n / 16;
    var n2 := n1 / 16;
    var n3 := n2 / 16;
    HexLowerRoundTrip(n3);
    HexLowerRoundTrip(n2 % 16);
    HexLowerRoundTrip(n1 % 16);
    HexLowerRoundTrip(n % 16);
    assert ((n3 * 16 + n2 % 16) * 16 + n1 % 16) * 16 + n % 16 == n;
  }

  /** How `ensure_ascii` writes one character: the two-character escapes for
      the quote, backslash and five control characters, printable ASCII as
      itself, anything else as `\uXXXX`, above the basic plane as a UTF-16
      surrogate pair. */
  function EscapeChar(c: char): (e: string)
    ensures Printable(e) && |e| >= 1
  {
    if c == '"' then ['\\', '"']
    else if c == '\\' then ['\\', '\\']
    else if c == '\n' then ['\\', 'n']
    else if c == '\r' then ['\\', 'r']
    else if c == '\t' then ['\\', 't']
    else if c == '\U{8}' then ['\\', 'b']
    else if c == '\U{C}' then ['\\', 'f']
    else if ' ' <= c <= '~' then [c]
    else if c as int < 0x10000 then ['\\', 'u'] + Hex4(c as int)
    else
      var v := c as int - 0x10000;
      ['\\', 'u'] + Hex4(0xD800 + v / 0x400) + ['\\', 'u'] + Hex4(0xDC00 + v % 0x400)
  }

  /** The body of a JSON string literal. */
  function Escape(s: string): (e: string)
    ensures Printable(e) && |e| >= |s|
  {
    if s == [] then [] else EscapeChar(s[0]) + Escape(s[1..])
  }

  /** The JSON string literal of `s`. */
  function Quote(s: string): (q: string)
    ensures Printable(q)
  {
    ['"'] + Escape(s) + ['"']
  }

  function Prepend(c: char, r: Option<string>): Option<string> {
    match r
    case Some(t) => Some([c] + t)
    case None => None
  }

  /** The character a two-character escape `\e` stands for. */
  function SimpleEscape(e: char): Option<char> {
    if e == '"' then Some('"')
    else if e == '\\' then Some('\\')
    else if e == '/' then Some('/')
    else if e == 'n' then Some('\n')
    else if e == 'r' then Some('\r')
    else if e == 't' then Some('\t')
    else if e == 'b' then Some('\U{8}')
    else if e == 'f' then Some('\U{C}')
    else None
  }

  /** Reads back a string body as `Escape` writes it: the two-character
      escapes, lower-case `\uXXXX` and surrogate pairs; no raw control
      character, no bare quote. `json.loads` accepts more (upper-case hex,
      lone surrogates), which the receiver's `loads` parameter leaves open;
      `None` for anything else. */
  function Unescape(t: string): (r: Option<string>)
    decreases |t|
  {
    if |t| == 0 then Some([])
    else if t[0] != '\\' then
      if t[0] == '"' || t[0] < ' ' then None else Prepend(t[0], Unescape(t[1..]))
    else if |t| < 2 then None
    else if SimpleEscape(t[1]).Some? then Prepend(SimpleEscape(t[1]).value, Unescape(t[2..]))
    else if t[1] != 'u' || |t| < 6 then None
    else
      match Hex4Value(t[2..6])
      case None => None
      case Some(n) =>
        if n < 0xD800 || 0xE000 <= n then Prepend(n as char, Unescape(t[6..]))
        else if 0xDC00 <= n || |t| < 12 || t[6] != '\\' || t[7] != 'u' then None
        else
          match Hex4Value(t[8..12])
          case None => None
          case Some(m) =>
            if 0xDC00 <= m < 0xE000 then
              Prepend((0x10000 + (n - 0xD800) * 0x400 + (m - 0xDC00)) as char, Unescape(t[12..]))
            else None
  }

  /** A character escaped as `\uXXXX` in the basic plane reads back. */
  lemma UnescapeBasic(c: char, rest: string)
    requires c as int < 0x10000
    ensures Unescape(['\\', 'u'] + Hex4(c as int) + rest) == Prepend(c, Unescape(rest))
  {
    var t := ['\\', 'u'] + Hex4(c as int) + rest;
    Hex4RoundTrip(c as int);
    assert t[2..6] == Hex4(c as int);
    assert t[6..] == rest;
  }

  /** A character above the basic plane, escaped as a surrogate pair, reads back. */
  lemma UnescapePair(c: char, rest: string)
    requires c as int >= 0x10000
    ensures var v := c as int - 0x10000;
      Unescape(['\\', 'u'] + Hex4(0xD800 + v / 0x400) + ['\\', 'u'] + Hex4(0xDC00 + v % 0x400) + rest)
        == Prepend(c, Unescape(rest))
  {
    var v := c as int - 0x10000;
    var hi := 0xD800 + v / 0x400;
    var lo := 0xDC00 + v % 0x400;
    var t := ['\\', 'u'] + Hex4(hi) + ['\\', 'u'] + Hex4(lo) + rest;
    Hex4RoundTrip(hi);
    Hex4RoundTrip(lo);
    assert t[2..6] == Hex4(hi);
    assert t[6] == '\\' && t[7] == 'u';
    assert t[8..12] == Hex4(lo);
    assert t[12..] == rest;
    assert 0x10000 + (hi - 0xD800) * 0x400 + (lo - 0xDC00) == c as int;
  }

  /** Reading one escaped character back gives the character. */
  lemma UnescapeChar(c: char, rest: string)
    ensures Unescape(EscapeChar(c) + rest) == Prepend(c, Unescape(rest))
  {
    var t := EscapeChar(c) + rest;
    if c == '"' || c == '\\' || c == '\n' || c == '\r' || c == '\t' || c == '\U{8}' || c == '\U{C}' {
      assert t[2..] == rest;
    } else if ' ' <= c <= '~' {
      assert t[1..] == rest;
    } else if c as int < 0x10000 {
      UnescapeBasic(c, rest);
    } else {
      UnescapePair(c, rest);
    }
  }

  /** `json.loads` reads back every string `json.dumps` wrote. */
  lemma {:induction false} UnescapeEscape(s: string)
    ensures Unescape(Escape(s)) == Some(s)
  {
    if s != [] {
      UnescapeChar(s[0], Escape(s[1..]));
      UnescapeEscape(s[1..]);
      assert [s[0]] + s[1..] == s;
    }
  }

  /** The parts joined with `,` (the compact item separator). */
  function Commas(parts: seq<string>): string {
    if |parts| == 0 then [] else Text.JoinWith(parts, ',')
  }

  /** `json.dumps(j, ensure_ascii=True, separators=(",", ":"))`. */
  function Dumps(j: Json): string
    decreases j
  {
    match j
    case JNull => "null"
    case JBool(b) => if b then "true" else "false"
    case JInt(i) => Text.IntToString(i)
    case JStr(s) => Quote(s)
    case JArray(items) =>
      "[" + Commas(seq(|items|, k requires 0 <= k < |items| => Dumps(items[k]))) + "]"
    case JObject(ms) =>
      "{" + Commas(seq(|ms|, k requires 0 <= k < |ms| => Quote(ms[k].0) + ":" + Dumps(ms[k].1))) + "}"
  }

  lemma PrintableJoin(parts: seq<string>)
    requires forall k :: 0 <= k < |parts| ==> Printable(parts[k])
    ensures Printable(Commas(parts))
  {
    if |parts| > 1 {
      PrintableJoin(parts[1..]);
      assert Commas(parts) == parts[0] + [','] + Commas(parts[1..]);
    }
  }

  /** `ensure_ascii=True` keeps the whole text printable ASCII. */
  lemma {:induction false} DumpsPrintable(j: Json)
    ensures Printable(Dumps(j))
    decreases j
  {
    match j
    case JNull =>
    case JBool(b) =>
    case JInt(i) => Text.IntToStringChars(i);
    case JStr(s) =>
    case JArray(items) =>
      var parts := seq(|items|, k requires 0 <= k < |items| => Dumps(items[k]));
      forall k | 0 <= k < |items| ensures Printable(parts[k]) {
        DumpsPrintable(items[k]);
      }
      PrintableJoin(parts);
    case JObject(ms) =>
      var parts := seq(|ms|, k requires 0 <= k < |ms| => Quote(ms[k].0) + ":" + Dumps(ms[k].1));
      forall k | 0 <= k < |ms| ensures Printable(parts[k]) {
        DumpsPrintable(ms[k].1);
      }
      PrintableJoin(parts);
  }

  /** The UTF-8 (here: ASCII) bytes of `json.dumps(obj, ...)`. */
  function DumpsBytes(j: Json): (b: seq<byte>)
    ensures |b| == |Dumps(j)|
    ensures forall i :: 0 <= i < |b| ==> 32 <= b[i] < 127 && b[i] == Dumps(j)[i] as int
  {
    DumpsPrintable(j);
    Crc32.AsciiBytes(Dumps(j))
  }

  /** `encode_control_frame`: Base64 of the marker and the compact JSON. */
  function EncodeControlFrame(obj: Json): string {
    Base64.Encode(Magic + DumpsBytes(obj))
  }

  /** A control frame decodes strictly to the marker followed by the JSON
      bytes, so the receiver sees `startswith(MAGIC)`. */
  lemma ControlFrameDecodes(obj: Json)
    ensures Base64.Decode(EncodeControlFrame(obj)) == Some(Magic + DumpsBytes(obj))
    ensures Text.Strip(EncodeControlFrame(obj)) == EncodeControlFrame(obj)
    ensures EncodeControlFrame(obj) != []
  {
    Base64.DecodeEncode(Magic + DumpsBytes(obj));
    Base64.EncodeHasNoSpace(Magic + DumpsBytes(obj));
    Base64.EncodedLenValue(|Magic + DumpsBytes(obj)|);
  }

  /** The START frame object `{"type":"start","name":…,"size":…,"mtime":…}`. */
  function StartObject(name: string, size: int, mtime: int): Json {
    JObject([("type", JStr("start")), ("name", JStr(name)), ("size", JInt(size)), ("mtime", JInt(mtime))])
  }

  /** The END frame object `{"type":"end","name":…}`. */
  function EndObject(name: string): Json {
    JObject([("type", JStr("end")), ("name", JStr(name))])
  }

  /** A last member with another name does not affect a lookup. */
  lemma GetSkip(members: seq<(string, Json)>, m: (string, Json), key: string)
    requires m.0 != key
    ensures Get(members + [m], key) == Get(members, key)
  {
    assert (members + [m])[..|members|] == members;
  }

  /** The fields a receiver reads back from a START frame object. */
  lemma StartFields(name: string, size: int, mtime: int)
    ensures Get(StartObject(name, size, mtime).members, "type") == Some(JStr("start"))
    ensures Get(StartObject(name, size, mtime).members, "name") == Some(JStr(name))
    ensures Get(StartObject(name, size, mtime).members, "size") == Some(JInt(size))
  {
    var a := [("type", JStr("start"))];
    var b := a + [("name", JStr(name))];
    var c := b + [("size", JInt(size))];
    assert StartObject(name, size, mtime).members == c + [("mtime", JInt(mtime))];
    assert "mtime"[0] != "type"[0] && "mtime"[0] != "name"[0] && "mtime"[0] != "size"[0];
    assert "size"[0] != "type"[0] && "size"[0] != "name"[0] && "name"[0] != "type"[0];
    GetSkip(c, ("mtime", JInt(mtime)), "type");
    GetSkip(c, ("mtime", JInt(mtime)), "name");
    GetSkip(c, ("mtime", JInt(mtime)), "size");
    GetSkip(b, ("size", JInt(size)), "type");
    GetSkip(b, ("size", JInt(size)), "name");
    GetSkip(a, ("name", JStr(name)), "type");
  }

  /** The fields a receiver reads back from an END frame object. */
  lemma EndFields(name: string)
    ensures Get(EndObject(name).members, "type") == Some(JStr("end"))
    ensures Get(EndObject(name).members, "name") == Some(JStr(name))
  {
    var a := [("type", JStr("end"))];
    assert EndObject(name).members == a + [("name", JStr(name))];
    assert "name"[0] != "type"[0];
    GetSkip(a, ("name", JStr(name)), "type");
  }

  /** The answer to a key prompt that quits: `s.strip().lower() == "q"`. */
  predicate IsQuit(key: string) {
    Text.Lower(Text.Strip(key)) == "q"
  }
}

=== FILE: crc32.dfy ===
/** zlib's CRC-32 (the reflected IEEE 802.3 polynomial 0xEDB88320, initial
    value and final XOR 0xFFFFFFFF) and the `f"{c:08X}"` formatting the frame
    header carries. */
module Crc32 {
  import opened Base64
  import Text
  import Arith

  const Poly: bv32 := 0xEDB8_8320

  /** `k` rounds of the bitwise shift-register step. */
  function Shift(crc: bv32, k: nat): bv32
    decreases k
  {
    if k == 0 then crc
    else Shift(if crc & 1 == 1 then (crc >> 1) ^ Poly else crc >> 1, k - 1)
  }

  /** The register after feeding `data` to it. */
  function Feed(crc: bv32, data: seq<byte>): bv32
    decreases |data|
  {
    if |data| == 0 then crc else Feed(Shift(crc ^ (data[0] as bv32), 8), data[1..])
  }

  /** `zlib.crc32(data) & 0xFFFFFFFF`, as a number. */
  function Crc32(data: seq<byte>): (c: nat)
    ensures c < 0x1_0000_0000
  {
    (Feed(0xFFFF_FFFF, data) ^ 0xFFFF_FFFF) as int
  }

  predicate IsAscii(s: string) {
    forall i :: 0 <= i < |s| ==> s[i] as int < 128
  }

  /** `s.encode("ascii")` for text that is all ASCII. */
  function AsciiBytes(s: string): (b: seq<byte>)
    requires IsAscii(s)
    ensures |b| == |s|
  {
    seq(|s|, i requires 0 <= i < |s| => s[i] as int)
  }

  function Pow16(k: nat): (p: nat)
    ensures p >= 1
  {
    if k == 0 then 1 else 16 * Pow16(k - 1)
  }

  /** Upper-case hexadecimal digit. */
  function HexDigit(d: nat): char
    requires d < 16
  {
    if d < 10 then ('0' as int + d) as char else ('A' as int + (d - 10)) as char
  }

  predicate IsUpperHexDigit(c: char) {
    ('0' <= c <= '9') || ('A' <= c <= 'F')
  }

  function HexDigitValue(c: char): nat
    requires IsUpperHexDigit(c)
  {
    if '0' <= c <= '9' then c as int - '0' as int else c as int - 'A' as int + 10
  }

  /** The low `k` hexadecimal digits of `n`, most significant first. */
  function HexDigits(n: nat, k: nat): (s: string)
    ensures |s| == k
    ensures forall i :: 0 <= i < k ==> IsUpperHexDigit(s[i])
    decreases k
  {
    if k == 0 then [] else HexDigits(n / 16, k - 1) + [HexDigit(n % 16)]
  }

  /** The number a string of hexadecimal digits denotes. */
  function HexValue(s: string): nat
    requires forall i :: 0 <= i < |s| ==> IsUpperHexDigit(s[i])
  {
    if |s| == 0 then 0 else HexValue(s[..|s| - 1]) * 16 + HexDigitValue(s[|s| - 1])
  }

  /** `f"{c:08X}"`: exactly eight upper-case hexadecimal digits. */
  function Hex8(c: nat): (s: string)
    requires c < 0x1_0000_0000
    ensures |s| == 8
    ensures forall i :: 0 <= i < 8 ==> IsUpperHexDigit(s[i])
  {
    HexDigits(c, 8)
  }

  lemma {:induction false} HexDigitsValue(n: nat, k: nat)
    ensures HexValue(HexDigits(n, k)) == n % Pow16(k)
    decreases k
  {
    if k > 0 {
      var s := HexDigits(n, k);
      assert s[..k - 1] == HexDigits(n / 16, k - 1);
      HexDigitsValue(n / 16, k - 1);
      ModDivStep(n, Pow16(k - 1));
    }
  }

  /** `(n / 16) % p * 16 + n % 16 == n % (16 * p)`. */
  lemma ModDivStep(n: nat, p: nat)
    requires p > 0
    ensures ((n / 16) % p) * 16 + n % 16 == n % (16 * p)
  {
    var q := n / 16;
    var r := n % 16;
    var a := q / p;
    var b := q % p;
    assert q == a * p + b;
    assert n == a * (16 * p) + (b * 16 + r) by {
      assert n == q * 16 + r;
      assert q * 16 == a * (16 * p) + b * 16;
    }
    assert b * 16 + r < 16 * p by {
      assert b <= p - 1;
      assert b * 16 <= (p - 1) * 16;
    }
    Arith.DivModUnique(n, 16 * p, a, b * 16 + r);
  }

  lemma Pow16Eight()
    ensures Pow16(8) == 0x1_0000_0000
  {
  }

  /** The header text determines the checksum: reading the eight digits back
      gives the value, so two checksums print alike only when they are equal. */
  lemma Hex8RoundTrip(c: nat)
    requires c < 0x1_0000_0000
    ensures HexValue(Hex8(c)) == c
  {
    HexDigitsValue(c, 8);
    Pow16Eight();
    Arith.DivModUnique(c, Pow16(8), 0, c);
  }

  lemma Hex8Injective(c: nat, d: nat)
    requires c < 0x1_0000_0000 && d < 0x1_0000_0000
    ensures Hex8(c) == Hex8(d) <==> c == d
  {
    Hex8RoundTrip(c);
    Hex8RoundTrip(d);
  }

  /** The printed checksum is already upper case, contains no `|` and no
      whitespace, so the receiver's `.upper()` and `.strip()` leave it alone. */
  lemma Hex8Plain(c: nat)
    requires c < 0x1_0000_0000
    ensures Text.Upper(Hex8(c)) == Hex8(c)
    ensures Text.Strip(Hex8(c)) == Hex8(c)
    ensures '|' !in Hex8(c) && '=' !in Hex8(c) && '\n' !in Hex8(c)
  {
    var s := Hex8(c);
    assert forall i :: 0 <= i < 8 ==> Text.UpperChar(s[i]) == s[i];
    Text.StripKeeps(s);
  }

  /** `f"{crc32(payload.encode("ascii")) & 0xFFFFFFFF:08X}"`, the checksum
      text both ends compute for a payload. */
  function CrcHex(payload: string): (h: string)
    requires IsAscii(payload)
    ensures |h| == 8
  {
    Hex8(Crc32(AsciiBytes(payload)))
  }
}

=== FILE: header.dfy ===
/** The one-line frame header of the "B64CLIP1" protocol:
    `B64CLIP1|seq=..|total=..|len=..|crc=..|fsize=..|name=..`, as the senders'
    `make_header` writes it and the receiver's `parse_header_line` reads it. */
module ClipHeader {
  import opened Wrappers
  import Text

  const Magic: string := "B64CLIP1"

  /** `file_name.replace("|", "_")`. */
  function SafeName(name: string): (r: string)
    ensures |r| == |name| && '|' !in r
    ensures forall i :: 0 <= i < |name| ==> r[i] == (if name[i] == '|' then '_' else name[i])
  {
    if |name| == 0 then []
    else SafeName(name[..|name| - 1]) + [if name[|name| - 1] == '|' then '_' else name[|name| - 1]]
  }

  /** `key=value`, one field of the header. */
  function KeyValue(key: string, value: string): string {
    key + "=" + value
  }

  /** `|key=value` followed by the rest of the header. */
  function Field(key: string, value: string, rest: string): string {
    "|" + KeyValue(key, value) + rest
  }

  /** The fields in order, each as `|key=value`. */
  function Render(fs: seq<(string, string)>): string {
    if |fs| == 0 then "" else Field(fs[0].0, fs[0].1, Render(fs[1..]))
  }

  /** The six key/value pairs `make_header` writes, in its order. */
  function HeaderFields(seqNo: int, total: int, payloadLen: int, crcHex: string, fileSize: int, fileName: string): seq<(string, string)> {
    [("seq", Text.IntToString(seqNo)), ("total", Text.IntToString(total)),
     ("len", Text.IntToString(payloadLen)), ("crc", crcHex),
     ("fsize", Text.IntToString(fileSize)), ("name", SafeName(fileName))]
  }

  /** `make_header(seq, total, payload_len, crc_hex, file_size, file_name)`:
      the magic and the six fields, the name sanitised. */
  function MakeHeader(seqNo: int, total: int, payloadLen: int, crcHex: string, fileSize: int, fileName: string): string {
    Magic + Render(HeaderFields(seqNo, total, payloadLen, crcHex, fileSize, fileName))
  }

  /** What `parse_header_line` returns, restricted to the keys the receiver
      reads: the four required fields converted, and `fsize` and `name` when
      present. */
  datatype Header = Header(seqNo: int, total: int, len: int, crc: string, fsize: Option<int>, name: Option<string>)

  /** `k, v = p.split("=", 1)` for a field that contains `=`. */
  function SplitField(p: string): (kv: (string, string))
    requires '=' in p
    ensures '=' !in kv.0 && kv.0 + "=" + kv.1 == p
  {
    var i := Text.IndexOf(p, '=');
    assert p == p[..i] + "=" + p[i + 1..];
    (p[..i], p[i + 1..])
  }

  /** The `kv` dictionary built from the fields after the magic: each field
      holding `=` stores its stripped value under its stripped key, a later
      field overwriting an earlier one; other fields are ignored. */
  function Fields(ps: seq<string>): map<string, string> {
    if |ps| == 0 then map[]
    else
      var kv := Fields(ps[..|ps| - 1]);
      var p := ps[|ps| - 1];
      if '=' in p then
        var (k, v) := SplitField(p);
        kv[Text.Strip(k) := Text.Strip(v)]
      else kv
  }

  /** Python's `int(s)` on the dictionary value (already stripped). */
  function FieldInt(kv: map<string, string>, key: string): Option<int>
    requires key in kv
  {
    Text.ParseInt(kv[key])
  }

  /** `parse_header_line(line)`: `None` where the function raises
      `ValueError`. */
  function ParseHeaderLine(line: string): Option<Header> {
    var parts := Text.SplitOn(Text.Strip(line), '|');
    if parts[0] != Magic then None else HeaderOf(Fields(parts[1..]))
  }

  /** The checks and conversions `parse_header_line` applies to its
      dictionary: the four required keys, `int()` on the numbers, upper-cased
      `crc`, and `fsize` converted when present. */
  function HeaderOf(kv: map<string, string>): Option<Header> {
    if !("seq" in kv && "total" in kv && "len" in kv && "crc" in kv) then None
    else
      var seqNo :- FieldInt(kv, "seq");
      var total :- FieldInt(kv, "total");
      var len :- FieldInt(kv, "len");
      var fsize :- if "fsize" in kv then
                     (match FieldInt(kv, "fsize")
                      case Some(f) => Some(Some(f))
                      case None => None)
                   else Some(None);
      Some(Header(seqNo, total, len, Text.Upper(kv["crc"]), fsize,
                  if "name" in kv then Some(kv["name"]) else None))
  }

  /** A `seq` of more than `MaxStrDigits` digits makes `int()` raise inside
      the receiver's `try`: the header does not parse, and the poll skips
      the frame. */
  lemma LongSeqRejected(kv: map<string, string>)
    requires "seq" in kv && |kv["seq"]| > Text.MaxStrDigits
    requires forall k :: 0 <= k < |kv["seq"]| ==> Text.IsDigit(kv["seq"][k])
    ensures HeaderOf(kv) == None
  {
    Text.TooManyDigits(kv["seq"]);
  }

  /** A line is only accepted when, stripped, it starts with the magic and a
      `|`: a bare magic or any other first field is rejected. */
  lemma ParseNeedsMagic(line: string)
    ensures ParseHeaderLine(line).Some? ==> Text.StartsWith(Text.Strip(line), Magic + "|")
  {
    var s := Text.Strip(line);
    var parts := Text.SplitOn(s, '|');
    if ParseHeaderLine(line).Some? {
      assert "seq" in Fields(parts[1..]);
      assert |parts| >= 2;
      Text.JoinSplit(s, '|');
      assert s == parts[0] + ['|'] + Text.JoinWith(parts[1..], '|');
      assert s[..|Magic| + 1] == Magic + "|";
    }
  }

  /** A name without `|` passes through the sanitiser unchanged. */
  lemma SafeNameKeeps(name: string)
    requires '|' !in name
    ensures SafeName(name) == name
  {
  }

  /** A field whose key has no `=` splits back into that key and value. */
  lemma SplitFieldOf(k: string, v: string)
    requires '=' !in k
    ensures '=' in k + "=" + v
    ensures SplitField(k + "=" + v) == (k, v)
  {
    var p := k + "=" + v;
    assert p[|k|] == '=';
    var i := Text.IndexOf(p, '=');
    assert i == |k| by {
      forall j | 0 <= j < |k|
        ensures p[j] != '='
      {
        assert p[j] == k[j];
      }
    }
    assert p[..i] == k && p[i + 1..] == v;
  }

  /** Appending `k=v` stores the stripped value under the stripped key,
      whatever was there before: a later duplicate key wins. */
  lemma FieldsSnoc(ps: seq<string>, k: string, v: string)
    requires '=' !in k
    ensures Fields(ps + [KeyValue(k, v)]) == Fields(ps)[Text.Strip(k) := Text.Strip(v)]
  {
    SplitFieldOf(k, v);
    assert (ps + [KeyValue(k, v)])[..|ps|] == ps;
  }

  /** A field without `=` is ignored. */
  lemma FieldsSkip(ps: seq<string>, p: string)
    requires '=' !in p
    ensures Fields(ps + [p]) == Fields(ps)
  {
    assert (ps + [p])[..|ps|] == ps;
  }

  /** Each pair written as `key=value`. */
  function KeyValues(fs: seq<(string, string)>): (r: seq<string>)
    ensures |r| == |fs|
    ensures forall i :: 0 <= i < |fs| ==> r[i] == KeyValue(fs[i].0, fs[i].1)
  {
    if |fs| == 0 then [] else KeyValues(fs[..|fs| - 1]) + [KeyValue(fs[|fs| - 1].0, fs[|fs| - 1].1)]
  }

  /** The dictionary the pairs describe, a later key overriding an earlier one. */
  function PairsMap(fs: seq<(string, string)>): map<string, string> {
    if |fs| == 0 then map[] else PairsMap(fs[..|fs| - 1])[fs[|fs| - 1].0 := fs[|fs| - 1].1]
  }

  /** The text before a field's `|` is split off as one part. */
  lemma FieldSplit(pre: string, key: string, value: string, rest: string)
    requires '|' !in pre
    ensures Text.SplitOn(pre + Field(key, value, rest), '|') == [pre] + Text.SplitOn(KeyValue(key, value) + rest, '|')
  {
    var kv := KeyValue(key, value);
    assert pre + Field(key, value, rest) == pre + ['|'] + (kv + rest);
    Text.SplitAt(pre, '|', kv + rest);
  }

  /** No key or value holds the separator `|`. */
  predicate BarFree(fs: seq<(string, string)>) {
    forall i :: 0 <= i < |fs| ==> '|' !in fs[i].0 && '|' !in fs[i].1
  }

  /** Splitting rendered fields at `|` gives back each `key=value`. */
  lemma {:induction false} SplitRender(pre: string, fs: seq<(string, string)>)
    requires '|' !in pre && BarFree(fs)
    ensures Text.SplitOn(pre + Render(fs), '|') == [pre] + KeyValues(fs)
    decreases |fs|
  {
    if |fs| == 0 {
      assert pre + Render(fs) == pre;
      Text.SplitNone(pre, '|');
    } else {
      var kv := KeyValue(fs[0].0, fs[0].1);
      FieldSplit(pre, fs[0].0, fs[0].1, Render(fs[1..]));
      assert '|' !in kv by {
        assert '|' !in fs[0].0 && '|' !in fs[0].1;
      }
      assert BarFree(fs[1..]);
      SplitRender(kv, fs[1..]);
      assert KeyValues(fs) == [kv] + KeyValues(fs[1..]);
    }
  }

  /** A key the dictionary builder keeps as written: lower-case letters at both
      ends, no `=` and no `|`. */
  predicate PlainKey(k: string) {
    |k| > 0 && 'a' <= k[0] <= 'z' && 'a' <= k[|k| - 1] <= 'z' && '=' !in k && '|' !in k
  }

  /** Keys and values that survive `strip()` unchanged. */
  predicate PlainPairs(fs: seq<(string, string)>) {
    forall i :: 0 <= i < |fs| ==> PlainKey(fs[i].0) && Text.Strip(fs[i].1) == fs[i].1
  }

  /** Parsing the `key=value` parts builds the dictionary of the pairs. */
  lemma {:induction false} FieldsOfPairs(fs: seq<(string, string)>)
    requires PlainPairs(fs)
    ensures Fields(KeyValues(fs)) == PairsMap(fs)
    decreases |fs|
  {
    if |fs| > 0 {
      var n := |fs| - 1;
      var k, v := fs[n].0, fs[n].1;
      FieldsOfPairs(fs[..n]);
      Text.StripKeeps(k);
      FieldsSnoc(KeyValues(fs[..n]), k, v);
    }
  }

  /** Formatted integers hold no `|`, no `=` and no whitespace at either end. */
  lemma IntFieldPlain(i: int)
    ensures '|' !in Text.IntToString(i) && '=' !in Text.IntToString(i)
    ensures Text.Strip(Text.IntToString(i)) == Text.IntToString(i)
  {
    Text.IntToStringChars(i);
    Text.StripKeeps(Text.IntToString(i));
  }

  /** The header's pairs hold no `|` when the checksum text holds none. */
  lemma HeaderFieldsBarFree(seqNo: int, total: int, payloadLen: int, crcHex: string, fileSize: int, fileName: string)
    requires '|' !in crcHex
    ensures BarFree(HeaderFields(seqNo, total, payloadLen, crcHex, fileSize, fileName))
  {
    IntFieldPlain(seqNo);
    IntFieldPlain(total);
    IntFieldPlain(payloadLen);
    IntFieldPlain(fileSize);
  }

  /** The header's keys are plain, and its values survive `strip()` when the
      name and checksum text have no surrounding whitespace. */
  lemma HeaderFieldsPlain(seqNo: int, total: int, payloadLen: int, crcHex: string, fileSize: int, fileName: string)
    requires Text.Strip(crcHex) == crcHex && Text.Strip(SafeName(fileName)) == SafeName(fileName)
    ensures PlainPairs(HeaderFields(seqNo, total, payloadLen, crcHex, fileSize, fileName))
  {
    IntFieldPlain(seqNo);
    IntFieldPlain(total);
    IntFieldPlain(payloadLen);
    IntFieldPlain(fileSize);
    SixPairsPlain(Text.IntToString(seqNo), Text.IntToString(total), Text.IntToString(payloadLen),
                  crcHex, Text.IntToString(fileSize), SafeName(fileName));
  }

  lemma SixPairsPlain(v1: string, v2: string, v3: string, v4: string, v5: string, v6: string)
    requires Text.Strip(v1) == v1 && Text.Strip(v2) == v2 && Text.Strip(v3) == v3
    requires Text.Strip(v4) == v4 && Text.Strip(v5) == v5 && Text.Strip(v6) == v6
    ensures PlainPairs([("seq", v1), ("total", v2), ("len", v3), ("crc", v4), ("fsize", v5), ("name", v6)])
  {
    assert PlainKey("seq") && PlainKey("total") && PlainKey("len");
    assert PlainKey("crc") && PlainKey("fsize") && PlainKey("name");
  }

  /** The dictionary of the header's pairs. */
  lemma HeaderMap(seqNo: int, total: int, payloadLen: int, crcHex: string, fileSize: int, fileName: string)
    ensures PairsMap(HeaderFields(seqNo, total, payloadLen, crcHex, fileSize, fileName))
         == map["seq" := Text.IntToString(seqNo), "total" := Text.IntToString(total),
                "len" := Text.IntToString(payloadLen), "crc" := crcHex,
                "fsize" := Text.IntToString(fileSize), "name" := SafeName(fileName)]
  {
    SixPairsMap(Text.IntToString(seqNo), Text.IntToString(total), Text.IntToString(payloadLen),
                crcHex, Text.IntToString(fileSize), SafeName(fileName));
  }

  lemma SixPairsMap(v1: string, v2: string, v3: string, v4: string, v5: string, v6: string)
    ensures PairsMap([("seq", v1), ("total", v2), ("len", v3), ("crc", v4), ("fsize", v5), ("name", v6)])
         == map["seq" := v1, "total" := v2, "len" := v3, "crc" := v4, "fsize" := v5, "name" := v6]
  {
    var fs := [("seq", v1), ("total", v2), ("len", v3), ("crc", v4), ("fsize", v5), ("name", v6)];
    assert fs[..5][..4] == fs[..4] && fs[..4][..3] == fs[..3] && fs[..3][..2] == fs[..2] && fs[..2][..1] == fs[..1];
    assert fs[..1][..0] == [];
    assert PairsMap(fs[..1]) == map["seq" := v1];
    assert PairsMap(fs[..2]) == map["seq" := v1, "total" := v2];
    assert PairsMap(fs[..3]) == map["seq" := v1, "total" := v2, "len" := v3];
    assert PairsMap(fs[..4]) == map["seq" := v1, "total" := v2, "len" := v3, "crc" := v4];
    assert PairsMap(fs[..5]) == map["seq" := v1, "total" := v2, "len" := v3, "crc" := v4, "fsize" := v5];
    assert fs[..|fs| - 1] == fs[..5];
  }

  /** The last character of rendered fields. */
  lemma {:induction false} RenderLast(fs: seq<(string, string)>)
    requires |fs| > 0
    ensures var r := Render(fs); var v := fs[|fs| - 1].1;
      |r| > 0 && r[|r| - 1] == if v != [] then v[|v| - 1] else '='
    decreases |fs|
  {
    if |fs| > 1 {
      RenderLast(fs[1..]);
    }
  }

  /** The header line is its own strip when the name does not end in
      whitespace. */
  lemma HeaderStripped(seqNo: int, total: int, payloadLen: int, crcHex: string, fileSize: int, fileName: string)
    requires fileName == [] || !Text.IsSpace(fileName[|fileName| - 1])
    ensures var line := MakeHeader(seqNo, total, payloadLen, crcHex, fileSize, fileName);
      Text.Strip(line) == line
  {
    var line := MakeHeader(seqNo, total, payloadLen, crcHex, fileSize, fileName);
    var fs := HeaderFields(seqNo, total, payloadLen, crcHex, fileSize, fileName);
    var r := Render(fs);
    RenderLast(fs);
    assert line[0] == 'B';
    assert line[|line| - 1] == r[|r| - 1];
    Text.StripKeeps(line);
  }

  /** A character found in no key or value, other than `|` and `=`, appears
      nowhere in the rendered fields. */
  lemma {:induction false} RenderAvoids(fs: seq<(string, string)>, c: char)
    requires c != '|' && c != '='
    requires forall i :: 0 <= i < |fs| ==> c !in fs[i].0 && c !in fs[i].1
    ensures c !in Render(fs)
    decreases |fs|
  {
    if |fs| > 0 {
      assert forall i :: 0 <= i < |fs| - 1 ==> fs[1..][i] == fs[i + 1];
      RenderAvoids(fs[1..], c);
    }
  }

  /** The header line holds no line break when neither the checksum text nor
      the name does, so the receiver's split at the first `\n` cuts the frame
      exactly after it. */
  lemma HeaderNoNewline(seqNo: int, total: int, payloadLen: int, crcHex: string, fileSize: int, fileName: string)
    requires '\n' !in crcHex && '\n' !in fileName
    ensures '\n' !in MakeHeader(seqNo, total, payloadLen, crcHex, fileSize, fileName)
  {
    var fs := HeaderFields(seqNo, total, payloadLen, crcHex, fileSize, fileName);
    Text.IntToStringChars(seqNo);
    Text.IntToStringChars(total);
    Text.IntToStringChars(payloadLen);
    Text.IntToStringChars(fileSize);
    assert '\n' !in SafeName(fileName);
    RenderAvoids(fs, '\n');
  }

  /** `parse_header_line(make_header(...))` recovers every field: the numbers,
      the upper-cased checksum text, the file size and the sanitised name.
      It needs a checksum text without `|` or surrounding whitespace, a
      name without surrounding whitespace, and numbers `str()` can write. */
  lemma ParseMakeHeader(seqNo: int, total: int, payloadLen: int, crcHex: string, fileSize: int, fileName: string)
    requires Text.Formattable(seqNo) && Text.Formattable(total) && Text.Formattable(payloadLen) && Text.Formattable(fileSize)
    requires '|' !in crcHex && Text.Strip(crcHex) == crcHex
    requires fileName == [] || (!Text.IsSpace(fileName[0]) && !Text.IsSpace(fileName[|fileName| - 1]))
    ensures ParseHeaderLine(MakeHeader(seqNo, total, payloadLen, crcHex, fileSize, fileName))
         == Some(Header(seqNo, total, payloadLen, Text.Upper(crcHex), Some(fileSize), Some(SafeName(fileName))))
  {
    var fs := HeaderFields(seqNo, total, payloadLen, crcHex, fileSize, fileName);
    SafeNamePlain(fileName);
    HeaderStripped(seqNo, total, payloadLen, crcHex, fileSize, fileName);
    HeaderFieldsBarFree(seqNo, total, payloadLen, crcHex, fileSize, fileName);
    HeaderFieldsPlain(seqNo, total, payloadLen, crcHex, fileSize, fileName);
    ParseRendered(fs);
    HeaderOfHeader(seqNo, total, payloadLen, crcHex, fileSize, fileName);
  }

  /** A line of the magic and rendered pairs parses to the pairs' dictionary. */
  lemma ParseRendered(fs: seq<(string, string)>)
    requires BarFree(fs) && PlainPairs(fs)
    requires Text.Strip(Magic + Render(fs)) == Magic + Render(fs)
    ensures ParseHeaderLine(Magic + Render(fs)) == HeaderOf(PairsMap(fs))
  {
    SplitRender(Magic, fs);
    var parts := [Magic] + KeyValues(fs);
    assert parts[0] == Magic && parts[1..] == KeyValues(fs);
    FieldsOfPairs(fs);
  }

  /** Sanitising keeps a name's ends, so a name without surrounding
      whitespace stays its own strip. */
  lemma SafeNamePlain(name: string)
    requires name == [] || (!Text.IsSpace(name[0]) && !Text.IsSpace(name[|name| - 1]))
    ensures Text.Strip(SafeName(name)) == SafeName(name)
  {
    var safe := SafeName(name);
    assert safe == [] || (!Text.IsSpace(safe[0]) && !Text.IsSpace(safe[|safe| - 1]));
    Text.StripKeeps(safe);
  }

  /** The dictionary of a made header converts back to the numbers it was
      made from. */
  lemma HeaderOfHeader(seqNo: int, total: int, payloadLen: int, crcHex: string, fileSize: int, fileName: string)
    requires Text.Formattable(seqNo) && Text.Formattable(total) && Text.Formattable(payloadLen) && Text.Formattable(fileSize)
    ensures HeaderOf(PairsMap(HeaderFields(seqNo, total, payloadLen, crcHex, fileSize, fileName)))
         == Some(Header(seqNo, total, payloadLen, Text.Upper(crcHex), Some(fileSize), Some(SafeName(fileName))))
  {
    HeaderMap(seqNo, total, payloadLen, crcHex, fileSize, fileName);
    Text.IntRoundTrip(seqNo);
    Text.IntRoundTrip(total);
    Text.IntRoundTrip(payloadLen);
    Text.IntRoundTrip(fileSize);
  }
}

=== FILE: manual_receiver.dfy ===
/** The manual receiver: on each key press it reads the clipboard, decodes
    it strictly as Base64, and either obeys a control frame (START opens the
    target file, END closes it) or appends a DATA frame to the open file. */
module ManualReceiver {
  import opened Wrappers
  import Base64
  import Text
  import Control

  type byte = Base64.byte

  /** The options `--out-dir`, `--out` and `--append`. */
  datatype Options = Options(outDir: Option<string>, out: Option<string>, append: bool)

  /** Exactly one of `--out-dir` and `--out` is given. */
  predicate OptionsOk(o: Options) {
    o.outDir.Some? != o.out.Some?
  }

  /** Where a START frame sends the bytes: the single `--out` file, or the
      frame's name under `--out-dir`. */
  datatype Target = OutFile | InDir(name: string)

  /** The open target, `total_written`, and the files written so far. */
  datatype Paste = Paste(current: Option<Target>, written: nat, files: map<Target, seq<byte>>)

  /** The result of one key press: the next state, or an uncaught exception. */
  datatype Next = Continue(s: Paste) | Crash

  /** A press of a key, with the clipboard text read after it; `None` when
      reading the clipboard raised. */
  datatype Press = Press(key: string, clip: Option<string>)

  /** How a run ends: `q` (exit code 0 after closing the open file), a
      crash, or a prompt still waiting for a key. */
  datatype Ending = Exit(code: int, files: map<Target, seq<byte>>) | Crashed | Waiting(s: Paste)

  /** The state before the first key press. */
  function Initial(files: map<Target, seq<byte>>): (s: Paste)
    ensures Valid(s)
  {
    Paste(None, 0, files)
  }

  /** No file open means nothing counted; an open file exists. */
  predicate Valid(s: Paste) {
    (s.current.None? ==> s.written == 0) && (s.current.Some? ==> s.current.value in s.files)
  }

  function Contents(files: map<Target, seq<byte>>, t: Target): seq<byte> {
    if t in files then files[t] else []
  }

  /** `decoded.startswith(MAGIC)`. */
  predicate IsControl(decoded: seq<byte>) {
    |Control.Magic| <= |decoded| && decoded[..|Control.Magic|] == Control.Magic
  }

  /** A given option that is the empty string. `if args.out_dir` and
      `if args.out` read it as absent, so neither output is set and
      `ensure_parent_dir(None)` raises before the loop. */
  predicate EmptyOption(o: Options) {
    o.outDir == Some("") || o.out == Some("")
  }

  /** The target of a START frame, or `None` where opening it raises: a name
      that is not a JSON string makes `Path(fname)` raise, and the empty name
      and `.` name the output directory itself. */
  function TargetOf(o: Options, name: Control.Json): (t: Option<Target>)
    ensures o.out.Some? ==> t == Some(OutFile)
    ensures o.out.None? ==> (t.Some? <==> name.JStr? && name.s != "" && name.s != ".")
    ensures t.Some? && o.out.None? ==> t.value == InDir(name.s)
  {
    if o.out.Some? then Some(OutFile)
    else if name.JStr? && name.s != "" && name.s != "." then Some(InDir(name.s))
    else None
  }

  /** START: close any open file, then open `t` (truncated unless appending)
      with nothing counted yet. */
  function Open(o: Options, s: Paste, t: Target): (r: Paste)
    ensures r.current == Some(t) && r.written == 0 && t in r.files
    ensures r.files[t] == (if o.append then Contents(s.files, t) else [])
    ensures forall u :: u != t ==> (u in r.files <==> u in s.files) && (u in s.files ==> r.files[u] == s.files[u])
  {
    Paste(Some(t), 0, s.files[t := if o.append then Contents(s.files, t) else []])
  }

  /** A DATA frame written to the open file. */
  function Append(s: Paste, d: seq<byte>): (r: Paste)
    requires s.current.Some?
    ensures r.current == s.current && r.written == s.written + |d|
    ensures r.files == s.files[s.current.value := Contents(s.files, s.current.value) + d]
  {
    Paste(s.current, s.written + |d|, s.files[s.current.value := Contents(s.files, s.current.value) + d])
  }

  /** A control frame whose JSON body `json.loads` reads as `loads(body)`.
      `meta.get` raises on anything but an object, and a missing name reads
      as `"unknown"`. */
  function ControlFrame(o: Options, loads: seq<byte> -> Option<Control.Json>, s: Paste, body: seq<byte>): Next {
    match loads(body)
    case None => Continue(s)
    case Some(meta) =>
      if !meta.JObject? then Continue(s)
      else
        var ftype := Control.Get(meta.members, "type");
        var fname := Control.Get(meta.members, "name").GetOr(Control.JStr("unknown"));
        if ftype == Some(Control.JStr("start")) then
          match TargetOf(o, fname)
          case None => Crash
          case Some(t) => Continue(Open(o, s, t))
        else if ftype == Some(Control.JStr("end")) then
          if s.current.Some? then Continue(Paste(None, 0, s.files)) else Continue(s)
        else Continue(s)
  }

  /** One pass of the loop after a key other than `q`: empty, unreadable or
      malformed clipboard text changes nothing; a DATA frame with no open
      file is dropped. */
  function Step(o: Options, loads: seq<byte> -> Option<Control.Json>, s: Paste, clip: Option<string>): (r: Next)
    ensures clip.None? ==> r == Continue(s)
    ensures clip.Some? && Text.Strip(clip.value) == [] ==> r == Continue(s)
    ensures clip.Some? && Base64.Decode(Text.Strip(clip.value)).None? ==> r == Continue(s)
    ensures (clip.Some? && Base64.Decode(Text.Strip(clip.value)).Some? && s.current.None?
      && !IsControl(Base64.Decode(Text.Strip(clip.value)).value)) ==> r == Continue(s)
  {
    match clip
    case None => Continue(s)
    case Some(raw) =>
      var text := Text.Strip(raw);
      if text == [] then Continue(s)
      else
        match Base64.Decode(text)
        case None => Continue(s)
        case Some(decoded) =>
          if IsControl(decoded) then ControlFrame(o, loads, s, decoded[|Control.Magic|..])
          else if s.current.None? then Continue(s)
          else Continue(Append(s, decoded))
  }

  /** Every step keeps the state valid. */
  lemma StepKeepsValid(o: Options, loads: seq<byte> -> Option<Control.Json>, s: Paste, clip: Option<string>)
    requires Valid(s)
    ensures Step(o, loads, s, clip).Continue? ==> Valid(Step(o, loads, s, clip).s)
  {
  }

  /** The key loop from state `s`: `q` ends it with exit code 0. */
  function Run(o: Options, loads: seq<byte> -> Option<Control.Json>, s: Paste, presses: seq<Press>): (e: Ending)
    ensures e.Exit? ==> e.code == 0
    decreases |presses|
  {
    if presses == [] then Waiting(s)
    else if Control.IsQuit(presses[0].key) then Exit(0, s.files)
    else
      match Step(o, loads, s, presses[0].clip)
      case Crash => Crashed
      case Continue(t) => Run(o, loads, t, presses[1..])
  }

  /** `main`: anything but exactly one of `--out-dir` and `--out` exits with 1
      before the loop; an empty one crashes before the loop; otherwise the
      loop runs from no open file. */
  function Main(o: Options, loads: seq<byte> -> Option<Control.Json>, files: map<Target, seq<byte>>, presses: seq<Press>): (e: Ending)
    ensures !OptionsOk(o) ==> e == Exit(1, files)
    ensures OptionsOk(o) && EmptyOption(o) ==> e == Crashed
    ensures OptionsOk(o) && !EmptyOption(o) ==> e == Run(o, loads, Initial(files), presses)
  {
    if !OptionsOk(o) then Exit(1, files)
    else if EmptyOption(o) then Crashed
    else Run(o, loads, Initial(files), presses)
  }

  // ------------------------------------------------------- the invariant

  /** `t` is open, holds `base` followed by the bytes appended since its
      START, and `total_written` counts exactly those bytes. */
  predicate SinceStart(s: Paste, t: Target, base: seq<byte>, appended: seq<byte>) {
    s.current == Some(t) && t in s.files && s.files[t] == base + appended && s.written == |appended|
  }

  /** Base64 text as the senders write it: no surrounding whitespace, and
      a strict decode gives `d`. */
  predicate Spells(text: string, d: seq<byte>) {
    Text.Strip(text) == text && Base64.Decode(text) == Some(d) && (text == [] <==> d == [])
  }

  /** Clipboard text as it may be pasted: surrounding whitespace allowed,
      and once `.strip()` removes it a strict decode gives `d`. */
  predicate Pastes(text: string, d: seq<byte>) {
    Base64.Decode(Text.Strip(text)) == Some(d) && (Text.Strip(text) == [] <==> d == [])
  }

  /** Text the senders write is pasted as is. */
  lemma SpellsPastes(text: string, d: seq<byte>)
    requires Spells(text, d)
    ensures Pastes(text, d)
  {
  }

  /** A step sees only the stripped text: whitespace around a pasted
      frame, such as a trailing line break, changes nothing. */
  lemma StepStrips(o: Options, loads: seq<byte> -> Option<Control.Json>, s: Paste, raw: string)
    ensures Step(o, loads, s, Some(raw)) == Step(o, loads, s, Some(Text.Strip(raw)))
  {
    Text.StripIdempotent(raw);
  }

  /** Every encoding spells what it encodes. */
  lemma EncodeSpells(d: seq<byte>)
    ensures Spells(Base64.Encode(d), d)
  {
    Base64.DecodeEncode(d);
    Base64.EncodeHasNoSpace(d);
    Base64.EncodedLenValue(|d|);
  }

  /** What a step does with clipboard text that decodes: the decoded bytes
      are a control frame, dropped DATA, or appended DATA. */
  lemma StepDecoded(o: Options, loads: seq<byte> -> Option<Control.Json>, s: Paste, text: string, d: seq<byte>)
    requires Pastes(text, d)
    ensures Step(o, loads, s, Some(text)) ==
      if d == [] then Continue(s)
      else if IsControl(d) then ControlFrame(o, loads, s, d[|Control.Magic|..])
      else if s.current.None? then Continue(s)
      else Continue(Append(s, d))
  {
  }

  /** A control frame spells the marker followed by the JSON bytes. */
  lemma ControlBody(obj: Control.Json)
    ensures var d := Control.Magic + Control.DumpsBytes(obj);
      d != [] && IsControl(d) && d[|Control.Magic|..] == Control.DumpsBytes(obj)
      && Spells(Control.EncodeControlFrame(obj), d)
  {
    var d := Control.Magic + Control.DumpsBytes(obj);
    assert d[..|Control.Magic|] == Control.Magic;
    assert d[|Control.Magic|..] == Control.DumpsBytes(obj);
    EncodeSpells(d);
  }

  /** The step for a control frame whose JSON `json.loads` reads back. */
  lemma StepControl(o: Options, loads: seq<byte> -> Option<Control.Json>, s: Paste, obj: Control.Json)
    requires loads(Control.DumpsBytes(obj)) == Some(obj)
    ensures Step(o, loads, s, Some(Control.EncodeControlFrame(obj))) ==
      if !obj.JObject? then Continue(s)
      else
        var ftype := Control.Get(obj.members, "type");
        var fname := Control.Get(obj.members, "name").GetOr(Control.JStr("unknown"));
        if ftype == Some(Control.JStr("start")) then
          match TargetOf(o, fname)
          case None => Crash
          case Some(t) => Continue(Open(o, s, t))
        else if ftype == Some(Control.JStr("end")) then
          if s.current.Some? then Continue(Paste(None, 0, s.files)) else Continue(s)
        else Continue(s)
  {
    ControlBody(obj);
    SpellsPastes(Control.EncodeControlFrame(obj), Control.Magic + Control.DumpsBytes(obj));
    StepDecoded(o, loads, s, Control.EncodeControlFrame(obj), Control.Magic + Control.DumpsBytes(obj));
  }

  /** A START frame opens its target afresh (or for appending), with the
      count back at 0, whatever was open before; other files keep their
      contents. */
  lemma StartOpens(o: Options, loads: seq<byte> -> Option<Control.Json>, s: Paste, name: string, size: int, mtime: int)
    requires loads(Control.DumpsBytes(Control.StartObject(name, size, mtime))) == Some(Control.StartObject(name, size, mtime))
    requires o.out.Some? || (name != "" && name != ".")
    ensures var t := if o.out.Some? then OutFile else InDir(name);
      Step(o, loads, s, Some(Control.EncodeControlFrame(Control.StartObject(name, size, mtime))))
        == Continue(Open(o, s, t))
      && SinceStart(Open(o, s, t), t, if o.append then Contents(s.files, t) else [], [])
  {
    StepControl(o, loads, s, Control.StartObject(name, size, mtime));
    Control.StartFields(name, size, mtime);
  }

  /** An END frame closes the open file and resets the count; with no file
      open it changes nothing, and no file's contents change either way. */
  lemma EndCloses(o: Options, loads: seq<byte> -> Option<Control.Json>, s: Paste, name: string)
    requires loads(Control.DumpsBytes(Control.EndObject(name))) == Some(Control.EndObject(name))
    ensures Step(o, loads, s, Some(Control.EncodeControlFrame(Control.EndObject(name))))
         == Continue(if s.current.Some? then Paste(None, 0, s.files) else s)
  {
    StepControl(o, loads, s, Control.EndObject(name));
    Control.EndFields(name);
  }

  /** A DATA frame appends its bytes to the open file and adds their number
      to `total_written`; nothing else changes. */
  lemma DataAppends(o: Options, loads: seq<byte> -> Option<Control.Json>, s: Paste, text: string, d: seq<byte>,
                    t: Target, base: seq<byte>, appended: seq<byte>)
    requires Pastes(text, d) && d != [] && !IsControl(d)
    requires SinceStart(s, t, base, appended)
    ensures Step(o, loads, s, Some(text)) == Continue(Append(s, d))
    ensures SinceStart(Append(s, d), t, base, appended + d)
    ensures Append(s, d).files == s.files[t := base + appended + d]
  {
    StepDecoded(o, loads, s, text, d);
    AppendCounts(s, t, base, appended, d);
  }

  /** `total_written` stays in step with the open file on every key press:
      from a file open since its START, a step crashes, changes nothing,
      closes the file with the count at 0, opens a file with the count at
      0, or appends the decoded bytes and counts exactly them. */
  lemma StepKeepsCount(o: Options, loads: seq<byte> -> Option<Control.Json>, s: Paste, clip: Option<string>,
                       t: Target, base: seq<byte>, appended: seq<byte>)
    requires SinceStart(s, t, base, appended)
    ensures var r := Step(o, loads, s, clip);
      r.Crash? || r == Continue(s)
      || r == Continue(Paste(None, 0, s.files))
      || (r.s.current.Some? && r.s == Open(o, s, r.s.current.value))
      || (clip.Some? && Base64.Decode(Text.Strip(clip.value)).Some?
          && r == Continue(Append(s, Base64.Decode(Text.Strip(clip.value)).value))
          && SinceStart(r.s, t, base, appended + Base64.Decode(Text.Strip(clip.value)).value))
  {
    if clip.Some? {
      var text := Text.Strip(clip.value);
      if text != [] && Base64.Decode(text).Some? {
        var d := Base64.Decode(text).value;
        if IsControl(d) {
          ControlFrameCases(o, loads, s, d[|Control.Magic|..]);
        } else {
          assert Step(o, loads, s, clip) == Continue(Append(s, d));
          AppendCounts(s, t, base, appended, d);
        }
      }
    }
  }

  /** Appending to a file open since its START counts exactly the new bytes. */
  lemma AppendCounts(s: Paste, t: Target, base: seq<byte>, appended: seq<byte>, d: seq<byte>)
    requires SinceStart(s, t, base, appended)
    ensures SinceStart(Append(s, d), t, base, appended + d)
  {
    assert base + appended + d == base + (appended + d);
  }

  /** A control frame crashes, changes nothing, closes the open file with
      the count at 0, or opens a file with the count at 0. */
  lemma ControlFrameCases(o: Options, loads: seq<byte> -> Option<Control.Json>, s: Paste, body: seq<byte>)
    ensures var r := ControlFrame(o, loads, s, body);
      r.Crash? || r == Continue(s) || r == Continue(Paste(None, 0, s.files))
      || (r.s.current.Some? && r.s == Open(o, s, r.s.current.value) && r.s.written == 0)
  {
  }

  /** A DATA frame with no file open is dropped. */
  lemma DataWithoutStart(o: Options, loads: seq<byte> -> Option<Control.Json>, s: Paste, text: string, d: seq<byte>)
    requires Pastes(text, d) && !IsControl(d) && s.current.None?
    ensures Step(o, loads, s, Some(text)) == Continue(s)
  {
    StepDecoded(o, loads, s, text, d);
  }

  /** DATA whose bytes happen to begin with the marker is taken for a
      control frame: when its tail is not a JSON object the chunk is lost,
      and the open file does not grow. */
  lemma MarkedDataLost(o: Options, loads: seq<byte> -> Option<Control.Json>, s: Paste, d: seq<byte>)
    requires IsControl(d) && loads(d[|Control.Magic|..]).None?
    ensures Step(o, loads, s, Some(Base64.Encode(d))) == Continue(s)
  {
    EncodeSpells(d);
    SpellsPastes(Base64.Encode(d), d);
    StepDecoded(o, loads, s, Base64.Encode(d), d);
  }
}

=== FILE: manual_sender.dfy ===
/** The manual sender: it lists a directory's files in a fixed order, keeps
    those with a requested extension, and offers each file as a START control
    frame, Base64 DATA chunks and an END control frame, copying each one to
    the clipboard only after a key press. */
module ManualSender {
  import opened Wrappers
  import Base64
  import Text
  import Control
  import Arith

  type byte = Base64.byte

  /** A regular file found under the base directory: its last path component
      (`p.name`), its full path (`str(p)`), its path relative to the base
      directory as the platform writes it, its contents and its modification
      time in whole seconds. */
  datatype SourceFile = SourceFile(name: string, path: string, rel: string, data: seq<byte>, mtime: int)

  // ---------------------------------------------------------------- order

  /** Python's tuple order on the sort key `(name.lower(), str(p).lower())`. */
  predicate KeyLess(a: SourceFile, b: SourceFile) {
    var an, bn := Text.Lower(a.name), Text.Lower(b.name);
    Text.LexLess(an, bn) || (an == bn && Text.LexLess(Text.Lower(a.path), Text.Lower(b.path)))
  }

  lemma KeyLessAsymmetric(a: SourceFile, b: SourceFile)
    requires KeyLess(a, b)
    ensures !KeyLess(b, a)
  {
    var an, bn := Text.Lower(a.name), Text.Lower(b.name);
    if Text.LexLess(an, bn) {
      Text.LexLessAsymmetric(an, bn);
      if an == bn {
        Text.LexLessIrreflexive(an);
      }
    } else {
      Text.LexLessAsymmetric(Text.Lower(a.path), Text.Lower(b.path));
      Text.LexLessIrreflexive(an);
    }
  }

  /** Not being smaller is transitive: the key order is total. */
  lemma KeyNotLessTransitive(a: SourceFile, b: SourceFile, c: SourceFile)
    requires !KeyLess(b, a) && !KeyLess(c, b)
    ensures !KeyLess(c, a)
  {
    var an, bn, cn := Text.Lower(a.name), Text.Lower(b.name), Text.Lower(c.name);
    var ap, bp, cp := Text.Lower(a.path), Text.Lower(b.path), Text.Lower(c.path);
    Text.LexLessTrichotomy(an, bn);
    Text.LexLessTrichotomy(bn, cn);
    Text.LexLessTrichotomy(ap, bp);
    Text.LexLessTrichotomy(bp, cp);
    if KeyLess(c, a) {
      if Text.LexLess(cn, an) {
        if Text.LexLess(cn, bn) {
          Text.LexLessAsymmetric(cn, bn);
        } else if cn == bn {
        } else {
          Text.LexLessTransitive(bn, cn, an);
        }
        if Text.LexLess(an, bn) {
          Text.LexLessTransitive(cn, an, bn);
          Text.LexLessAsymmetric(cn, bn);
        }
      } else {
        assert cn == an && Text.LexLess(cp, ap);
        if Text.LexLess(bn, an) {
        } else if Text.LexLess(an, bn) {
          Text.LexLessAsymmetric(an, bn);
        } else {
          assert bn == an;
          if Text.LexLess(cp, bp) {
          } else if cp == bp {
          } else {
            Text.LexLessTransitive(bp, cp, ap);
          }
        }
      }
    }
  }

  /** In key order: no file has a smaller key than one before it. */
  predicate Sorted(fs: seq<SourceFile>) {
    forall i, j :: 0 <= i < j < |fs| ==> !KeyLess(fs[j], fs[i])
  }

  /** Putting a file in front of sorted files not smaller than it keeps
      them sorted. */
  lemma SortedCons(x: SourceFile, fs: seq<SourceFile>)
    requires Sorted(fs)
    requires forall k :: 0 <= k < |fs| ==> !KeyLess(fs[k], x)
    ensures Sorted([x] + fs)
  {
    var r := [x] + fs;
    forall i, j | 0 <= i < j < |r| ensures !KeyLess(r[j], r[i]) {
      assert r[j] == fs[j - 1];
      if i > 0 {
        assert r[i] == fs[i - 1];
      }
    }
  }

  /** Puts `x` before the first file whose key is not smaller, so that files
      with equal keys keep their order. */
  function Insert(x: SourceFile, fs: seq<SourceFile>): (r: seq<SourceFile>)
    ensures multiset(r) == multiset(fs) + multiset{x}
  {
    if fs == [] then [x]
    else if KeyLess(fs[0], x) then
      assert fs == [fs[0]] + fs[1..];
      [fs[0]] + Insert(x, fs[1..])
    else [x] + fs
  }

  /** Inserting into sorted files keeps them sorted. */
  lemma {:induction false} InsertSorted(x: SourceFile, fs: seq<SourceFile>)
    requires Sorted(fs)
    ensures Sorted(Insert(x, fs))
  {
    if fs == [] {
    } else if KeyLess(fs[0], x) {
      var rest := Insert(x, fs[1..]);
      InsertSorted(x, fs[1..]);
      KeyLessAsymmetric(fs[0], x);
      forall k | 0 <= k < |rest| ensures !KeyLess(rest[k], fs[0]) {
        assert rest[k] in multiset(rest);
        if rest[k] != x {
          assert rest[k] in fs[1..];
        }
      }
      SortedCons(fs[0], rest);
    } else {
      forall k | 0 <= k < |fs| ensures !KeyLess(fs[k], x) {
        if k > 0 {
          KeyNotLessTransitive(x, fs[0], fs[k]);
        }
      }
      SortedCons(x, fs);
    }
  }

  /** `files.sort(key=lambda p: (p.name.lower(), str(p).lower()))`. */
  function SortFiles(fs: seq<SourceFile>): (r: seq<SourceFile>)
    ensures Sorted(r)
    ensures multiset(r) == multiset(fs)
  {
    if fs == [] then []
    else
      assert fs == [fs[0]] + fs[1..];
      InsertSorted(fs[0], SortFiles(fs[1..]));
      Insert(fs[0], SortFiles(fs[1..]))
  }

  /** Equal sort keys: neither file is smaller. */
  predicate SameKey(a: SourceFile, b: SourceFile) {
    !KeyLess(a, b) && !KeyLess(b, a)
  }

  /** The files whose sort key equals that of `e`, in their order. */
  function EqualKeys(fs: seq<SourceFile>, e: SourceFile): (r: seq<SourceFile>)
    ensures |r| <= |fs|
  {
    if fs == [] then []
    else (if SameKey(fs[0], e) then [fs[0]] else []) + EqualKeys(fs[1..], e)
  }

  lemma EqualKeysCons(a: SourceFile, rest: seq<SourceFile>, e: SourceFile)
    ensures EqualKeys([a] + rest, e) == (if SameKey(a, e) then [a] else []) + EqualKeys(rest, e)
  {
    var s := [a] + rest;
    assert s[0] == a && s[1..] == rest;
  }

  /** Inserting puts `x` ahead of every file with its key. */
  lemma {:induction false} InsertEqualKeys(x: SourceFile, fs: seq<SourceFile>, e: SourceFile)
    ensures EqualKeys(Insert(x, fs), e) == (if SameKey(x, e) then [x] else []) + EqualKeys(fs, e)
  {
    if fs != [] && KeyLess(fs[0], x) {
      InsertEqualKeys(x, fs[1..], e);
      InsertPastEqualKeys(x, fs, e);
    } else {
      assert Insert(x, fs) == [x] + fs;
      EqualKeysCons(x, fs, e);
    }
  }

  /** The step of `InsertEqualKeys` where `x` moves past the first file,
      whose key is then smaller than that of `x` and so not equal to it. */
  lemma InsertPastEqualKeys(x: SourceFile, fs: seq<SourceFile>, e: SourceFile)
    requires fs != [] && KeyLess(fs[0], x)
    requires EqualKeys(Insert(x, fs[1..]), e) == (if SameKey(x, e) then [x] else []) + EqualKeys(fs[1..], e)
    ensures EqualKeys(Insert(x, fs), e) == (if SameKey(x, e) then [x] else []) + EqualKeys(fs, e)
  {
    var mine: seq<SourceFile> := if SameKey(x, e) then [x] else [];
    var head: seq<SourceFile> := if SameKey(fs[0], e) then [fs[0]] else [];
    var tail := EqualKeys(fs[1..], e);
    assert Insert(x, fs) == [fs[0]] + Insert(x, fs[1..]);
    EqualKeysCons(fs[0], Insert(x, fs[1..]), e);
    assert fs == [fs[0]] + fs[1..];
    EqualKeysCons(fs[0], fs[1..], e);
    if SameKey(x, e) && SameKey(fs[0], e) {
      KeyNotLessTransitive(x, e, fs[0]);
    }
    Swap(head, mine, tail);
  }

  lemma Swap<T>(h: seq<T>, m: seq<T>, t: seq<T>)
    requires h == [] || m == []
    ensures h + (m + t) == m + (h + t)
  { }

  /** `list.sort` is stable: files with equal keys, such as `A.txt` and
      `a.txt` on a case-sensitive file system, keep the order in which the
      directory walk listed them. */
  lemma {:induction false} SortStable(fs: seq<SourceFile>, e: SourceFile)
    ensures EqualKeys(SortFiles(fs), e) == EqualKeys(fs, e)
  {
    if fs != [] {
      SortStable(fs[1..], e);
      InsertEqualKeys(fs[0], SortFiles(fs[1..]), e);
    }
  }

  // ------------------------------------------------------------ extensions

  /** Index of the last `c` in `s`, or -1 (Python's `s.rfind(c)`). */
  function LastIndexOf(s: string, c: char): (r: int)
    ensures -1 <= r < |s|
    ensures r >= 0 ==> s[r] == c
    ensures forall k :: r < k < |s| ==> s[k] != c
  {
    if |s| == 0 then -1
    else if s[|s| - 1] == c then |s| - 1
    else LastIndexOf(s[..|s| - 1], c)
  }

  /** `Path(name).suffix`: from the last dot on, unless the dot leads the
      name or ends it. */
  function Suffix(name: string): (x: string)
    ensures x == [] || (x[0] == '.' && 1 < |x| < |name| && name[|name| - |x|..] == x && '.' !in x[1..])
  {
    var i := LastIndexOf(name, '.');
    if 0 < i < |name| - 1 then
      assert name[i..][1..] == name[i + 1..];
      name[i..]
    else []
  }

  /** The set built from `--extensions`: lower-cased, a leading dot added
      where missing. */
  function ExtSet(exts: seq<string>): set<string> {
    set e | e in exts :: NormalExt(e)
  }

  function NormalExt(e: string): string {
    if Text.StartsWith(e, ".") then Text.Lower(e) else "." + Text.Lower(e)
  }

  predicate Wanted(f: SourceFile, exts: set<string>) {
    Text.Lower(Suffix(f.name)) in exts
  }

  /** The files whose lower-cased suffix is in `exts`, in their order. */
  function KeepWanted(fs: seq<SourceFile>, exts: set<string>): (r: seq<SourceFile>)
    ensures forall f :: f in r <==> f in fs && Wanted(f, exts)
    ensures |r| <= |fs|
  {
    if fs == [] then []
    else
      var rest := KeepWanted(fs[1..], exts);
      assert forall f :: f in fs <==> f == fs[0] || f in fs[1..];
      if Wanted(fs[0], exts) then [fs[0]] + rest else rest
  }

  /** Keeping some of sorted files leaves them sorted. */
  lemma {:induction false} KeepWantedSorted(fs: seq<SourceFile>, exts: set<string>)
    requires Sorted(fs)
    ensures Sorted(KeepWanted(fs, exts))
  {
    if fs != [] {
      var rest := KeepWanted(fs[1..], exts);
      KeepWantedSorted(fs[1..], exts);
      if Wanted(fs[0], exts) {
        forall k | 0 <= k < |rest| ensures !KeyLess(rest[k], fs[0]) {
          assert rest[k] in fs[1..];
        }
        SortedCons(fs[0], rest);
      }
    }
  }

  /** The files sent: all listed files in key order, or only those with a
      requested extension when `--extensions` names any. */
  function Selected(listed: seq<SourceFile>, exts: seq<string>): (r: seq<SourceFile>)
    ensures Sorted(r)
    ensures exts == [] ==> multiset(r) == multiset(listed)
    ensures exts != [] ==> forall f :: f in r <==> f in listed && Wanted(f, ExtSet(exts))
  {
    var sorted := SortFiles(listed);
    if exts == [] then sorted
    else
      assert forall f :: f in sorted <==> f in listed by {
        forall f ensures f in sorted <==> f in listed {
          assert f in sorted <==> f in multiset(sorted);
        }
      }
      KeepWantedSorted(sorted, ExtSet(exts));
      KeepWanted(sorted, ExtSet(exts))
  }

  /** An extension given with or without its dot selects the same files. */
  lemma ExtDotOptional(e: string)
    requires !Text.StartsWith(e, ".")
    ensures ExtSet([e]) == ExtSet(["." + e])
  {
    var d := "." + e;
    assert Text.StartsWith(d, ".");
    assert Text.Lower(d) == "." + Text.Lower(e);
    assert ExtSet([e]) == {NormalExt(e)};
    assert ExtSet([d]) == {NormalExt(d)};
  }

  // ------------------------------------------------------------ the frames

  /** `str(relative_to(base)).replace("\\", "/")`. */
  function RelName(rel: string): (r: string)
    ensures |r| == |rel| && '\\' !in r
    ensures forall i :: 0 <= i < |rel| && rel[i] != '\\' ==> r[i] == rel[i]
  {
    seq(|rel|, i requires 0 <= i < |rel| => if rel[i] == '\\' then '/' else rel[i])
  }

  /** `raw_bytes_per_b64_chunk`: the whole groups of three bytes whose
      encoding fits in `chars` characters, but at least one byte. */
  function RawBytesPerChunk(chars: int): (n: int)
    ensures n >= 1
    ensures chars >= 4 ==> n % 3 == 0 && Base64.EncodedLen(n) <= chars
  {
    var n := (chars / 4) * 3;
    if n < 1 then 1
    else
      Base64.EncodedLenValue(n);
      n
  }

  /** No larger chunk fits: one byte more than `RawBytesPerChunk` already
      encodes to more than `chars` characters. */
  lemma RawBytesMaximal(chars: int, n: nat)
    requires chars >= 4 && n > RawBytesPerChunk(chars)
    ensures Base64.EncodedLen(n) > chars
  {
    Base64.EncodedLenValue(n);
    var q := chars / 4;
    assert (n + 2) / 3 >= q + 1;
  }

  /** The successive `f.read(n)` results of a whole file: every piece full
      except perhaps the last, none empty. */
  function Chunks(data: seq<byte>, n: nat): (cs: seq<seq<byte>>)
    requires n > 0
    ensures forall k :: 0 <= k < |cs| ==> 0 < |cs[k]| <= n
    ensures forall k :: 0 <= k < |cs| - 1 ==> |cs[k]| == n
    ensures |cs| == 0 <==> data == []
    decreases |data|
  {
    if data == [] then []
    else if |data| <= n then [data]
    else [data[..n]] + Chunks(data[n..], n)
  }

  function JoinBytes(cs: seq<seq<byte>>): seq<byte> {
    if cs == [] then [] else cs[0] + JoinBytes(cs[1..])
  }

  /** The chunks are the file, in order. */
  lemma {:induction false} ChunksJoin(data: seq<byte>, n: nat)
    requires n > 0
    ensures JoinBytes(Chunks(data, n)) == data
    decreases |data|
  {
    if |data| > n {
      ChunksJoin(data[n..], n);
      var cs := Chunks(data, n);
      assert cs[1..] == Chunks(data[n..], n);
      assert data == data[..n] + data[n..];
    }
  }

  /** The number of chunks is the size divided by `n`, rounded up. */
  lemma {:induction false} ChunksCount(data: seq<byte>, n: nat)
    requires n > 0
    ensures |Chunks(data, n)| == Arith.CeilDiv(|data|, n)
    decreases |data|
  {
    if |data| > n {
      ChunksCount(data[n..], n);
      Arith.DivSub(|data| + n - 1, n);
    } else if data != [] {
      Arith.CeilDivAbove(0, n, |data|);
    } else {
      Arith.DivModUnique(n - 1, n, 0, n - 1);
    }
  }

  /** The START frame object's name for a file. */
  function WireName(f: SourceFile): string {
    RelName(f.rel)
  }

  function StartFrame(f: SourceFile): string {
    Control.EncodeControlFrame(Control.StartObject(WireName(f), |f.data|, f.mtime))
  }

  function EndFrame(f: SourceFile): string {
    Control.EncodeControlFrame(Control.EndObject(WireName(f)))
  }

  /** Each piece Base64-encoded. */
  function Encoded(cs: seq<seq<byte>>): (ts: seq<string>)
    ensures |ts| == |cs| && forall k :: 0 <= k < |cs| ==> ts[k] == Base64.Encode(cs[k])
  {
    seq(|cs|, k requires 0 <= k < |cs| => Base64.Encode(cs[k]))
  }

  /** The DATA frames: each chunk Base64-encoded. */
  function DataFrames(data: seq<byte>, n: nat): (ds: seq<string>)
    requires n > 0
    ensures |ds| == |Chunks(data, n)|
  {
    Encoded(Chunks(data, n))
  }

  /** Every frame `send_file_chunked` offers for a file, in order, when the
      Base64 chunk size is `chars` characters. */
  function FileFrames(f: SourceFile, chars: int): (fs: seq<string>)
    ensures |fs| == |Chunks(f.data, RawBytesPerChunk(chars))| + 2
  {
    [StartFrame(f)] + DataFrames(f.data, RawBytesPerChunk(chars)) + [EndFrame(f)]
  }

  /** Each DATA frame fits the requested size. */
  lemma DataFramesFit(data: seq<byte>, chars: int, k: nat)
    requires chars >= 4 && k < |Chunks(data, RawBytesPerChunk(chars))|
    ensures |DataFrames(data, RawBytesPerChunk(chars))[k]| <= chars
  {
    var n := RawBytesPerChunk(chars);
    var c := Chunks(data, n)[k];
    Base64.EncodedLenValue(|c|);
    Base64.EncodedLenValue(n);
  }

  // ------------------------------------------------------------- key gates

  datatype Status = Done | Quit | Waiting

  /** The frames copied, the key presses left, and how the gating ended. */
  datatype Gated = Gated(copied: seq<string>, keys: seq<string>, status: Status)

  /** Offers `frames` one by one: each waits for a key press and is copied
      unless the key quits; `Waiting` when the presses run out first. */
  function Gate(frames: seq<string>, keys: seq<string>): (g: Gated)
    ensures |g.copied| <= |frames| && g.copied == frames[..|g.copied|]
    ensures |g.copied| <= |keys|
    ensures g.status == Waiting ==> g.keys == [] && |keys| == |g.copied| < |frames|
  {
    if frames == [] then Gated([], keys, Done)
    else if keys == [] then Gated([], [], Waiting)
    else if Control.IsQuit(keys[0]) then Gated([], keys[1..], Quit)
    else
      var g := Gate(frames[1..], keys[1..]);
      Gated([frames[0]] + g.copied, g.keys, g.status)
  }

  /** Every frame is copied exactly when there is a press for each and none
      of them is `q`; the presses left are those after the frames'. */
  lemma {:induction false} GateDone(frames: seq<string>, keys: seq<string>)
    ensures var g := Gate(frames, keys);
      (g.status == Done <==> (|frames| <= |keys| && forall k :: 0 <= k < |frames| ==> !Control.IsQuit(keys[k])))
      && (g.status == Done ==> g.copied == frames && g.keys == keys[|frames|..])
    decreases |frames|
  {
    if frames != [] && keys != [] && !Control.IsQuit(keys[0]) {
      GateDone(frames[1..], keys[1..]);
      assert forall k :: 1 <= k < |frames| && k < |keys| ==> keys[1..][k - 1] == keys[k];
      if |frames| <= |keys| {
        assert keys[1..][|frames| - 1..] == keys[|frames|..];
      }
    }
  }

  /** Gating stops at the first `q`: the frames before it are copied and the
      presses after it are left. */
  lemma {:induction false} GateQuit(frames: seq<string>, keys: seq<string>, i: nat)
    requires i < |frames| && i < |keys| && Control.IsQuit(keys[i])
    requires forall k :: 0 <= k < i ==> !Control.IsQuit(keys[k])
    ensures Gate(frames, keys) == Gated(frames[..i], keys[i + 1..], Quit)
    decreases i
  {
    if i > 0 {
      GateQuit(frames[1..], keys[1..], i - 1);
      assert [frames[0]] + frames[1..][..i - 1] == frames[..i];
      assert keys[1..][i..] == keys[i + 1..];
    }
  }

  // ------------------------------------------------------------ the run

  /** What a press of `q` inside a file does: as written it abandons only that
      file; the corrected rule ends the run. */
  datatype QuitRule = AbandonFile | EndRun

  datatype Exit = Exit(code: int) | Blocked

  /** The exit code (or a prompt still waiting) and the clipboard copies. */
  datatype SendRun = SendRun(exit: Exit, copies: seq<string>)

  /** The `for` loop of `main` over the frames of the selected files, one
      list per file, from the first file on. */
  function SendFrames(perFile: seq<seq<string>>, keys: seq<string>, rule: QuitRule): (r: SendRun)
    ensures r.exit == Exit(0) || r.exit == Blocked
    decreases |perFile|, 1
  {
    if perFile == [] then SendRun(Exit(0), [])
    else AfterGate(perFile, Gate(perFile[0], keys), rule)
  }

  /** What the loop does once the first file's frames were offered: stop on
      an unanswered prompt, on a `q` the rule obeys, or after the last file,
      and otherwise ask before the next file. */
  function AfterGate(perFile: seq<seq<string>>, g: Gated, rule: QuitRule): (r: SendRun)
    requires perFile != []
    ensures r.exit == Exit(0) || r.exit == Blocked
    decreases |perFile|, 0
  {
    if g.status == Waiting then SendRun(Blocked, g.copied)
    else if g.status == Quit && rule == EndRun then SendRun(Exit(0), g.copied)
    else if |perFile| == 1 then SendRun(Exit(0), g.copied)
    else if g.keys == [] then SendRun(Blocked, g.copied)
    else if Control.IsQuit(g.keys[0]) then SendRun(Exit(0), g.copied)
    else
      var r := SendFrames(perFile[1..], g.keys[1..], rule);
      SendRun(r.exit, g.copied + r.copies)
  }

  /** The frames of each file, file by file. */
  function PerFile(fs: seq<SourceFile>, chars: int): (pf: seq<seq<string>>)
    ensures |pf| == |fs| && forall k :: 0 <= k < |fs| ==> pf[k] == FileFrames(fs[k], chars)
  {
    seq(|fs|, k requires 0 <= k < |fs| => FileFrames(fs[k], chars))
  }

  /** `main`: a chunk size below 1 KB and a missing directory exit with 1, no
      selected file exits with 0 before any prompt. */
  function Main(chunkKb: int, dirExists: bool, listed: seq<SourceFile>, exts: seq<string>,
                keys: seq<string>, rule: QuitRule): (r: SendRun)
    ensures chunkKb < 1 || !dirExists ==> r == SendRun(Exit(1), [])
    ensures chunkKb >= 1 && dirExists && Selected(listed, exts) == [] ==> r == SendRun(Exit(0), [])
    ensures r.exit != Exit(2)
  {
    if chunkKb < 1 then SendRun(Exit(1), [])
    else if !dirExists then SendRun(Exit(1), [])
    else
      var files := Selected(listed, exts);
      if files == [] then SendRun(Exit(0), [])
      else SendFrames(PerFile(files, chunkKb * 1024), keys, rule)
  }

  /** All frames, file after file. */
  function AllFrames(perFile: seq<seq<string>>): seq<string>
    decreases |perFile|
  {
    if perFile == [] then [] else perFile[0] + AllFrames(perFile[1..])
  }

  /** The key presses a run without `q` needs: one per frame and one between
      files. */
  function KeysNeeded(perFile: seq<seq<string>>): nat
    decreases |perFile|
  {
    if perFile == [] then 0
    else if |perFile| == 1 then |perFile[0]|
    else |perFile[0]| + 1 + KeysNeeded(perFile[1..])
  }

  /** With enough presses and none of them `q`, every frame of every file is
      copied in order and the run exits with 0, under either quit rule. */
  lemma {:induction false} SendsEverything(perFile: seq<seq<string>>, keys: seq<string>, rule: QuitRule)
    requires |keys| >= KeysNeeded(perFile)
    requires forall k :: 0 <= k < |keys| ==> !Control.IsQuit(keys[k])
    ensures SendFrames(perFile, keys, rule) == SendRun(Exit(0), AllFrames(perFile))
    decreases |perFile|
  {
    if perFile != [] {
      var frames := perFile[0];
      GateDone(frames, keys);
      var g := Gate(frames, keys);
      if |perFile| > 1 {
        var rest := g.keys[1..];
        assert rest == keys[|frames| + 1..];
        assert forall k :: 0 <= k < |rest| ==> rest[k] == keys[|frames| + 1 + k];
        SendsEverything(perFile[1..], rest, rule);
      } else {
        assert perFile[1..] == [];
      }
    }
  }

  /** `main` on a directory with files to send and presses that never quit:
      every frame of every selected file, in key order, and exit code 0. */
  lemma MainSendsEverything(chunkKb: int, listed: seq<SourceFile>, exts: seq<string>,
                            keys: seq<string>, rule: QuitRule)
    requires chunkKb >= 1 && Selected(listed, exts) != []
    requires |keys| >= KeysNeeded(PerFile(Selected(listed, exts), chunkKb * 1024))
    requires forall k :: 0 <= k < |keys| ==> !Control.IsQuit(keys[k])
    ensures Main(chunkKb, true, listed, exts, keys, rule)
         == SendRun(Exit(0), AllFrames(PerFile(Selected(listed, exts), chunkKb * 1024)))
  {
    SendsEverything(PerFile(Selected(listed, exts), chunkKb * 1024), keys, rule);
  }

  /** Corrected rule: once a `q` is read nothing more is copied, so the
      presses after the first `q` change nothing. */
  lemma {:induction false} QuitEndsRun(perFile: seq<seq<string>>, keys: seq<string>, i: nat)
    requires i < |keys| && Control.IsQuit(keys[i])
    requires forall k :: 0 <= k < i ==> !Control.IsQuit(keys[k])
    ensures SendFrames(perFile, keys, EndRun) == SendFrames(perFile, keys[..i + 1], EndRun)
    decreases |perFile|
  {
    if perFile != [] {
      var short := keys[..i + 1];
      var frames := perFile[0];
      GateSamePrefix(frames, keys, i);
      var gl, gs := Gate(frames, keys), Gate(frames, short);
      if gl.status == Done {
        assert gl.keys != [] && gs.keys != [] && gl.keys[0] == gs.keys[0] == keys[|frames|];
      }
      if gl.status == Done && |perFile| > 1 && !Control.IsQuit(gl.keys[0]) {
        var used := |frames| + 1;
        assert gl.keys[1..] == keys[used..] && gs.keys[1..] == keys[used..i + 1];
        RestBeforeQuit(keys, i, used);
        QuitEndsRun(perFile[1..], keys[used..], i - used);
      }
      AfterGateSame(perFile, gl, gs);
    }
  }

  /** Under the corrected rule, two gatings that copied the same frames and
      ended the same way lead to the same run, when a finished gating is
      followed by the same next-file answer and the same rest of the run. */
  lemma AfterGateSame(perFile: seq<seq<string>>, gl: Gated, gs: Gated)
    requires perFile != [] && gl.copied == gs.copied && gl.status == gs.status
    requires gl.status == Done && |perFile| > 1 ==>
      gl.keys != [] && gs.keys != [] && gl.keys[0] == gs.keys[0]
      && (!Control.IsQuit(gl.keys[0]) ==>
            SendFrames(perFile[1..], gl.keys[1..], EndRun) == SendFrames(perFile[1..], gs.keys[1..], EndRun))
    ensures AfterGate(perFile, gl, EndRun) == AfterGate(perFile, gs, EndRun)
  {
  }

  /** The presses left after a file keep the first `q` in front of them. */
  lemma RestBeforeQuit(keys: seq<string>, i: nat, used: nat)
    requires used <= i < |keys| && Control.IsQuit(keys[i])
    requires forall k :: 0 <= k < i ==> !Control.IsQuit(keys[k])
    ensures var rest := keys[used..];
      i - used < |rest| && Control.IsQuit(rest[i - used])
      && (forall k :: 0 <= k < i - used ==> !Control.IsQuit(rest[k]))
      && rest[..i - used + 1] == keys[used..i + 1]
  {
    var rest := keys[used..];
    forall k | 0 <= k < i - used ensures !Control.IsQuit(rest[k]) {
      assert rest[k] == keys[used + k];
    }
  }

  /** Gating ends the same way on the presses up to the first `q` as on all
      of them. */
  lemma GateSamePrefix(frames: seq<string>, keys: seq<string>, i: nat)
    requires i < |keys| && Control.IsQuit(keys[i])
    requires forall k :: 0 <= k < i ==> !Control.IsQuit(keys[k])
    ensures var gl, gs := Gate(frames, keys), Gate(frames, keys[..i + 1]);
      gl.copied == gs.copied && gl.status == gs.status
      && (gl.status == Done ==> |frames| <= i && gl.keys == keys[|frames|..] && gs.keys == keys[|frames|..i + 1])
  {
    var short := keys[..i + 1];
    GateDone(frames, keys);
    GateDone(frames, short);
    if i < |frames| {
      GateQuit(frames, keys, i);
      GateQuit(frames, short, i);
    } else {
      assert forall k :: 0 <= k < |frames| ==> short[k] == keys[k];
    }
  }

  lemma QuitKey()
    ensures Control.IsQuit("q")
  {
    Text.StripKeeps("q");
  }

  lemma EnterKey()
    ensures !Control.IsQuit("")
  {
    assert Text.Strip("") == "";
  }

  /** As written, a `q` inside a file does not end the run: with two files,
      pressing `q` at the first START prompt and then Enter twice still
      copies the second file's START frame, so the presses after the first
      `q` do change the copies. */
  lemma QuitContinuesAsWritten(a: seq<string>, b: seq<string>)
    requires a != [] && b != []
    ensures SendFrames([a, b], ["q", "", ""], AbandonFile).copies == [b[0]]
    ensures SendFrames([a, b], ["q"], AbandonFile).copies == []
  {
    QuitKey();
    EnterKey();
    GateQuit(a, ["q", "", ""], 0);
    GateQuit(a, ["q"], 0);
    assert [a, b][1..] == [b];
    assert ["q", "", ""][1..] == ["", ""] && ["", ""][1..] == [""];
    assert Gate(b[1..], []).copied == [];
    assert Gate(b, [""]).copied == [b[0]];
    assert SendFrames([b], [""], AbandonFile).copies == [b[0]];
  }
}

=== FILE: manual_transfer.dfy ===
/** The manual protocol end to end: the frames the manual sender copies,
    pasted one per key press into the manual receiver, rebuild the files. */
module ManualTransfer {
  import opened Wrappers
  import Base64
  import Text
  import Control
  import ManualSender
  import ManualReceiver
  import Maps

  type byte = Base64.byte
  type Loads = seq<byte> -> Option<Control.Json>

  /** The receiver's steps over clipboard texts, one key press each. */
  function Feed(o: ManualReceiver.Options, loads: Loads, s: ManualReceiver.Paste, clips: seq<string>): ManualReceiver.Next
    decreases |clips|
  {
    if clips == [] then ManualReceiver.Continue(s)
    else
      match ManualReceiver.Step(o, loads, s, Some(clips[0]))
      case Crash => ManualReceiver.Crash
      case Continue(t) => Feed(o, loads, t, clips[1..])
  }

  /** Feeding two runs of texts is feeding the first, then the second. */
  lemma {:induction false} FeedAppend(o: ManualReceiver.Options, loads: Loads, s: ManualReceiver.Paste, a: seq<string>, b: seq<string>)
    ensures Feed(o, loads, s, a + b) ==
      match Feed(o, loads, s, a)
      case Crash => ManualReceiver.Crash
      case Continue(t) => Feed(o, loads, t, b)
    decreases |a|
  {
    if a != [] {
      assert (a + b)[0] == a[0] && (a + b)[1..] == a[1..] + b;
      match ManualReceiver.Step(o, loads, s, Some(a[0]))
      case Crash =>
      case Continue(t) => FeedAppend(o, loads, t, a[1..], b);
    } else {
      assert a + b == b;
    }
  }

  /** No chunk begins with the control marker. */
  predicate Unmarked(cs: seq<seq<byte>>) {
    forall k :: 0 <= k < |cs| ==> !ManualReceiver.IsControl(cs[k])
  }

  /** DATA frames append their chunks, in order, to the open file. */
  lemma {:induction false} FeedData(o: ManualReceiver.Options, loads: Loads, s: ManualReceiver.Paste,
                                    t: ManualReceiver.Target, base: seq<byte>, appended: seq<byte>,
                                    texts: seq<string>, cs: seq<seq<byte>>)
    requires ManualReceiver.SinceStart(s, t, base, appended)
    requires |texts| == |cs| && forall k :: 0 <= k < |cs| ==> ManualReceiver.Spells(texts[k], cs[k])
    requires Unmarked(cs) && forall k :: 0 <= k < |cs| ==> cs[k] != []
    ensures var joined := ManualSender.JoinBytes(cs);
      Feed(o, loads, s, texts)
        == ManualReceiver.Continue(ManualReceiver.Paste(Some(t), |appended + joined|, s.files[t := base + appended + joined]))
    decreases |cs|
  {
    if cs == [] {
      assert texts == [] && ManualSender.JoinBytes(cs) == [];
      assert appended + ManualSender.JoinBytes(cs) == appended;
      assert base + appended + ManualSender.JoinBytes(cs) == base + appended;
      assert s.files[t := base + appended] == s.files;
      assert s == ManualReceiver.Paste(Some(t), |appended|, s.files);
    } else {
      ManualReceiver.SpellsPastes(texts[0], cs[0]);
      ManualReceiver.DataAppends(o, loads, s, texts[0], cs[0], t, base, appended);
      var next := ManualReceiver.Append(s, cs[0]);
      assert Feed(o, loads, s, texts) == Feed(o, loads, next, texts[1..]);
      var ts, rest := texts[1..], cs[1..];
      assert forall k :: 0 <= k < |rest| ==> ts[k] == texts[k + 1] && rest[k] == cs[k + 1];
      FeedData(o, loads, next, t, base, appended + cs[0], ts, rest);
      JoinStep(base, appended, cs);
      Maps.Overwrite(s.files, t, base + appended + cs[0], base + appended + ManualSender.JoinBytes(cs));
    }
  }

  lemma JoinStep(base: seq<byte>, appended: seq<byte>, cs: seq<seq<byte>>)
    requires cs != []
    ensures appended + cs[0] + ManualSender.JoinBytes(cs[1..]) == appended + ManualSender.JoinBytes(cs)
    ensures base + (appended + cs[0]) + ManualSender.JoinBytes(cs[1..]) == base + appended + ManualSender.JoinBytes(cs)
  {
  }

  /** The DATA frames spell their chunks. */
  lemma DataSpells(data: seq<byte>, n: nat)
    requires n > 0
    ensures var cs := ManualSender.Chunks(data, n);
      forall k :: 0 <= k < |cs| ==> ManualReceiver.Spells(ManualSender.DataFrames(data, n)[k], cs[k])
  {
    var cs := ManualSender.Chunks(data, n);
    forall k | 0 <= k < |cs| ensures ManualReceiver.Spells(ManualSender.DataFrames(data, n)[k], cs[k]) {
      ManualReceiver.EncodeSpells(cs[k]);
    }
  }

  /** `json.loads` reads back the two control objects of a file. */
  predicate LoadsFrames(loads: Loads, f: ManualSender.SourceFile) {
    var name := ManualSender.WireName(f);
    var start := Control.StartObject(name, |f.data|, f.mtime);
    loads(Control.DumpsBytes(start)) == Some(start)
    && loads(Control.DumpsBytes(Control.EndObject(name))) == Some(Control.EndObject(name))
  }

  /** A file the receiver can take: its frames load, its name can be opened
      under the output directory, and none of its chunks begins with the
      marker. */
  predicate Deliverable(o: ManualReceiver.Options, loads: Loads, f: ManualSender.SourceFile, chars: int) {
    LoadsFrames(loads, f)
    && (o.out.Some? || (ManualSender.WireName(f) != "" && ManualSender.WireName(f) != "."))
    && Unmarked(ManualSender.Chunks(f.data, ManualSender.RawBytesPerChunk(chars)))
  }

  /** Where the receiver writes a file. */
  function TargetFor(o: ManualReceiver.Options, f: ManualSender.SourceFile): ManualReceiver.Target {
    if o.out.Some? then ManualReceiver.OutFile else ManualReceiver.InDir(ManualSender.WireName(f))
  }

  /** The files after `f` arrived: its target holds its bytes, after what the
      target held when appending. */
  function Put(o: ManualReceiver.Options, files: map<ManualReceiver.Target, seq<byte>>, f: ManualSender.SourceFile): map<ManualReceiver.Target, seq<byte>> {
    var t := TargetFor(o, f);
    files[t := (if o.append then ManualReceiver.Contents(files, t) else []) + f.data]
  }

  /** Three runs of texts, each leading on to the next state. */
  lemma Feed3(o: ManualReceiver.Options, loads: Loads, s: ManualReceiver.Paste, a: seq<string>, b: seq<string>, c: seq<string>,
              s1: ManualReceiver.Paste, s2: ManualReceiver.Paste, s3: ManualReceiver.Paste)
    requires Feed(o, loads, s, a) == ManualReceiver.Continue(s1)
    requires Feed(o, loads, s1, b) == ManualReceiver.Continue(s2)
    requires Feed(o, loads, s2, c) == ManualReceiver.Continue(s3)
    ensures Feed(o, loads, s, a + b + c) == ManualReceiver.Continue(s3)
  {
    FeedAppend(o, loads, s, a, b);
    FeedAppend(o, loads, s, a + b, c);
  }

  /** A single text is a single step. */
  lemma FeedOne(o: ManualReceiver.Options, loads: Loads, s: ManualReceiver.Paste, text: string, next: ManualReceiver.Next)
    requires ManualReceiver.Step(o, loads, s, Some(text)) == next
    ensures Feed(o, loads, s, [text]) == next
  {
    assert [text][1..] == [];
  }

  /** What a file's START frame leaves open. */
  function Started(o: ManualReceiver.Options, s: ManualReceiver.Paste, f: ManualSender.SourceFile): ManualReceiver.Paste {
    ManualReceiver.Open(o, s, TargetFor(o, f))
  }

  /** The START frame opens the file's target. */
  lemma StartArrives(o: ManualReceiver.Options, loads: Loads, s: ManualReceiver.Paste, f: ManualSender.SourceFile, chars: int)
    requires Deliverable(o, loads, f, chars)
    ensures Feed(o, loads, s, [ManualSender.StartFrame(f)]) == ManualReceiver.Continue(Started(o, s, f))
    ensures ManualReceiver.SinceStart(Started(o, s, f), TargetFor(o, f),
                                      if o.append then ManualReceiver.Contents(s.files, TargetFor(o, f)) else [], [])
  {
    ManualReceiver.StartOpens(o, loads, s, ManualSender.WireName(f), |f.data|, f.mtime);
    FeedOne(o, loads, s, ManualSender.StartFrame(f), ManualReceiver.Continue(Started(o, s, f)));
  }

  /** The DATA frames write the whole file after what the target held. */
  lemma DataArrives(o: ManualReceiver.Options, loads: Loads, s: ManualReceiver.Paste, f: ManualSender.SourceFile, chars: int)
    requires Deliverable(o, loads, f, chars)
    ensures var t := TargetFor(o, f);
      Feed(o, loads, Started(o, s, f), ManualSender.DataFrames(f.data, ManualSender.RawBytesPerChunk(chars)))
        == ManualReceiver.Continue(ManualReceiver.Paste(Some(t), |f.data|, Put(o, s.files, f)))
  {
    var n := ManualSender.RawBytesPerChunk(chars);
    var t := TargetFor(o, f);
    var base := if o.append then ManualReceiver.Contents(s.files, t) else [];
    var cs := ManualSender.Chunks(f.data, n);
    StartArrives(o, loads, s, f, chars);
    DataSpells(f.data, n);
    FeedData(o, loads, Started(o, s, f), t, base, [], ManualSender.DataFrames(f.data, n), cs);
    ManualSender.ChunksJoin(f.data, n);
    assert [] + ManualSender.JoinBytes(cs) == f.data;
    Maps.Overwrite(s.files, t, base, base + f.data);
  }

  /** The END frame closes the file. */
  lemma EndArrives(o: ManualReceiver.Options, loads: Loads, s: ManualReceiver.Paste, f: ManualSender.SourceFile, chars: int)
    requires Deliverable(o, loads, f, chars) && s.current.Some?
    ensures Feed(o, loads, s, [ManualSender.EndFrame(f)]) == ManualReceiver.Continue(ManualReceiver.Paste(None, 0, s.files))
  {
    ManualReceiver.EndCloses(o, loads, s, ManualSender.WireName(f));
    FeedOne(o, loads, s, ManualSender.EndFrame(f), ManualReceiver.Continue(ManualReceiver.Paste(None, 0, s.files)));
  }

  /** One file's frames, pasted in order, write the file and leave nothing
      open, whatever was open before. */
  lemma FileArrives(o: ManualReceiver.Options, loads: Loads, s: ManualReceiver.Paste, f: ManualSender.SourceFile, chars: int)
    requires Deliverable(o, loads, f, chars)
    ensures Feed(o, loads, s, ManualSender.FileFrames(f, chars))
         == ManualReceiver.Continue(ManualReceiver.Paste(None, 0, Put(o, s.files, f)))
  {
    var filled := ManualReceiver.Paste(Some(TargetFor(o, f)), |f.data|, Put(o, s.files, f));
    StartArrives(o, loads, s, f, chars);
    DataArrives(o, loads, s, f, chars);
    EndArrives(o, loads, filled, f, chars);
    Feed3(o, loads, s, [ManualSender.StartFrame(f)], ManualSender.DataFrames(f.data, ManualSender.RawBytesPerChunk(chars)),
          [ManualSender.EndFrame(f)], Started(o, s, f), filled, ManualReceiver.Paste(None, 0, Put(o, s.files, f)));
  }

  /** The files after all of `fs` arrived, in order. */
  function Delivered(o: ManualReceiver.Options, files: map<ManualReceiver.Target, seq<byte>>, fs: seq<ManualSender.SourceFile>): map<ManualReceiver.Target, seq<byte>>
    decreases |fs|
  {
    if fs == [] then files else Delivered(o, Put(o, files, fs[0]), fs[1..])
  }

  /** Every frame the sender offers, pasted in order, delivers every file. */
  lemma {:induction false} FilesArrive(o: ManualReceiver.Options, loads: Loads, s: ManualReceiver.Paste,
                                       fs: seq<ManualSender.SourceFile>, chars: int)
    requires forall k :: 0 <= k < |fs| ==> Deliverable(o, loads, fs[k], chars)
    requires s.current.None? && s.written == 0
    ensures Feed(o, loads, s, ManualSender.AllFrames(ManualSender.PerFile(fs, chars)))
         == ManualReceiver.Continue(ManualReceiver.Paste(None, 0, Delivered(o, s.files, fs)))
    decreases |fs|
  {
    var pf := ManualSender.PerFile(fs, chars);
    if fs == [] {
      assert s == ManualReceiver.Paste(None, 0, s.files);
    } else {
      FileArrives(o, loads, s, fs[0], chars);
      var t := ManualReceiver.Paste(None, 0, Put(o, s.files, fs[0]));
      assert pf[1..] == ManualSender.PerFile(fs[1..], chars);
      FilesArrive(o, loads, t, fs[1..], chars);
      FeedAppend(o, loads, s, pf[0], ManualSender.AllFrames(pf[1..]));
    }
  }

  /** Under `--out-dir`, files with distinct names each end up whole under
      their own name, and every other file is left as it was. */
  lemma {:induction false} DirDelivers(o: ManualReceiver.Options, files: map<ManualReceiver.Target, seq<byte>>, fs: seq<ManualSender.SourceFile>)
    requires o.out.None? && !o.append
    requires forall i, j :: 0 <= i < j < |fs| ==> ManualSender.WireName(fs[i]) != ManualSender.WireName(fs[j])
    ensures forall k :: 0 <= k < |fs| ==>
      var t := ManualReceiver.InDir(ManualSender.WireName(fs[k]));
      t in Delivered(o, files, fs) && Delivered(o, files, fs)[t] == fs[k].data
    ensures forall t :: (forall k :: 0 <= k < |fs| ==> t != ManualReceiver.InDir(ManualSender.WireName(fs[k]))) ==>
      (t in Delivered(o, files, fs) <==> t in files) && (t in files ==> Delivered(o, files, fs)[t] == files[t])
    decreases |fs|
  {
    if fs != [] {
      var next := Put(o, files, fs[0]);
      var rest := fs[1..];
      DirDelivers(o, next, rest);
      var result := Delivered(o, files, fs);
      assert result == Delivered(o, next, rest);
      var t0 := ManualReceiver.InDir(ManualSender.WireName(fs[0]));
      forall k | 0 <= k < |fs|
        ensures var t := ManualReceiver.InDir(ManualSender.WireName(fs[k])); t in result && result[t] == fs[k].data
      {
        if k > 0 {
          assert fs[k] == rest[k - 1];
        } else {
          forall j | 0 <= j < |rest| ensures t0 != ManualReceiver.InDir(ManualSender.WireName(rest[j])) {
            assert rest[j] == fs[j + 1];
          }
        }
      }
      forall t | forall k :: 0 <= k < |fs| ==> t != ManualReceiver.InDir(ManualSender.WireName(fs[k]))
        ensures (t in result <==> t in files) && (t in files ==> result[t] == files[t])
      {
        assert t != ManualReceiver.InDir(ManualSender.WireName(fs[0]));
        forall j | 0 <= j < |rest| ensures t != ManualReceiver.InDir(ManualSender.WireName(rest[j])) {
          assert rest[j] == fs[j + 1];
        }
      }
    }
  }

  /** All the files' bytes, one after another. */
  function AllData(fs: seq<ManualSender.SourceFile>): seq<byte>
    decreases |fs|
  {
    if fs == [] then [] else fs[0].data + AllData(fs[1..])
  }

  /** Under `--out` with `--append`, the single output file gains every
      file's bytes in order; without `--append` it keeps only the last. */
  lemma {:induction false} OutDelivers(o: ManualReceiver.Options, files: map<ManualReceiver.Target, seq<byte>>, fs: seq<ManualSender.SourceFile>)
    requires o.out.Some? && fs != []
    ensures ManualReceiver.OutFile in Delivered(o, files, fs)
    ensures o.append ==> Delivered(o, files, fs)[ManualReceiver.OutFile] == ManualReceiver.Contents(files, ManualReceiver.OutFile) + AllData(fs)
    ensures !o.append ==> Delivered(o, files, fs)[ManualReceiver.OutFile] == fs[|fs| - 1].data
    decreases |fs|
  {
    var next := Put(o, files, fs[0]);
    if |fs| == 1 {
      assert fs[1..] == [];
      assert AllData(fs) == fs[0].data + AllData(fs[1..]);
    } else {
      OutDelivers(o, next, fs[1..]);
      assert fs[1..][|fs[1..]| - 1] == fs[|fs| - 1];
      if o.append {
        var c := ManualReceiver.Contents(files, ManualReceiver.OutFile);
        assert ManualReceiver.Contents(next, ManualReceiver.OutFile) == c + fs[0].data;
        assert c + fs[0].data + AllData(fs[1..]) == c + AllData(fs);
      }
    }
  }

  /** The receiver's presses for pasted texts: Enter before each text, then
      `q`. */
  function Presses(clips: seq<string>): (ps: seq<ManualReceiver.Press>)
    ensures |ps| == |clips| + 1
  {
    seq(|clips|, k requires 0 <= k < |clips| => ManualReceiver.Press("", Some(clips[k]))) + [ManualReceiver.Press("q", None)]
  }

  /** A run over pasted texts ends where feeding them ends. */
  lemma {:induction false} RunPresses(o: ManualReceiver.Options, loads: Loads, s: ManualReceiver.Paste, clips: seq<string>)
    ensures ManualReceiver.Run(o, loads, s, Presses(clips)) ==
      match Feed(o, loads, s, clips)
      case Crash => ManualReceiver.Crashed
      case Continue(t) => ManualReceiver.Exit(0, t.files)
    decreases |clips|
  {
    ManualSender.QuitKey();
    ManualSender.EnterKey();
    var ps := Presses(clips);
    if clips != [] {
      assert ps[1..] == Presses(clips[1..]);
      match ManualReceiver.Step(o, loads, s, Some(clips[0]))
      case Crash =>
      case Continue(t) => RunPresses(o, loads, t, clips[1..]);
    }
  }

  /** The whole manual transfer: the sender's `main` with Enter at every
      prompt copies every frame, and the receiver's `main`, pasting each copy
      after a key press and then quitting, exits with 0 holding every
      selected file, unless its one output option is empty. */
  lemma Roundtrip(chunkKb: int, listed: seq<ManualSender.SourceFile>, exts: seq<string>, rule: ManualSender.QuitRule,
                  o: ManualReceiver.Options, loads: Loads, files: map<ManualReceiver.Target, seq<byte>>)
    requires chunkKb >= 1 && ManualReceiver.OptionsOk(o)
    requires var fs := ManualSender.Selected(listed, exts);
      fs != [] && forall k :: 0 <= k < |fs| ==> Deliverable(o, loads, fs[k], chunkKb * 1024)
    ensures var fs := ManualSender.Selected(listed, exts);
      var keys := seq(ManualSender.KeysNeeded(ManualSender.PerFile(fs, chunkKb * 1024)), k => "");
      var sent := ManualSender.Main(chunkKb, true, listed, exts, keys, rule);
      sent.exit == ManualSender.Exit(0)
      && ManualReceiver.Main(o, loads, files, Presses(sent.copies)) ==
           if ManualReceiver.EmptyOption(o) then ManualReceiver.Crashed
           else ManualReceiver.Exit(0, Delivered(o, files, fs))
  {
    var fs := ManualSender.Selected(listed, exts);
    var chars := chunkKb * 1024;
    var keys := seq(ManualSender.KeysNeeded(ManualSender.PerFile(fs, chars)), k => "");
    ManualSender.EnterKey();
    ManualSender.MainSendsEverything(chunkKb, listed, exts, keys, rule);
    FilesArrive(o, loads, ManualReceiver.Initial(files), fs, chars);
    RunPresses(o, loads, ManualReceiver.Initial(files), ManualSender.AllFrames(ManualSender.PerFile(fs, chars)));
  }
}

=== FILE: maps.dfy ===
/** Facts about the maps that stand for the files on disk. */
module Maps {

  /** A second write to the same key replaces the first. */
  lemma Overwrite<K, V>(m: map<K, V>, k: K, a: V, b: V)
    ensures m[k := a][k := b] == m[k := b]
  {
  }
}

=== FILE: text.dfy ===
/** The handful of Python `str` operations the scripts rely on, restated over
    `seq<char>`: whitespace stripping, ASCII case mapping, `str.split` on one
    separator, decimal formatting of integers and `int()` parsing. */
module Text {
  import opened Wrappers

  /** Python's `str.isspace()` for one character (the characters `str.strip()`
      removes when called without arguments). */
  predicate IsSpace(c: char) {
    || ('\t' <= c <= '\r')
    || ('\U{1C}' <= c <= '\U{1F}')
    || c == ' ' || c == '\U{85}' || c == '\U{A0}' || c == '\U{1680}'
    || ('\U{2000}' <= c <= '\U{200A}')
    || c == '\U{2028}' || c == '\U{2029}' || c == '\U{202F}' || c == '\U{205F}'
    || c == '\U{3000}'
  }

  /** Every character of `s` is whitespace (so `s.strip()` is empty). */
  predicate IsBlank(s: string) {
    forall i :: 0 <= i < |s| ==> IsSpace(s[i])
  }

  /** How many whitespace characters `s` starts with. */
  function LeadingSpaces(s: string): (n: nat)
    ensures n <= |s|
    decreases |s|
  {
    if |s| > 0 && IsSpace(s[0]) then 1 + LeadingSpaces(s[1..]) else 0
  }

  /** How many whitespace characters `s` ends with. */
  function TrailingSpaces(s: string): (n: nat)
    ensures n <= |s|
    decreases |s|
  {
    if |s| > 0 && IsSpace(s[|s| - 1]) then 1 + TrailingSpaces(s[..|s| - 1]) else 0
  }

  /** `s.lstrip()`. */
  function StripLeft(s: string): string {
    s[LeadingSpaces(s)..]
  }

  /** `s.rstrip()`. */
  function StripRight(s: string): string {
    s[..|s| - TrailingSpaces(s)]
  }

  /** `s.strip()`. */
  function Strip(s: string): string {
    StripRight(StripLeft(s))
  }

  /** `lstrip` removes only whitespace, and stops at a non-space character. */
  lemma {:induction false} StripLeftRemoves(s: string)
    ensures IsBlank(s[..LeadingSpaces(s)])
    ensures StripLeft(s) == [] || !IsSpace(StripLeft(s)[0])
    decreases |s|
  {
    if |s| > 0 && IsSpace(s[0]) {
      StripLeftRemoves(s[1..]);
      var n := LeadingSpaces(s[1..]);
      assert s[..n + 1] == [s[0]] + s[1..][..n];
      assert s[n + 1..] == s[1..][n..];
    }
  }

  /** `rstrip` removes only whitespace, and stops at a non-space character. */
  lemma {:induction false} StripRightRemoves(s: string)
    ensures IsBlank(s[|s| - TrailingSpaces(s)..])
    ensures StripRight(s) == [] || !IsSpace(StripRight(s)[|StripRight(s)| - 1])
    decreases |s|
  {
    if |s| > 0 && IsSpace(s[|s| - 1]) {
      var p := s[..|s| - 1];
      StripRightRemoves(p);
      var n := TrailingSpaces(p);
      assert s[|s| - (n + 1)..] == p[|p| - n..] + [s[|s| - 1]];
      assert s[..|s| - (n + 1)] == p[..|p| - n];
    }
  }

  /** A string that starts and ends with a non-space character is its own strip. */
  lemma StripKeeps(s: string)
    requires s == [] || (!IsSpace(s[0]) && !IsSpace(s[|s| - 1]))
    ensures Strip(s) == s
  {
    assert LeadingSpaces(s) == 0;
    assert StripLeft(s) == s;
    assert TrailingSpaces(s) == 0;
  }

  /** Stripping twice strips nothing more. */
  lemma StripIdempotent(s: string)
    ensures Strip(Strip(s)) == Strip(s)
  {
    var l := StripLeft(s);
    var r := Strip(s);
    if r != [] {
      StripLeftRemoves(s);
      StripRightRemoves(l);
      assert r[0] == l[0];
    }
    StripKeeps(r);
  }

  /** The strip of a string is empty exactly when the string is blank. */
  lemma StripEmptyIffBlank(s: string)
    ensures Strip(s) == [] <==> IsBlank(s)
  {
    var l := StripLeft(s);
    BlankStripLeft(s);
    if l != [] {
      StripLeftRemoves(s);
      TrailingStops(l);
    }
  }

  /** `rstrip` stops at a non-space first character. */
  lemma {:induction false} TrailingStops(s: string)
    requires |s| > 0 && !IsSpace(s[0])
    ensures TrailingSpaces(s) < |s|
    decreases |s|
  {
    if |s| > 1 && IsSpace(s[|s| - 1]) {
      TrailingStops(s[..|s| - 1]);
    }
  }

  /** `s.lstrip()` is empty exactly when `s` is blank. */
  lemma {:induction false} BlankStripLeft(s: string)
    ensures IsBlank(s) <==> StripLeft(s) == []
    decreases |s|
  {
    if |s| > 0 && IsSpace(s[0]) {
      BlankStripLeft(s[1..]);
      assert forall i :: 0 < i < |s| ==> s[i] == s[1..][i - 1];
      assert s[1..][LeadingSpaces(s[1..])..] == s[LeadingSpaces(s)..];
    }
  }

  function LowerChar(c: char): char {
    if 'A' <= c <= 'Z' then (c as int - 'A' as int + 'a' as int) as char else c
  }

  function UpperChar(c: char): char {
    if 'a' <= c <= 'z' then (c as int - 'a' as int + 'A' as int) as char else c
  }

  /** `s.lower()`, on the ASCII letters. */
  function Lower(s: string): (r: string)
    ensures |r| == |s|
  {
    seq(|s|, i requires 0 <= i < |s| => LowerChar(s[i]))
  }

  /** `s.upper()`, on the ASCII letters. */
  function Upper(s: string): (r: string)
    ensures |r| == |s|
  {
    seq(|s|, i requires 0 <= i < |s| => UpperChar(s[i]))
  }

  predicate IsDigit(c: char) {
    '0' <= c <= '9'
  }

  predicate StartsWith(s: string, prefix: string) {
    |prefix| <= |s| && s[..|prefix|] == prefix
  }

  /** Index of the first `c` in `s`, or `|s|` when there is none. */
  function IndexOf(s: string, c: char): (i: nat)
    ensures i <= |s|
    ensures i < |s| ==> s[i] == c
    ensures forall j :: 0 <= j < i ==> s[j] != c
  {
    if |s| == 0 then 0
    else if s[0] == c then 0
    else 1 + IndexOf(s[1..], c)
  }

  /** Joins non-empty `parts` with the one-character separator `sep`. */
  function JoinWith(parts: seq<string>, sep: char): string
    requires |parts| >= 1
  {
    if |parts| == 1 then parts[0] else parts[0] + [sep] + JoinWith(parts[1..], sep)
  }

  /** Python's `s.split(sep)` for a one-character separator: the pieces between
      separators, always at least one. */
  function SplitOn(s: string, sep: char): (parts: seq<string>)
    ensures |parts| >= 1
    ensures forall k :: 0 <= k < |parts| ==> sep !in parts[k]
    decreases |s|
  {
    var i := IndexOf(s, sep);
    if i == |s| then [s] else [s[..i]] + SplitOn(s[i + 1..], sep)
  }

  /** Joining the pieces of a split with the separator gives the text back. */
  lemma {:induction false} JoinSplit(s: string, sep: char)
    ensures JoinWith(SplitOn(s, sep), sep) == s
    decreases |s|
  {
    var i := IndexOf(s, sep);
    if i < |s| {
      var a, b := s[..i], s[i + 1..];
      JoinSplit(b, sep);
      assert sep !in a;
      assert s == a + [sep] + b;
      SplitAt(a, sep, b);
      JoinCons(a, SplitOn(b, sep), sep);
    }
  }

  lemma JoinCons(p: string, rest: seq<string>, sep: char)
    requires |rest| >= 1
    ensures JoinWith([p] + rest, sep) == p + [sep] + JoinWith(rest, sep)
  {
    assert ([p] + rest)[1..] == rest;
  }


  /** Splitting at the first separator: the text before it is the first piece. */
  lemma SplitAt(pre: string, sep: char, post: string)
    requires sep !in pre
    ensures SplitOn(pre + [sep] + post, sep) == [pre] + SplitOn(post, sep)
  {
    var s := pre + [sep] + post;
    assert s[|pre|] == sep;
    forall j | 0 <= j < |pre|
      ensures s[j] != sep
    {
      assert s[j] == pre[j];
    }
    assert IndexOf(s, sep) == |pre|;
    assert s[..|pre|] == pre && s[|pre| + 1..] == post;
  }

  /** Text without the separator splits into itself alone. */
  lemma SplitNone(s: string, sep: char)
    requires sep !in s
    ensures SplitOn(s, sep) == [s]
  {
  }

  /** The digit character for `d < 10`. */
  function DigitChar(d: nat): char
    requires d < 10
  {
    ('0' as int + d) as char
  }

  function DigitValue(c: char): nat
    requires IsDigit(c)
  {
    c as int - '0' as int
  }

  /** Python's `str(n)` for a natural number: decimal digits, no leading zero. */
  function NatToString(n: nat): (s: string)
    ensures |s| >= 1
    ensures forall i :: 0 <= i < |s| ==> IsDigit(s[i])
    decreases n
  {
    if n < 10 then [DigitChar(n)] else NatToString(n / 10) + [DigitChar(n % 10)]
  }

  /** Python's `str(i)` / `f"{i}"` for an integer. */
  function IntToString(i: int): string {
    if i < 0 then "-" + NatToString(-i) else NatToString(i)
  }

  /** The text a Python `int()` accepts after its sign: decimal digits with
      single underscores allowed between two digits. */
  predicate DigitsLiteral(s: string) {
    && |s| >= 1
    && IsDigit(s[0])
    && IsDigit(s[|s| - 1])
    && (forall i :: 0 <= i < |s| ==> IsDigit(s[i]) || s[i] == '_')
    && (forall i :: 0 <= i < |s| - 1 && s[i] == '_' ==> IsDigit(s[i + 1]))
  }

  /** The value of a digits literal, underscores ignored. */
  function DigitsValue(s: string): nat
    requires forall i :: 0 <= i < |s| ==> IsDigit(s[i]) || s[i] == '_'
  {
    if |s| == 0 then 0
    else if s[|s| - 1] == '_' then DigitsValue(s[..|s| - 1])
    else DigitsValue(s[..|s| - 1]) * 10 + DigitValue(s[|s| - 1])
  }

  /** `sys.int_info.default_max_str_digits`, the limit Python 3.11 and later
      put on decimal conversion: `int()` of a text with more digits, and
      `str()` of a number with more, raise `ValueError`. */
  const MaxStrDigits: nat := 4300

  /** The digits of a digits literal: underscores do not count. */
  function DigitCount(s: string): (n: nat)
    ensures n <= |s|
  {
    if |s| == 0 then 0 else DigitCount(s[..|s| - 1]) + (if s[|s| - 1] == '_' then 0 else 1)
  }

  /** Python's `int(s)` on an already stripped string: an optional sign followed
      by a digits literal of at most `MaxStrDigits` digits; anything else
      raises `ValueError` (here `None`). */
  function ParseInt(s: string): Option<int> {
    if |s| >= 1 && (s[0] == '+' || s[0] == '-') then
      var body := s[1..];
      if DigitsLiteral(body) && DigitCount(body) <= MaxStrDigits then
        Some(if s[0] == '-' then -(DigitsValue(body) as int) else DigitsValue(body) as int)
      else None
    else if DigitsLiteral(s) && DigitCount(s) <= MaxStrDigits then Some(DigitsValue(s) as int)
    else None
  }

  /** A number `str()` writes without raising: at most `MaxStrDigits` digits. */
  predicate Formattable(i: int) {
    |NatToString(if i < 0 then -i else i)| <= MaxStrDigits
  }

  /** Digits only: every character counts. */
  lemma {:induction false} DigitCountAll(s: string)
    requires forall k :: 0 <= k < |s| ==> IsDigit(s[k])
    ensures DigitCount(s) == |s|
    decreases |s|
  {
    if |s| > 0 {
      DigitCountAll(s[..|s| - 1]);
    }
  }

  /** A smaller number has no more digits. */
  lemma {:induction false} NatToStringMonotone(a: nat, b: nat)
    requires a <= b
    ensures |NatToString(a)| <= |NatToString(b)|
    decreases b
  {
    if a >= 10 {
      NatToStringMonotone(a / 10, b / 10);
    }
  }

  /** Below a number `str()` can write, every natural number can be written. */
  lemma FormattableBelow(a: int, b: int)
    requires 0 <= a <= b && Formattable(b)
    ensures Formattable(a)
  {
    NatToStringMonotone(a, b);
  }

  /** A text of more than `MaxStrDigits` digits is refused, whatever its
      value. */
  lemma TooManyDigits(s: string)
    requires forall k :: 0 <= k < |s| ==> IsDigit(s[k])
    requires |s| > MaxStrDigits
    ensures ParseInt(s) == None
  {
    DigitCountAll(s);
  }

  lemma {:induction false} NatToStringValue(n: nat)
    ensures DigitsValue(NatToString(n)) == n
    decreases n
  {
    var s := NatToString(n);
    if n >= 10 {
      NatToStringValue(n / 10);
      assert s[..|s| - 1] == NatToString(n / 10);
    }
  }

  /** The digits `str()` writes for a natural number: a digits literal
      without a sign, each character a digit worth counting. */
  lemma NatDigitsRead(n: nat)
    ensures var s := NatToString(n);
      DigitsLiteral(s) && DigitCount(s) == |s| && DigitsValue(s) == n && s[0] != '+' && s[0] != '-'
  {
    NatToStringValue(n);
    DigitCountAll(NatToString(n));
  }

  /** `int()` of a text with a leading minus. */
  lemma ParseNegative(t: string)
    requires |t| >= 1 && t[0] == '-' && DigitsLiteral(t[1..])
    ensures ParseInt(t) == if DigitCount(t[1..]) <= MaxStrDigits then Some(-(DigitsValue(t[1..]) as int)) else None
  { }

  /** `int()` of a text without a sign. */
  lemma ParseUnsigned(t: string)
    requires DigitsLiteral(t) && t[0] != '+' && t[0] != '-'
    ensures ParseInt(t) == if DigitCount(t) <= MaxStrDigits then Some(DigitsValue(t) as int) else None
  { }

  /** `int(str(n)) == n` for every number of at most `MaxStrDigits` digits;
      for a longer one `int()` refuses the digits. */
  lemma IntRoundTrip(i: int)
    ensures Formattable(i) ==> ParseInt(IntToString(i)) == Some(i)
    ensures !Formattable(i) ==> ParseInt(IntToString(i)) == None
  {
    if i < 0 {
      var s := NatToString(-i);
      NatDigitsRead(-i);
      var t := "-" + s;
      assert t[1..] == s;
      ParseNegative(t);
      assert IntToString(i) == t && (Formattable(i) <==> |s| <= MaxStrDigits);
    } else {
      NatDigitsRead(i);
      ParseUnsigned(NatToString(i));
    }
  }

  /** Formatted integers hold only digits and an optional leading minus. */
  lemma IntToStringChars(i: int)
    ensures |IntToString(i)| >= 1
    ensures forall k :: 0 <= k < |IntToString(i)| ==> IsDigit(IntToString(i)[k]) || (k == 0 && IntToString(i)[k] == '-')
  {
  }

  /** Python's string order `a < b`: code-point lexicographic order. */
  predicate LexLess(a: string, b: string)
    decreases |a|
  {
    if |a| == 0 then |b| > 0
    else if |b| == 0 then false
    else if a[0] != b[0] then a[0] < b[0]
    else LexLess(a[1..], b[1..])
  }

  lemma {:induction false} LexLessIrreflexive(a: string)
    ensures !LexLess(a, a)
    decreases |a|
  {
    if |a| > 0 {
      LexLessIrreflexive(a[1..]);
    }
  }

  lemma {:induction false} LexLessTrichotomy(a: string, b: string)
    ensures LexLess(a, b) || a == b || LexLess(b, a)
    decreases |a|
  {
    if |a| > 0 && |b| > 0 && a[0] == b[0] {
      LexLessTrichotomy(a[1..], b[1..]);
      if a[1..] == b[1..] {
        assert a == [a[0]] + a[1..] && b == [b[0]] + b[1..];
      }
    }
  }

  lemma {:induction false} LexLessTransitive(a: string, b: string, c: string)
    requires LexLess(a, b) && LexLess(b, c)
    ensures LexLess(a, c)
    decreases |a|
  {
    if |a| > 0 && a[0] == b[0] && b[0] == c[0] {
      LexLessTransitive(a[1..], b[1..], c[1..]);
    }
  }

  lemma {:induction false} LexLessAsymmetric(a: string, b: string)
    requires LexLess(a, b)
    ensures !LexLess(b, a)
    decreases |a|
  {
    if |a| > 0 && a[0] == b[0] {
      LexLessAsymmetric(a[1..], b[1..]);
    }
  }

  /** The pieces written one after another (Python's `"".join(parts)`). */
  function Concat(parts: seq<string>): string {
    if |parts| == 0 then [] else Concat(parts[..|parts| - 1]) + parts[|parts| - 1]
  }

  lemma {:induction false} ConcatAppend(a: seq<string>, b: seq<string>)
    ensures Concat(a + b) == Concat(a) + Concat(b)
    decreases |b|
  {
    if |b| == 0 {
      assert a + b == a;
    } else {
      var b', x := b[..|b| - 1], b[|b| - 1];
      assert b == b' + [x];
      assert a + b == (a + b') + [x];
      ConcatAppend(a, b');
      var ca, cb := Concat(a), Concat(b');
      assert ca + cb + x == ca + (cb + x);
    }
  }

  lemma ConcatCons(p: string, rest: seq<string>)
    ensures Concat([p] + rest) == p + Concat(rest)
  {
    ConcatAppend([p], rest);
    assert [p][..0] == [];
  }
}

=== FILE: transfer.dfy ===
/** A whole "B64CLIP1" transfer: the frames a sender copies for a file, read
    by the receiver one poll each, rebuild the file under its sanitised
    name. */
module Transfer {
  import opened Wrappers
  import opened Base64
  import Text
  import Crc32
  import ClipHeader
  import Chunker
  import ClipSender
  import ClipReceiver
  import Arith
  import Maps

  /** A file name the header carries through unchanged: no line break (the
      receiver splits the frame at the first one) and no surrounding
      whitespace (the receiver strips keys and values). */
  predicate PlainName(name: string) {
    '\n' !in name && (name == [] || (!Text.IsSpace(name[0]) && !Text.IsSpace(name[|name| - 1])))
  }

  /** Every number the headers of a file carry is one `str()` writes and
      `int()` reads back, and the announced size is one `human` converts to
      a float: the estimate (which bounds every sequence number), the
      payload lengths (at most `size + 3`) and the file size. Past these the
      sender's `str()` or the receiver's `float()` raises. */
  predicate Announced(data: seq<byte>, size: nat) {
    && size > 0
    && Text.Formattable(Chunker.EstimatedChunks(|data|, size))
    && Text.Formattable(size + 3)
    && Text.Formattable(|data|)
    && ClipReceiver.FloatSized(|data|)
  }

  /** The numbers of frame `i`'s header are formattable. */
  lemma AnnouncedFrame(data: seq<byte>, size: nat, i: nat)
    requires Announced(data, size) && i < |Chunker.Payloads(data, size)|
    ensures Text.Formattable(i + 1) && Text.Formattable(|Chunker.Payloads(data, size)[i]|)
  {
    Chunker.PayloadsSpellEncoding(data, size);
    Chunker.EstimateBoundsCount(|data|, size);
    Text.FormattableBelow(i + 1, Chunker.EstimatedChunks(|data|, size));
    Chunker.PayloadSizes(data, size);
    Text.FormattableBelow(|Chunker.Payloads(data, size)[i]|, size + 3);
  }

  /** A receiver state in which the first frame of a file named `n` starts
      that file afresh: no file is open, or another file is open with nothing
      left in its buffer, so that closing it writes nothing more. */
  predicate Ready(s: ClipReceiver.Session, n: string) {
    s.current.None? || (s.current.value.name != n && s.current.value.buf == [])
  }

  /** The receiver's split at the first line break cuts `header + "\n" +
      payload` back into its two parts when the header has no line break. */
  lemma SplitFrame(header: string, payload: string)
    requires '\n' !in header
    ensures var f := header + "\n" + payload; var k := Text.IndexOf(f, '\n');
      k == |header| && f[..k] == header && f[k + 1..] == payload
  {
    var f := header + "\n" + payload;
    assert f[|header|] == '\n';
    assert forall j :: 0 <= j < |header| ==> f[j] == header[j];
  }

  /** What the receiver reads off a frame: the header line before the first
      line break parses to the frame's fields with the name sanitised, and
      the rest strips to the payload. */
  lemma FrameTextView(seqNo: int, total: int, p: string, fileSize: int, name: string)
    requires AllBase64(p) && Crc32.IsAscii(p) && PlainName(name)
    requires Text.Formattable(seqNo) && Text.Formattable(total) && Text.Formattable(|p|) && Text.Formattable(fileSize)
    ensures var f := ClipSender.FrameText(seqNo, total, p, fileSize, name);
      var k := Text.IndexOf(f, '\n');
      && k < |f| && Text.Strip(f[k + 1..]) == p
      && ClipHeader.ParseHeaderLine(f[..k])
         == Some(ClipHeader.Header(seqNo, total, |p|, Crc32.CrcHex(p), Some(fileSize), Some(ClipHeader.SafeName(name))))
  {
    Base64Plain(p);
    var crc := Crc32.CrcHex(p);
    Crc32.Hex8Plain(Crc32.Crc32(Crc32.AsciiBytes(p)));
    var header := ClipHeader.MakeHeader(seqNo, total, |p|, crc, fileSize, name);
    ClipHeader.HeaderNoNewline(seqNo, total, |p|, crc, fileSize, name);
    SplitFrame(header, p);
    ClipHeader.ParseMakeHeader(seqNo, total, |p|, crc, fileSize, name);
  }

  /** Every payload is non-empty Base64 text, hence ASCII. */
  lemma PayloadAt(data: seq<byte>, size: nat, i: nat)
    requires size > 0 && i < |Chunker.Payloads(data, size)|
    ensures var p := Chunker.Payloads(data, size)[i];
      AllBase64(p) && Crc32.IsAscii(p) && p != []
  {
    var p := Chunker.Payloads(data, size)[i];
    assert AllBase64(p) && Crc32.IsAscii(p) by {
      ClipSender.PayloadsAscii(data, size);
      Chunker.PayloadsAreBase64(data, size);
    }
    assert p != [] by {
      Chunker.PayloadSizes(data, size);
    }
  }

  lemma FramesOfAt(ps: seq<string>, total: int, fileSize: int, name: string, i: nat)
    requires forall k :: 0 <= k < |ps| ==> Crc32.IsAscii(ps[k])
    requires i < |ps|
    ensures ClipSender.FramesOf(ps, total, fileSize, name)[i] == ClipSender.FrameText(i + 1, total, ps[i], fileSize, name)
  {
  }

  /** Frame `i` of a file is the frame text of payload `i`, numbered `i + 1`
      and announcing the estimate. */
  lemma FrameAt(data: seq<byte>, size: nat, name: string, i: nat)
    requires size > 0 && i < |Chunker.Payloads(data, size)|
    ensures var p := Chunker.Payloads(data, size)[i];
      && AllBase64(p) && Crc32.IsAscii(p) && p != []
      && ClipSender.FileFrames(data, size, name)[i]
         == ClipSender.FrameText(i + 1, Chunker.EstimatedChunks(|data|, size), p, |data|, name)
  {
    var ps := Chunker.Payloads(data, size);
    PayloadAt(data, size, i);
    ClipSender.PayloadsAscii(data, size);
    FramesOfAt(ps, Chunker.EstimatedChunks(|data|, size), |data|, name, i);
  }

  /** What the receiver reads off clipboard text `f`: the header `h` on the
      line before the first line break, and the rest, stripped, as the
      non-blank payload `p`. */
  predicate Reads(f: string, h: ClipHeader.Header, p: string) {
    var k := Text.IndexOf(f, '\n');
    k < |f| && Text.Strip(f[k + 1..]) == p && p != [] && ClipHeader.ParseHeaderLine(f[..k]) == Some(h)
  }

  /** The header of frame `i` of a file as the receiver parses it: sequence
      number `i + 1`, the estimate, the payload's length and checksum, the
      file size and the sanitised name. */
  function FrameHeader(data: seq<byte>, size: nat, name: string, i: nat): (h: ClipHeader.Header)
    requires size > 0 && i < |Chunker.Payloads(data, size)|
    ensures h.seqNo == i + 1 && h.name == Some(ClipHeader.SafeName(name)) && h.fsize == Some(|data|)
  {
    var p := Chunker.Payloads(data, size)[i];
    PayloadAt(data, size, i);
    ClipHeader.Header(i + 1, Chunker.EstimatedChunks(|data|, size), |p|, Crc32.CrcHex(p), Some(|data|), Some(ClipHeader.SafeName(name)))
  }

  /** What the receiver reads off frame `i` of a file: its header and its
      payload. */
  lemma FrameView(data: seq<byte>, size: nat, name: string, i: nat)
    requires size > 0 && PlainName(name) && Announced(data, size)
    requires i < |Chunker.Payloads(data, size)|
    ensures Reads(ClipSender.FileFrames(data, size, name)[i], FrameHeader(data, size, name, i), Chunker.Payloads(data, size)[i])
  {
    var p := Chunker.Payloads(data, size)[i];
    FrameAt(data, size, name, i);
    AnnouncedFrame(data, size, i);
    FrameTextView(i + 1, Chunker.EstimatedChunks(|data|, size), p, |data|, name);
  }

  /** Two frames of a file are the same text only when they are the same
      frame: their sequence numbers differ. */
  lemma FramesDiffer(data: seq<byte>, size: nat, name: string, i: nat, j: nat)
    requires size > 0 && PlainName(name) && Announced(data, size)
    requires i < j < |Chunker.Payloads(data, size)|
    ensures ClipSender.FileFrames(data, size, name)[i] != ClipSender.FileFrames(data, size, name)[j]
  {
    FrameView(data, size, name, i);
    FrameView(data, size, name, j);
  }

  /** The Base64 text of the first `j` payloads. */
  function Received(data: seq<byte>, size: nat, j: nat): string
    requires size > 0 && j <= |Chunker.Payloads(data, size)|
  {
    Text.Concat(Chunker.Payloads(data, size)[..j])
  }

  /** The whole groups of a prefix of an encoding decode. */
  lemma PrefixDecodes(t: string, a: string)
    requires Decode(t).Some? && |a| <= |t| && a == t[..|a|]
    ensures Decode(a[..ClipReceiver.Cut(|a|)]).Some?
  {
    var c := ClipReceiver.Cut(|a|);
    assert t == t[..c] + t[c..];
    DecodeSplit(t[..c], t[c..]);
    assert a[..c] == t[..c];
  }

  /** The first `j` payloads spell the start of the encoding of the file. */
  lemma ReceivedStarts(data: seq<byte>, size: nat, j: nat)
    requires size > 0 && j <= |Chunker.Payloads(data, size)|
    ensures var a := Received(data, size, j);
      && |a| <= |Encode(data)| && a == Encode(data)[..|a|]
      && (j == |Chunker.Payloads(data, size)| ==> a == Encode(data))
  {
    var ps := Chunker.Payloads(data, size);
    var a := Received(data, size, j);
    Chunker.PayloadsSpellEncoding(data, size);
    assert ps == ps[..j] + ps[j..];
    Text.ConcatAppend(ps[..j], ps[j..]);
    if j == |ps| {
      assert ps[..j] == ps;
    }
  }

  /** The text of the first `j` payloads starts the encoding of the file, so
      its whole groups decode; all of them together are the encoding. */
  lemma ReceivedPrefix(data: seq<byte>, size: nat, j: nat)
    requires size > 0 && j <= |Chunker.Payloads(data, size)|
    ensures var a := Received(data, size, j);
      && |a| <= |Encode(data)| && a == Encode(data)[..|a|]
      && Decode(a[..ClipReceiver.Cut(|a|)]).Some?
      && (j == |Chunker.Payloads(data, size)| ==> a == Encode(data))
  {
    ReceivedStarts(data, size, j);
    DecodeEncode(data);
    PrefixDecodes(Encode(data), Received(data, size, j));
  }

  /** One more payload extends the received text by it. */
  lemma ReceivedNext(data: seq<byte>, size: nat, j: nat)
    requires size > 0 && j < |Chunker.Payloads(data, size)|
    ensures Received(data, size, j + 1) == Received(data, size, j) + Chunker.Payloads(data, size)[j]
  {
    var ps := Chunker.Payloads(data, size);
    assert ps[..j + 1][..j] == ps[..j];
  }

  /** The open file after `j` frames: the next sequence number and the
      characters past the last whole group. */
  function OpenFile(data: seq<byte>, size: nat, name: string, j: nat): ClipReceiver.Receiving
    requires size > 0 && j <= |Chunker.Payloads(data, size)|
  {
    var a := Received(data, size, j);
    ClipReceiver.Receiving(ClipHeader.SafeName(name), |data|, Chunker.EstimatedChunks(|data|, size), j + 1,
                           a[ClipReceiver.Cut(|a|)..])
  }

  /** The directory after `j` frames: the file holds the decoding of the
      whole groups received. */
  function FilesAfter(files: map<string, seq<byte>>, data: seq<byte>, size: nat, name: string, j: nat): map<string, seq<byte>>
    requires size > 0 && j <= |Chunker.Payloads(data, size)|
  {
    var a := Received(data, size, j);
    ReceivedPrefix(data, size, j);
    files[ClipHeader.SafeName(name) := Decode(a[..ClipReceiver.Cut(|a|)]).value]
  }

  /** The receiver's state after the first `j` frames of a file, starting
      with no file open: still receiving, or, after the last frame when the
      estimate equals the number of payloads, closed with the whole file
      written. */
  function After(files: map<string, seq<byte>>, data: seq<byte>, size: nat, name: string, j: nat): ClipReceiver.Session
    requires size > 0 && 1 <= j <= |Chunker.Payloads(data, size)|
  {
    var count := |Chunker.Payloads(data, size)|;
    var lastClip := Some(ClipSender.FileFrames(data, size, name)[j - 1]);
    if j == count && count == Chunker.EstimatedChunks(|data|, size) then
      ClipReceiver.Session(None, lastClip, files[ClipHeader.SafeName(name) := data])
    else
      ClipReceiver.Session(Some(OpenFile(data, size, name, j)), lastClip, FilesAfter(files, data, size, name, j))
  }

  /** The received text after `j` frames is held by the open file. */
  lemma OpenFileHolds(files: map<string, seq<byte>>, data: seq<byte>, size: nat, name: string, j: nat)
    requires size > 0 && j <= |Chunker.Payloads(data, size)|
    ensures ClipReceiver.Holds(FilesAfter(files, data, size, name, j), OpenFile(data, size, name, j), Received(data, size, j))
  {
    ReceivedPrefix(data, size, j);
  }

  /** A payload absorbed by a file that has received the text `a`, while the
      file is not finished. */
  lemma AbsorbStep(lastClip: Option<string>, files: map<string, seq<byte>>, n: string, fsize: int, total: int, j: nat, a: string, p: string)
    requires Decode(a[..ClipReceiver.Cut(|a|)]).Some?
    requires Decode((a + p)[..ClipReceiver.Cut(|a + p|)]).Some?
    requires total == 0 || j + 1 < total
    ensures var b := a + p;
      ClipReceiver.Absorb(lastClip, files[n := Decode(a[..ClipReceiver.Cut(|a|)]).value],
                          ClipReceiver.Receiving(n, fsize, total, j + 1, a[ClipReceiver.Cut(|a|)..]), j + 1, p)
      == ClipReceiver.Continue(ClipReceiver.Session(Some(ClipReceiver.Receiving(n, fsize, total, j + 2, b[ClipReceiver.Cut(|b|)..])),
                                                    lastClip, files[n := Decode(b[..ClipReceiver.Cut(|b|)]).value]))
  {
    var b := a + p;
    var files' := files[n := Decode(a[..ClipReceiver.Cut(|a|)]).value];
    var r := ClipReceiver.Receiving(n, fsize, total, j + 1, a[ClipReceiver.Cut(|a|)..]);
    assert ClipReceiver.Holds(files', r, a);
    ClipReceiver.AbsorbExtends(lastClip, files', r, j + 1, p, a);
    Maps.Overwrite(files, n, Decode(a[..ClipReceiver.Cut(|a|)]).value, Decode(b[..ClipReceiver.Cut(|b|)]).value);
  }

  /** The last payload absorbed by a file that has received the text `a`,
      when the sequence number reaches the announced total and the text is
      a whole encoding of `data`. */
  lemma AbsorbFinal(lastClip: Option<string>, files: map<string, seq<byte>>, n: string, fsize: int, total: int, j: nat, a: string, p: string, data: seq<byte>)
    requires Decode(a[..ClipReceiver.Cut(|a|)]).Some?
    requires |a + p| % 4 == 0 && Decode(a + p) == Some(data)
    requires total != 0 && j + 1 >= total
    ensures ClipReceiver.Absorb(lastClip, files[n := Decode(a[..ClipReceiver.Cut(|a|)]).value],
                                ClipReceiver.Receiving(n, fsize, total, j + 1, a[ClipReceiver.Cut(|a|)..]), j + 1, p)
      == ClipReceiver.Continue(ClipReceiver.Session(None, lastClip, files[n := data]))
  {
    var files' := files[n := Decode(a[..ClipReceiver.Cut(|a|)]).value];
    var r := ClipReceiver.Receiving(n, fsize, total, j + 1, a[ClipReceiver.Cut(|a|)..]);
    assert ClipReceiver.Holds(files', r, a);
    ClipReceiver.AbsorbCompletes(lastClip, files', r, j + 1, p, a);
    Maps.Overwrite(files, n, Decode(a[..ClipReceiver.Cut(|a|)]).value, data);
  }

  /** The state after `j` frames while the file is still open, spelled out. */
  lemma AfterOpen(files: map<string, seq<byte>>, data: seq<byte>, size: nat, name: string, j: nat)
    requires size > 0 && 1 <= j <= |Chunker.Payloads(data, size)|
    requires j < |Chunker.Payloads(data, size)| || j < Chunker.EstimatedChunks(|data|, size)
    ensures var a := Received(data, size, j);
      && Decode(a[..ClipReceiver.Cut(|a|)]).Some?
      && After(files, data, size, name, j)
         == ClipReceiver.Session(Some(ClipReceiver.Receiving(ClipHeader.SafeName(name), |data|, Chunker.EstimatedChunks(|data|, size), j + 1, a[ClipReceiver.Cut(|a|)..])),
                                 Some(ClipSender.FileFrames(data, size, name)[j - 1]),
                                 files[ClipHeader.SafeName(name) := Decode(a[..ClipReceiver.Cut(|a|)]).value])
  {
    ReceivedPrefix(data, size, j);
  }

  /** The number of payloads never exceeds the estimate. */
  lemma CountBelowEstimate(data: seq<byte>, size: nat)
    requires size > 0
    ensures |Chunker.Payloads(data, size)| <= Chunker.EstimatedChunks(|data|, size)
    ensures |data| > 0 && size % 4 == 0 ==> |Chunker.Payloads(data, size)| == Chunker.EstimatedChunks(|data|, size)
  {
    Chunker.PayloadsSpellEncoding(data, size);
    Chunker.EstimateBoundsCount(|data|, size);
  }

  /** Payload `j` absorbed by the open file after `j` frames moves the
      receiver to its state after `j + 1` frames, while the file is not
      finished. */
  lemma AbsorbNext(files: map<string, seq<byte>>, data: seq<byte>, size: nat, name: string, j: nat, lastClip: Option<string>)
    requires size > 0 && j + 1 < |Chunker.Payloads(data, size)|
    requires lastClip == Some(ClipSender.FileFrames(data, size, name)[j])
    ensures ClipReceiver.Absorb(lastClip, FilesAfter(files, data, size, name, j), OpenFile(data, size, name, j),
                                j + 1, Chunker.Payloads(data, size)[j])
         == ClipReceiver.Continue(After(files, data, size, name, j + 1))
  {
    var a := Received(data, size, j);
    var p := Chunker.Payloads(data, size)[j];
    CountBelowEstimate(data, size);
    ReceivedPrefix(data, size, j);
    ReceivedNext(data, size, j);
    AfterOpen(files, data, size, name, j + 1);
    AbsorbStep(lastClip, files, ClipHeader.SafeName(name), |data|, Chunker.EstimatedChunks(|data|, size), j, a, p);
  }

  /** The last payload absorbed by the open file moves the receiver to its
      final state: closed with the whole file when the estimate is exact,
      else still open with all of it written. */
  lemma AbsorbLast(files: map<string, seq<byte>>, data: seq<byte>, size: nat, name: string, j: nat, lastClip: Option<string>)
    requires size > 0 && j + 1 == |Chunker.Payloads(data, size)|
    requires lastClip == Some(ClipSender.FileFrames(data, size, name)[j])
    ensures ClipReceiver.Absorb(lastClip, FilesAfter(files, data, size, name, j), OpenFile(data, size, name, j),
                                j + 1, Chunker.Payloads(data, size)[j])
         == ClipReceiver.Continue(After(files, data, size, name, j + 1))
  {
    var a := Received(data, size, j);
    var p := Chunker.Payloads(data, size)[j];
    var total := Chunker.EstimatedChunks(|data|, size);
    CountBelowEstimate(data, size);
    ReceivedPrefix(data, size, j);
    ReceivedNext(data, size, j);
    ReceivedPrefix(data, size, j + 1);
    if j + 1 == total {
      DecodeEncode(data);
      EncodedLenValue(|data|);
      AbsorbFinal(lastClip, files, ClipHeader.SafeName(name), |data|, total, j, a, p, data);
    } else {
      AfterOpen(files, data, size, name, j + 1);
      AbsorbStep(lastClip, files, ClipHeader.SafeName(name), |data|, total, j, a, p);
    }
  }

  /** The header and payload of frame `j` (counting from zero), checked by
      the open file after `j` frames, move the receiver to its state after
      `j + 1` frames. */
  lemma TakeFrame(files: map<string, seq<byte>>, data: seq<byte>, size: nat, name: string, j: nat)
    requires size > 0 && j < |Chunker.Payloads(data, size)|
    ensures ClipReceiver.Take(Some(ClipSender.FileFrames(data, size, name)[j]), FilesAfter(files, data, size, name, j),
                              OpenFile(data, size, name, j), FrameHeader(data, size, name, j), Chunker.Payloads(data, size)[j])
         == ClipReceiver.Continue(After(files, data, size, name, j + 1))
  {
    var p := Chunker.Payloads(data, size)[j];
    var f := ClipSender.FileFrames(data, size, name)[j];
    var h := FrameHeader(data, size, name, j);
    var files' := FilesAfter(files, data, size, name, j);
    var r := OpenFile(data, size, name, j);
    PayloadAt(data, size, j);
    assert ClipReceiver.Accepts(r, h, p);
    ClipReceiver.TakeAccepted(Some(f), files', r, h, p);
    if j + 1 < |Chunker.Payloads(data, size)| {
      AbsorbNext(files, data, size, name, j, Some(f));
    } else {
      AbsorbLast(files, data, size, name, j, Some(f));
    }
  }

  /** A frame whose header line parses and whose payload is not blank, seen
      for the first time, is handed to the frame logic. */
  lemma PollParsed(s: ClipReceiver.Session, f: string, h: ClipHeader.Header, p: string)
    requires s.lastClip != Some(f) && Reads(f, h, p)
    ensures ClipReceiver.Poll(s, f) == ClipReceiver.Frame(s.(lastClip := Some(f)), h, p)
  {
  }

  /** Nothing received yet: the file is empty and the open file expects
      sequence number 1 with nothing buffered. */
  lemma NothingReceived(files: map<string, seq<byte>>, data: seq<byte>, size: nat, name: string)
    requires size > 0
    ensures FilesAfter(files, data, size, name, 0) == files[ClipHeader.SafeName(name) := []]
    ensures OpenFile(data, size, name, 0)
         == ClipReceiver.Receiving(ClipHeader.SafeName(name), |data|, Chunker.EstimatedChunks(|data|, size), 1, [])
  {
    assert Received(data, size, 0) == [];
    assert Decode([]) == Some([]);
  }

  /** A header naming the open file hands the payload to its checks. */
  lemma FrameContinues(s: ClipReceiver.Session, h: ClipHeader.Header, p: string, r: ClipReceiver.Receiving)
    requires s.current == Some(r) && h.name == Some(r.name)
    ensures ClipReceiver.Frame(s, h, p) == ClipReceiver.Take(s.lastClip, s.files, r, h, p)
  {
  }

  /** New clipboard text carrying a header that names a file and its size,
      polled while no file is open or while another file with nothing
      buffered is open, closes that file without writing, empties the named
      file and hands the payload to the checks of a new open file expecting
      sequence number 1. */
  lemma PollOpens(s: ClipReceiver.Session, f: string, h: ClipHeader.Header, p: string, n: string, fsize: int)
    requires Ready(s, n) && s.lastClip != Some(f) && Reads(f, h, p)
    requires h.name == Some(n) && h.fsize == Some(fsize) && ClipReceiver.FloatSized(fsize)
    ensures ClipReceiver.Poll(s, f)
         == ClipReceiver.Take(Some(f), s.files[n := []], ClipReceiver.Receiving(n, fsize, h.total, 1, []), h, p)
  {
    PollParsed(s, f, h, p);
    if s.current.Some? {
      var empty: string := [];
      assert Text.Strip(empty) == [];
      assert ClipReceiver.Flush(s.files, s.current.value) == Some(s.files);
    }
  }

  /** The first frame of a file, polled while no file is open or another
      file with nothing buffered is, opens the file under its sanitised name
      and absorbs the first payload. */
  lemma FirstFrame(s: ClipReceiver.Session, data: seq<byte>, size: nat, name: string)
    requires size > 0 && PlainName(name) && Announced(data, size) && 0 < |Chunker.Payloads(data, size)|
    requires Ready(s, ClipHeader.SafeName(name)) && s.lastClip != Some(ClipSender.FileFrames(data, size, name)[0])
    ensures ClipReceiver.Poll(s, ClipSender.FileFrames(data, size, name)[0])
         == ClipReceiver.Continue(After(s.files, data, size, name, 1))
  {
    var f := ClipSender.FileFrames(data, size, name)[0];
    var p := Chunker.Payloads(data, size)[0];
    var h := FrameHeader(data, size, name, 0);
    var n := ClipHeader.SafeName(name);
    var r := ClipReceiver.Receiving(n, |data|, h.total, 1, []);
    FrameView(data, size, name, 0);
    assert FilesAfter(s.files, data, size, name, 0) == s.files[n := []] && OpenFile(data, size, name, 0) == r by {
      NothingReceived(s.files, data, size, name);
    }
    TakeFrame(s.files, data, size, name, 0);
    PollOpens(s, f, h, p, n, |data|);
  }

  /** Frame `j` of a file, polled while the file is open after `j` frames,
      is new and moves the receiver to its state after `j + 1` frames. */
  lemma NextFrame(files: map<string, seq<byte>>, data: seq<byte>, size: nat, name: string, j: nat)
    requires size > 0 && PlainName(name) && Announced(data, size) && 1 <= j < |Chunker.Payloads(data, size)|
    ensures ClipReceiver.Poll(After(files, data, size, name, j), ClipSender.FileFrames(data, size, name)[j])
         == ClipReceiver.Continue(After(files, data, size, name, j + 1))
  {
    var s := After(files, data, size, name, j);
    var f := ClipSender.FileFrames(data, size, name)[j];
    var p := Chunker.Payloads(data, size)[j];
    var h := FrameHeader(data, size, name, j);
    var r := OpenFile(data, size, name, j);
    assert s == ClipReceiver.Session(Some(r), s.lastClip, FilesAfter(files, data, size, name, j));
    FramesDiffer(data, size, name, j - 1, j);
    FrameView(data, size, name, j);
    PollParsed(s, f, h, p);
    FrameContinues(s.(lastClip := Some(f)), h, p, r);
    TakeFrame(files, data, size, name, j);
  }

  /** One more clipboard text polled after a prefix of them. */
  lemma RunNext(s: ClipReceiver.Session, clips: seq<string>, j: nat, t: ClipReceiver.Session)
    requires j < |clips| && ClipReceiver.Run(s, clips[..j]) == ClipReceiver.Continue(t)
    ensures ClipReceiver.Run(s, clips[..j + 1]) == ClipReceiver.Poll(t, clips[j])
  {
    assert clips[..j + 1][..j] == clips[..j];
  }

  /** The first `j` frames of a file, polled in order from a state with no
      file open that did not last see the first frame, leave the receiver in
      its state after `j` frames. */
  lemma {:induction false} ReceiveFrames(s0: ClipReceiver.Session, data: seq<byte>, size: nat, name: string, j: nat)
    requires size > 0 && PlainName(name) && Announced(data, size) && 1 <= j <= |Chunker.Payloads(data, size)|
    requires Ready(s0, ClipHeader.SafeName(name)) && s0.lastClip != Some(ClipSender.FileFrames(data, size, name)[0])
    ensures ClipReceiver.Run(s0, ClipSender.FileFrames(data, size, name)[..j])
         == ClipReceiver.Continue(After(s0.files, data, size, name, j))
    decreases j
  {
    var frames := ClipSender.FileFrames(data, size, name);
    if j == 1 {
      RunNext(s0, frames, 0, s0);
      FirstFrame(s0, data, size, name);
    } else {
      ReceiveFrames(s0, data, size, name, j - 1);
      RunNext(s0, frames, j - 1, After(s0.files, data, size, name, j - 1));
      NextFrame(s0.files, data, size, name, j - 1);
    }
  }

  /** All frames received: the whole encoding is in, so the file holds the
      whole file, whether or not the receiver has closed it. */
  lemma AllReceived(files: map<string, seq<byte>>, data: seq<byte>, size: nat, name: string)
    requires size > 0 && 0 < |Chunker.Payloads(data, size)|
    ensures var s := After(files, data, size, name, |Chunker.Payloads(data, size)|);
      && s.files == files[ClipHeader.SafeName(name) := data]
      && (s.current.Some? ==> s.current.value.name == ClipHeader.SafeName(name) && s.current.value.buf == [])
  {
    var n := |Chunker.Payloads(data, size)|;
    var a := Received(data, size, n);
    ReceivedPrefix(data, size, n);
    DecodeEncode(data);
    EncodedLenValue(|data|);
    assert a[..ClipReceiver.Cut(|a|)] == Encode(data);
  }

  /** The whole transfer of one file: its frames, polled in order by a
      receiver with no file open that did not last see the first frame,
      write the file under its sanitised name and change no other file.
      The receiver closes the file exactly when the sender's estimate equals
      the number of payloads, which it does for a non-empty file whenever
      the chunk size is a multiple of four. An empty file sends nothing. */
  lemma FileTransfer(s0: ClipReceiver.Session, data: seq<byte>, size: nat, name: string)
    requires size > 0 && PlainName(name) && Announced(data, size)
    requires data != [] ==> Ready(s0, ClipHeader.SafeName(name)) && s0.lastClip != Some(ClipSender.FileFrames(data, size, name)[0])
    ensures var o := ClipReceiver.Run(s0, ClipSender.FileFrames(data, size, name));
      && o.Continue?
      && (data == [] ==> o.session == s0)
      && (data != [] ==>
            && o.session.files == s0.files[ClipHeader.SafeName(name) := data]
            && (o.session.current.None? <==> |Chunker.Payloads(data, size)| == Chunker.EstimatedChunks(|data|, size))
            && (size % 4 == 0 ==> o.session.current.None?)
            && (o.session.current.Some? ==>
                  o.session.current.value.name == ClipHeader.SafeName(name) && o.session.current.value.buf == [])
            && o.session.lastClip == Some(ClipSender.FileFrames(data, size, name)[|Chunker.Payloads(data, size)| - 1]))
  {
    var frames := ClipSender.FileFrames(data, size, name);
    var n := |Chunker.Payloads(data, size)|;
    Chunker.PayloadsSpellEncoding(data, size);
    if data != [] {
      assert frames[..n] == frames;
      ReceiveFrames(s0, data, size, name, n);
      AllReceived(s0.files, data, size, name);
      CountBelowEstimate(data, size);
    }
  }

  /** When the payload size is not a multiple of four the estimate can
      exceed the number of payloads: ten bytes encode to sixteen characters,
      which a size of three cuts into four pieces from the aligned twelve
      and one of the last four, while the estimate is six. */
  lemma EstimateOvercounts(data: seq<byte>)
    requires |data| == 10
    ensures |Chunker.Payloads(data, 3)| == 5 && Chunker.EstimatedChunks(|data|, 3) == 6
  {
    Chunker.PayloadsSpellEncoding(data, 3);
    Chunker.AlignedLenBounds(10);
    EncodedLenValue(10);
    assert Arith.CeilDiv(16, 3) == 6 by {
      Arith.CeilDivAbove(5, 3, 1);
    }
  }

  /** So a ten-byte file sent with a payload size of three is written whole
      but never closed: the receiver keeps waiting for a sixth frame. */
  lemma OvercountLeavesOpen(s0: ClipReceiver.Session, data: seq<byte>, name: string)
    requires |data| == 10 && PlainName(name)
    requires s0.current.None? && s0.lastClip != Some(ClipSender.FileFrames(data, 3, name)[0])
    ensures var o := ClipReceiver.Run(s0, ClipSender.FileFrames(data, 3, name));
      o.Continue? && o.session.current.Some? && o.session.files == s0.files[ClipHeader.SafeName(name) := data]
  {
    EstimateOvercounts(data);
    assert Announced(data, 3);
    FileTransfer(s0, data, 3, name);
  }

  /** Two clipboard texts are read one way only. */
  lemma ReadsOnce(f: string, h1: ClipHeader.Header, p1: string, h2: ClipHeader.Header, p2: string)
    requires Reads(f, h1, p1) && Reads(f, h2, p2)
    ensures h1 == h2 && p1 == p2
  {
  }

  /** Polling two runs of clipboard texts one after the other. */
  lemma {:induction false} RunAppend(s: ClipReceiver.Session, a: seq<string>, b: seq<string>, t: ClipReceiver.Session)
    requires ClipReceiver.Run(s, a) == ClipReceiver.Continue(t)
    ensures ClipReceiver.Run(s, a + b) == ClipReceiver.Run(t, b)
    decreases |b|
  {
    if |b| == 0 {
      assert a + b == a;
    } else {
      var k := |b| - 1;
      assert (a + b)[..|a + b| - 1] == a + b[..k];
      RunAppend(s, a, b[..k], t);
    }
  }

  /** The sanitised names of the files of a directory. */
  function Names(dir: seq<(string, seq<byte>)>): set<string> {
    set i | 0 <= i < |dir| :: ClipHeader.SafeName(dir[i].0)
  }

  /** The output directory after the files of `dir`, file after file: each
      non-empty file written under its sanitised name; an empty file sends
      no frame and is not created. */
  function DirFiles(files: map<string, seq<byte>>, dir: seq<(string, seq<byte>)>): map<string, seq<byte>> {
    if |dir| == 0 then files
    else
      var prev := DirFiles(files, dir[..|dir| - 1]);
      var (name, data) := dir[|dir| - 1];
      if data == [] then prev else prev[ClipHeader.SafeName(name) := data]
  }

  /** The last clipboard text, if any, is a frame the receiver reads as
      naming one of `names`. */
  ghost predicate LastNamesOneOf(c: Option<string>, names: set<string>) {
    c.None? || exists h: ClipHeader.Header, p: string :: Reads(c.value, h, p) && h.name.Some? && h.name.value in names
  }

  /** The receiver's state after the frames of the files `dir`: the files
      written, at most one of them still open with nothing buffered, and the
      last text seen a frame of one of them. */
  ghost predicate AfterDir(s: ClipReceiver.Session, files: map<string, seq<byte>>, dir: seq<(string, seq<byte>)>) {
    && s.files == DirFiles(files, dir)
    && (s.current.Some? ==> s.current.value.name in Names(dir) && s.current.value.buf == [])
    && LastNamesOneOf(s.lastClip, Names(dir))
  }

  /** Files a directory sender can send through one receiver: every name is
      carried unchanged by the header, and no two names sanitise alike. */
  predicate Sendable(dir: seq<(string, seq<byte>)>) {
    && (forall i :: 0 <= i < |dir| ==> PlainName(dir[i].0))
    && (forall i, j :: 0 <= i < j < |dir| ==> ClipHeader.SafeName(dir[i].0) != ClipHeader.SafeName(dir[j].0))
  }

  /** Every file of the directory has headers the receiver can read. */
  predicate DirAnnounced(dir: seq<(string, seq<byte>)>, size: nat) {
    forall i :: 0 <= i < |dir| ==> Announced(dir[i].1, size)
  }

  /** The first frame of the next file is new to a receiver whose last text
      was a frame of an earlier file. */
  lemma FirstFrameNew(c: Option<string>, names: set<string>, data: seq<byte>, size: nat, name: string)
    requires size > 0 && PlainName(name) && Announced(data, size) && data != []
    requires LastNamesOneOf(c, names) && ClipHeader.SafeName(name) !in names
    ensures Chunker.Payloads(data, size) != [] && c != Some(ClipSender.FileFrames(data, size, name)[0])
  {
    Chunker.PayloadsSpellEncoding(data, size);
    var f := ClipSender.FileFrames(data, size, name)[0];
    FrameView(data, size, name, 0);
    forall h, p | Reads(f, h, p)
      ensures h.name == Some(ClipHeader.SafeName(name))
    {
      ReadsOnce(f, h, p, FrameHeader(data, size, name, 0), Chunker.Payloads(data, size)[0]);
    }
  }

  /** The last frame of a non-empty file is read as naming the file. */
  lemma LastFrameNames(data: seq<byte>, size: nat, name: string, names: set<string>)
    requires size > 0 && PlainName(name) && Announced(data, size) && data != [] && ClipHeader.SafeName(name) in names
    ensures Chunker.Payloads(data, size) != []
    ensures LastNamesOneOf(Some(ClipSender.FileFrames(data, size, name)[|Chunker.Payloads(data, size)| - 1]), names)
  {
    Chunker.PayloadsSpellEncoding(data, size);
    var m := |Chunker.Payloads(data, size)|;
    FrameView(data, size, name, m - 1);
  }

  /** The frames of one more file, polled by a receiver whose open file
      and last text belong to earlier files named `before`, write the file
      and leave the open file and last text to the files named `before`
      and this one. */
  lemma FileAfterOthers(t: ClipReceiver.Session, data: seq<byte>, size: nat, name: string, before: set<string>)
    requires size > 0 && PlainName(name) && Announced(data, size) && ClipHeader.SafeName(name) !in before
    requires t.current.Some? ==> t.current.value.name in before && t.current.value.buf == []
    requires LastNamesOneOf(t.lastClip, before)
    ensures var o := ClipReceiver.Run(t, ClipSender.FileFrames(data, size, name));
      var n := ClipHeader.SafeName(name);
      && o.Continue?
      && o.session.files == (if data == [] then t.files else t.files[n := data])
      && (o.session.current.Some? ==> o.session.current.value.name in before + {n} && o.session.current.value.buf == [])
      && LastNamesOneOf(o.session.lastClip, before + {n})
  {
    var n := ClipHeader.SafeName(name);
    var frames := ClipSender.FileFrames(data, size, name);
    if data != [] {
      FirstFrameNew(t.lastClip, before, data, size, name);
    }
    FileTransfer(t, data, size, name);
    var o := ClipReceiver.Run(t, frames);
    if data != [] {
      LastFrameNames(data, size, name, before + {n});
    } else if t.lastClip.Some? {
      var h, p :| Reads(t.lastClip.value, h, p) && h.name.Some? && h.name.value in before;
      assert h.name.value in before + {n};
    }
  }

  /** The names of one more file. */
  lemma NamesStep(dir: seq<(string, seq<byte>)>, k: nat)
    requires Sendable(dir) && k < |dir|
    ensures Names(dir[..k + 1]) == Names(dir[..k]) + {ClipHeader.SafeName(dir[k].0)}
    ensures ClipHeader.SafeName(dir[k].0) !in Names(dir[..k])
  {
    assert forall i :: 0 <= i < k ==> dir[..k + 1][i] == dir[..k][i] == dir[i];
    assert dir[..k + 1][k] == dir[k];
  }

  /** One more file of the directory: its frames move the receiver from its
      state after the earlier files to its state after this one too. */
  lemma DirStep(t: ClipReceiver.Session, files: map<string, seq<byte>>, dir: seq<(string, seq<byte>)>, size: nat, k: nat)
    requires size > 0 && Sendable(dir) && DirAnnounced(dir, size) && k < |dir|
    requires AfterDir(t, files, dir[..k])
    ensures var o := ClipReceiver.Run(t, ClipSender.FileFrames(dir[k].1, size, dir[k].0));
      o.Continue? && AfterDir(o.session, files, dir[..k + 1])
  {
    assert dir[..k + 1][..k] == dir[..k] && dir[..k + 1][k] == dir[k];
    NamesStep(dir, k);
    FileAfterOthers(t, dir[k].1, size, dir[k].0, Names(dir[..k]));
  }

  /** The frames of the first `k` files, polled in order from the start. */
  lemma {:induction false} DirPrefix(files: map<string, seq<byte>>, dir: seq<(string, seq<byte>)>, size: nat, k: nat)
    requires size > 0 && Sendable(dir) && DirAnnounced(dir, size) && k <= |dir|
    ensures var o := ClipReceiver.Run(ClipReceiver.Initial(files), ClipSender.Flatten(ClipSender.DirFrames(dir, size)[..k]));
      o.Continue? && AfterDir(o.session, files, dir[..k])
    decreases k
  {
    var perFile := ClipSender.DirFrames(dir, size);
    var s0 := ClipReceiver.Initial(files);
    if k == 0 {
      assert perFile[..0] == [];
      assert dir[..0] == [];
    } else {
      DirPrefix(files, dir, size, k - 1);
      var t := ClipReceiver.Run(s0, ClipSender.Flatten(perFile[..k - 1])).session;
      assert perFile[..k][..k - 1] == perFile[..k - 1];
      assert ClipSender.Flatten(perFile[..k]) == ClipSender.Flatten(perFile[..k - 1]) + perFile[k - 1];
      RunAppend(s0, ClipSender.Flatten(perFile[..k - 1]), perFile[k - 1], t);
      DirStep(t, files, dir, size, k - 1);
    }
  }

  /** Every non-empty file of `dir` is written whole under its sanitised
      name, and every other name keeps its contents. */
  lemma {:induction false} DirFilesHold(files: map<string, seq<byte>>, dir: seq<(string, seq<byte>)>)
    requires Sendable(dir)
    ensures forall i :: 0 <= i < |dir| && dir[i].1 != [] ==>
      ClipHeader.SafeName(dir[i].0) in DirFiles(files, dir) && DirFiles(files, dir)[ClipHeader.SafeName(dir[i].0)] == dir[i].1
    ensures forall n :: n in files && n !in Names(dir) ==> n in DirFiles(files, dir) && DirFiles(files, dir)[n] == files[n]
    ensures forall n :: n in DirFiles(files, dir) ==> n in files || n in Names(dir)
    decreases |dir|
  {
    if |dir| > 0 {
      var k := |dir| - 1;
      var prev := dir[..k];
      assert Sendable(prev) by {
        assert forall i :: 0 <= i < k ==> prev[i] == dir[i];
      }
      DirFilesHold(files, prev);
      assert forall i :: 0 <= i < k ==> prev[i] == dir[i];
      assert Names(dir) == Names(prev) + {ClipHeader.SafeName(dir[k].0)};
    }
  }

  /** The whole transfer of a directory: the frames of its files, file
      after file, polled in order by a receiver that has seen nothing yet,
      write every non-empty file whole under its sanitised name and leave
      every other file as it was, whatever the payload size. When a file's
      estimate exceeds its frame count the file stays open, and the next
      file's first frame closes it without writing anything more. */
  lemma DirectoryTransfer(files: map<string, seq<byte>>, dir: seq<(string, seq<byte>)>, size: nat)
    requires size > 0 && Sendable(dir) && DirAnnounced(dir, size)
    ensures var o := ClipReceiver.Run(ClipReceiver.Initial(files), ClipSender.Flatten(ClipSender.DirFrames(dir, size)));
      && o.Continue?
      && (forall i :: 0 <= i < |dir| && dir[i].1 != [] ==>
            ClipHeader.SafeName(dir[i].0) in o.session.files && o.session.files[ClipHeader.SafeName(dir[i].0)] == dir[i].1)
      && (forall n :: n in files && n !in Names(dir) ==> n in o.session.files && o.session.files[n] == files[n])
      && (forall n :: n in o.session.files ==> n in files || n in Names(dir))
  {
    var perFile := ClipSender.DirFrames(dir, size);
    DirPrefix(files, dir, size, |dir|);
    assert perFile[..|dir|] == perFile;
    assert dir[..|dir|] == dir;
    DirFilesHold(files, dir);
  }
}

=== FILE: wrappers.dfy ===
/** The failure-compatible optional value used throughout the model. */
module Wrappers {

  /** A value that may be absent (Python's `None`, a missing dict key). */
  datatype Option<+T> = None | Some(value: T) {

    predicate IsFailure() {
      None?
    }

    function PropagateFailure<U>(): Option<U>
      requires None?
    {
      None
    }

    function Extract(): T
      requires Some?
    {
      value
    }

    /** The value, or `default` when absent (Python's `dict.get(k, default)`). */
    function GetOr(default: T): T {
      match this
      case Some(v) => v
      case None => default
    }
  }
}
